=== FILE: README.md ===
# EncoderUnlimited core, modelled in Dafny

EncoderUnlimited is a browser test-automation framework built on Playwright. This project models the parts of it that make decisions of their own:

- **Failure handling.** This covers failure-artifact capture (screenshot, latest video, page HTML, trace, error details) inside one Allure step. It also covers the detached, delayed browser close and its environment-controlled delay.
- **Test hooks.** The reusable before/after hooks, the `withFailureHandling` wrapper, the test helper's try/catch wrapper and the global `afterEach` hook.
- **Loggers.** The plain level-gated console logger and the Allure logger. The Allure logger buffers log entries and wraps work in steps.
- **Environment loader.** It keeps a cached configuration and the current environment name, both static.
- **Assertions.** Only those that decide pass or fail themselves.
- **Automation session.** The three lazily created handles and their guards.
- **MCP server.** The tool list, the call dispatcher, its error responses and the one readable resource.
- **Secret scanner.** The pattern catalogue, path exclusion, the recursive file walk, the per-line reporting filters, issue ordering, severity grouping and the exit code.

## Modelling conventions

- **Effects as event traces.** Asynchronous effects are a `Run`, in `Effects`: the events a piece of code emits, in order, and its outcome, `Completed` or `Threw(message)`. The events are console lines, log entries, attachments, opened steps, waits, close requests and closed contexts. Marker events record that a modelled function was called, so that "called exactly once" is a statement about a trace. `Then`, `Finally` and `Recover` give `await a; await b`, `try/finally` and `try/catch` their JavaScript meaning.
- **Inputs instead of I/O.**
  - What the outside world answers is an input: `Artifacts`, `Driver`, the configuration file map, the directory tree, the file contents.
  - So are the process environment (`ProcessEnv`), the clock (`ts`, `now`) and whether Allure accepts attachments (`active`).
  - The hooks take the failure handler's behaviour as a parameter. Separate lemmas instantiate it with `HandleFailureComprehensive`.
- **Regular expressions.** They are kept as their source text and flags. Matching is an abstract `Engine`. Every property of the scanner holds for every engine.
- **JavaScript built-ins.** `String.prototype.trim`, `includes`, `substring`, `parseInt(s, 10)` (ECMA-262 section 19.2.5), `===`, ToBoolean and `String(v)` are modelled concretely, in `JsStrings` and `JsValues`. JSON serialisation is an abstract function.

## Model

| member | source | states |
|---|---|---|
| JsValues.StrictEquals | src/utils/assertions.ts:365 | `===` holds exactly for values of the same type and value, objects by identity |
| JsValues.Render | src/utils/assertions.ts:366 | a string prints as itself; a number prints as decimal text that `parseInt` reads back to the same number; a boolean prints "true" exactly when it is true |
| JsValues.OrElse | src/config/environment.ts:50 | `v \|\| fallback` yields the value when it is a non-empty string and the fallback when it is missing or empty |
| JsStrings.Trim | src/utils/assertions.ts:326 | the trimmed text is the slice of the input with leading and trailing whitespace removed, and neither of its ends is whitespace |
| JsStrings.ParseInt | src/utils/failure-handler.ts:264 | `parseInt(s, 10)` gives a number only when the text holds a digit, and a negative number only when it holds a minus sign |
| JsStrings.TrimUnique | src/utils/assertions.ts:326 | there is only one slice of a string that drops only whitespace and keeps no whitespace at either end |
| JsStrings.TrimIdempotent | src/utils/assertions.ts:326 | trimming twice is trimming once |
| JsStrings.TrimIgnoresPadding | src/utils/assertions.ts:326 | whitespace added around a string does not change its trimmed form |
| JsStrings.ParseIntOfIntToString | src/utils/failure-handler.ts:264 | `parseInt` of an integer's decimal text, sign included, gives the integer back |
| JsStrings.ParseIntSkipsWhitespace | src/utils/failure-handler.ts:264 | leading whitespace does not change what `parseInt` reads |
| Logging.Rank | src/utils/logger.ts:5-10 | DEBUG, INFO, WARN and ERROR are numbered 0, 1, 2 and 3 |
| Logging.RanksAscend | src/utils/logger.ts:5-47 | the levels ascend DEBUG < INFO < WARN < ERROR, and a logger passes exactly the messages at its own level or above |
| Logging.FormatMessage | src/utils/logger.ts:19-23 | a line is exactly header plus message when there are no arguments; otherwise a space and the JSON of the arguments follow |
| Logging.HeaderReadsBack | src/utils/logger.ts:22 | reading a `[ts] [LEVEL] ` header back recovers the timestamp, the tag and the rest of the line unchanged, when neither holds `]` |
| Logging.FormatMessageReadsBack | src/utils/logger.ts:19-23 | every formatted line reads back to its timestamp and its level's label; its rest starts with the message and equals it exactly when there are no arguments |
| Logging.Emit | src/utils/logger.ts:25-47 | a message produces one line exactly when the configured rank is at most the message's rank, on the level's console channel; ERROR always passes; DEBUG passes only a DEBUG logger |
| Logging.GateMonotone | src/utils/logger.ts:26-44 | raising the configured level never lets more messages through |
| Logging.DefaultLoggerGate | src/utils/logger.ts:50 | the exported INFO logger prints every level except DEBUG |
| Logging.WarnLoggerGate | src/utils/logger.ts:25-47 | a WARN logger prints nothing for `debug` and `info` and one line for `warn` and `error` |
| AllureLogging.LogAttachmentName | src/utils/allure-logger.ts:32-34 | the per-message attachment is named "log-" followed by the lower-cased level |
| AllureLogging.Log | src/utils/allure-logger.ts:21-73 | a message that passes the gate appends one entry to the buffer and keeps the earlier entries. Its events are exactly the plain logger's line on the level's console channel, then the per-level JSON attachment when Allure is active. A message that fails the gate changes nothing |
| AllureLogging.ClearLogs | src/utils/allure-logger.ts:95-97 | the buffer becomes empty; the level is kept |
| AllureLogging.AttachLogs | src/utils/allure-logger.ts:78-90 | one "test-logs" JSON attachment exactly when the buffer is non-empty and Allure is active; nothing otherwise |
| AllureLogging.Attach | src/utils/allure-logger.ts:102-108 | exactly one event: the attachment when Allure is active, else a console note; it never rejects |
| AllureLogging.Step | src/utils/allure-logger.ts:113-121 | without Allure the step is the body's single run; with Allure it opens the step and runs the body; a body that resolves resolves the step; a body that rejects is run a second time by the catch, and that second run decides the outcome |
| AllureLogging.StepRunsBodyTwiceOnlyOnRejection | src/utils/allure-logger.ts:113-121 | each event occurs as often as in the first run, plus as often as in the second run; the second run happens exactly when Allure is active and the first run rejects |
| AllureLogging.RepeatedBodyRunsTwice | src/utils/allure-logger.ts:116-119 | for a body whose second run repeats its first, every event occurs twice exactly when Allure is active and the body rejects, and the step rejects with the body's error |
| AllureLogging.LoggedMessagesAreFlushed | src/utils/allure-logger.ts:78-97 | a message that passes the gate is flushed by the next attach when Allure is active, and nothing is flushed right after a clear |
| AllureLogging.SameGateAsPlainLogger | src/utils/allure-logger.ts:43-73 | the Allure logger passes exactly the messages the plain logger at the same level passes |
| StringOrder.Sort | src/utils/failure-handler.ts:130 | the result is sorted in character order and is a permutation of the input |
| StringOrder.LastOfSortedIsGreatest | src/utils/failure-handler.ts:38 | the last element of the sorted list is the greatest of the input |
| FailureHandling.CollectVideos | src/utils/failure-handler.ts:114-128 | the failure flag is set exactly when some entry's stat throws; every collected path is a joined video entry; without a failure every video entry is collected |
| FailureHandling.CollectStopsAtStatError | src/utils/failure-handler.ts:116-128 | entries after the first stat that throws are never looked at |
| FailureHandling.FindVideoFiles | src/utils/failure-handler.ts:111-131 | the result is the sorted permutation of the collected videos, none when the listing throws, and one console line exactly when either fails |
| FailureHandling.LatestVideo | src/utils/failure-handler.ts:34-38 | there is no latest video exactly when none is found; otherwise it is the greatest found path |
| FailureHandling.AttachVideo | src/utils/failure-handler.ts:29-46 | it always resolves and only writes console lines before its end; it ends with the latest video's attachment exactly when a latest video exists, can be read and Allure is active |
| FailureHandling.AttachScreenshot | src/utils/failure-handler.ts:14-24 | it always resolves with exactly one event: the screenshot is attached exactly when the capture succeeds and Allure is active (the buffer is always truthy); otherwise "Failed to capture screenshot:" is logged |
| FailureHandling.AttachPageHTML | src/utils/failure-handler.ts:136-144 | it always resolves with one event, the HTML attachment exactly when the content is read and Allure is active |
| FailureHandling.AttachTrace | src/utils/failure-handler.ts:51-63 | nothing happens without an existing trace file; otherwise the trace is attached exactly when it is readable and Allure is active, and a console line is written otherwise |
| FailureHandling.ErrorDetails | src/utils/failure-handler.ts:243-258 | no error means no event; otherwise the details are attached when Allure is active, and the refusal rejects when it is not |
| FailureHandling.CaptureAttemptsAll | src/utils/failure-handler.ts:229-259 | the step body's trace is the five captures' traces in order (screenshot, video, HTML, trace, details) and only the error details can make it reject |
| FailureHandling.ResolveCloseDelay | src/utils/failure-handler.ts:264 | an explicit delay wins; otherwise the parsed `BROWSER_CLOSE_DELAY_MS`, or 5000 when it is unset or empty |
| FailureHandling.HandleFailureComprehensive | src/utils/failure-handler.ts:226-273 | nothing for tests that neither failed nor timed out. Otherwise its trace is the whole capture step followed only by the close request it makes, if any; it ends as the error details do. It requests exactly one close, as its last event, when the step resolved and the delay is positive |
| FailureHandling.CaptureStepNeverReruns | src/utils/failure-handler.ts:229-259 | the capture step is the same whatever a second run of its body would do: its body rejects only when Allure is inactive, and then the fallback runs it once |
| FailureHandling.CaptureStep | src/utils/failure-handler.ts:229-259 | without Allure the step is just its body; with Allure it opens the step, runs the five captures and resolves |
| FailureHandling.HandlerCapturesInOrder | src/utils/failure-handler.ts:227-259 | on failure the handler's trace begins with the opened step (when Allure is active) followed by the screenshot, video, page HTML, trace and error-details captures, in that order |
| FailureHandling.ScheduleClose | src/utils/failure-handler.ts:264-271 | a rejection propagates unchanged; the step's trace is always kept as a prefix; a resolved step with a positive delay gets one close request appended; anything else is left as is |
| FailureHandling.DefaultAndDisabledDelays | src/utils/failure-handler.ts:264-271 | with the variable unset a failed test requests one close after 5000 ms; an explicit 0 requests none |
| FailureHandling.StatusText | src/utils/failure-handler.ts:195-197 | the messages say "after failure" exactly for failed or timed-out tests |
| FailureHandling.IsHeadless | src/utils/failure-handler.ts:186-188 | headless unless `HEADLESS` is "false" or `PWDEBUG` or `DEBUG` is set (a definition with no contract; its consequences are stated by CloseBrowserAfterTest) |
| FailureHandling.Seconds | src/utils/failure-handler.ts:198 | `${delayMs / 1000}` starts with the whole seconds, and is exactly them when the delay is a whole number of seconds; a negative delay prints with a minus sign |
| FailureHandling.SecondsOfWholeSeconds | src/utils/failure-handler.ts:198 | a delay of whole seconds prints as the plain integer |
| FailureHandling.CloseBrowserAfterTest | src/utils/failure-handler.ts:173-212 | it never rejects. A missing or disconnected browser only logs "Browser already closed". Headed mode logs only "Browser kept open for debugging (headed mode)" and leaves the session untouched. In headless mode the routine first announces "Browser will close in <seconds> seconds <status text>", then waits the full delay, then re-reads the connection. If the browser is gone it stops; otherwise the third event is the close, or the console error when the close fails. A close that happens is followed only by the "Browser closed" line, four events in all. The context is closed exactly when a context exists, the browser was connected before and after the wait, the mode is headless and the close succeeds; then the last line says "Browser closed" and the status text |
| FailureHandling.WaitsBeforeClosing | src/utils/failure-handler.ts:198-205 | the context is never closed before the routine has waited the full delay |
| FailureHandling.CloseBrowserAfterFailure | src/utils/failure-handler.ts:219-221 | a close it performs ends with "Browser closed after failure" |
| FailureHandling.SecondCloseChangesNothing | src/utils/failure-handler.ts:173-212 | a second close request under the same conditions leaves the session as the first one left it |
| TestHooks.BeforeEachHook | src/hooks/test-hooks.ts:12-19 | one console line; it cannot reject |
| TestHooks.AfterEachHook | src/hooks/test-hooks.ts:25-44 | it never rejects; it calls the handler exactly once for failed or timed-out tests and never otherwise; passed and skipped tests get one console line; other statuses get nothing |
| TestHooks.AfterEachHookWithHandler | src/hooks/test-hooks.ts:27-38 | with the real handler the hook still resolves, also when the handler rejects, and reports that rejection on the console |
| TestHooks.WithFailureHandling | src/hooks/test-hooks.ts:49-63 | before-hook, test body and after-hook run in this order; the result is the body's; the after-hook runs whatever the body did |
| TestHooks.WithFailureHandlingIsTryFinally | src/hooks/test-hooks.ts:53-61 | the wrapper is exactly `try { before; body } finally { after }` |
| TestHooks.AfterHookRunsOnce | src/hooks/test-hooks.ts:53-61 | the after-hook is invoked exactly once per wrapped test |
| TestHelper.ExecuteWithFailureHandling | src/utils/test-helper.ts:12-24 | a resolving body is passed through unchanged; a rejecting body is followed by the handler exactly once and ends with the body's own error unless the handler rejects first |
| TestHelper.WrapTest | src/utils/test-helper.ts:29-35 | the wrapped function hands its own page and test info both to the test and to the failure handler |
| TestHelper.RethrowsOriginalError | src/utils/test-helper.ts:19-23 | with the real handler a rejected test calls the handler once, and the test's own error is rethrown unless the handler rejects |
| TestHelper.WrappedHandlerCalls | src/utils/test-helper.ts:29-35 | a wrapped test calls the handler once when it rejects and never when it resolves |
| GlobalHooks.GlobalDelay | tests/global-hooks.ts:23 | the delay is the parsed `BROWSER_CLOSE_DELAY_MS`, or 5000 when it is unset or empty |
| GlobalHooks.GlobalDelayMatchesHandler | tests/global-hooks.ts:23 | the hook and the handler resolve the delay alike when the handler gets no explicit delay |
| GlobalHooks.Capture | tests/global-hooks.ts:17-19 | the handler runs only for failed or timed-out tests, and its trace and outcome pass through |
| GlobalHooks.GlobalAfterEach | tests/global-hooks.ts:15-30 | the handler's trace comes first; if the handler resolves and the delay is positive, one close request follows, last; close requests are counted exactly |
| GlobalHooks.TwoClosesOnFailure | tests/global-hooks.ts:17-29 | a failed test whose capture resolves gets two identical close requests, back to back at the end, when the delay is positive |
| GlobalHooks.OneCloseOtherwise | tests/global-hooks.ts:21-29 | every other status gets exactly one close request when the delay is positive, and no handler call |
| GlobalHooks.RefusedDetailsMeanNoClose | tests/global-hooks.ts:17-19 | when the handler rejects, the hook rejects and no close is requested at all |
| GlobalHooks.DefaultDelayCloses | tests/global-hooks.ts:23-29 | with the variable unset a test that did not fail gets exactly one close request after 5000 ms |
| Environment.RawName | src/config/environment.ts:50 | the name is the first non-empty one of the argument, `ENV` and `NODE_ENV`, else "preview" |
| Environment.ConfigPath | src/config/environment.ts:59 | the configuration file lies under the working directory, in `config/`, named after the environment with `.json` |
| Environment.ConfigPathInjective | src/config/environment.ts:59 | different environment names read different files |
| Environment.ResolveName | src/config/environment.ts:50-51 | that name, ASCII-lower-cased letter by letter, with no upper-case letter left |
| Environment.Override | src/config/environment.ts:71-82 | the parsed file gets the resolved name; `BASE_URL`, `API_URL` and `TIMEOUT` override their fields when set; every other field is the file's |
| Environment.LoadEnvironment | src/config/environment.ts:48-93 | the current name is always updated; a cache hit returns the cached configuration; otherwise a missing file, an unreadable file and malformed JSON each give their error, and a parsed file gives the overridden configuration, which becomes the cache; a failure keeps the old cache |
| Environment.GetConfig | src/config/environment.ts:98-103 | a cached configuration is returned as is; without one it loads the environment the process resolves to |
| Environment.Reset | src/config/environment.ts:108-111 | the cache is empty and the name is "preview" again |
| Environment.GetBaseURL | src/config/environment.ts:116-118 | the base URL of the configuration `getConfig` yields, with its error when there is none |
| Environment.GetAPIURL | src/config/environment.ts:123-125 | the API URL of the configuration `getConfig` yields, with its error when there is none |
| Environment.GetCredentials | src/config/environment.ts:130-132 | the credentials of the configuration `getConfig` yields, with its error when there is none |
| Environment.IsFeatureEnabled | src/config/environment.ts:137-139 | the named flag of the configuration `getConfig` yields, with its error when there is none |
| Environment.AutoLoad | src/config/environment.ts:143 | the import-time load succeeds exactly when the resolved environment's file exists and parses |
| Environment.CacheHitIgnoresFiles | src/config/environment.ts:54-56 | a cache hit reads no file: its result depends neither on the files nor on the working directory |
| Environment.SameArgumentSameName | src/config/environment.ts:50-51 | a non-empty argument decides the name, whatever the process environment holds |
| Environment.SecondLoadIsCached | src/config/environment.ts:54-56 | after a successful load, loading the same environment again returns the same result, whatever the files say by then |
| Environment.FailedSwitchLeavesStaleConfig | src/config/environment.ts:51-66 | a failed load of another environment switches the current name, but `getConfig` keeps returning the old environment's configuration |
| Environment.ResetForcesReload | src/config/environment.ts:98-111 | after a reset `getConfig` performs the import-time load again |
| Environment.NamesAreCaseInsensitive | src/config/environment.ts:51 | an argument and its lower-cased form load the same environment |
| Assertions.Failure | src/utils/assertions.ts:123 | the thrown message is the caller's message when it is non-empty, and the default otherwise |
| Assertions.HasAttribute | src/utils/assertions.ts:118-127 | passes exactly when the attribute exists; otherwise fails with the attribute message |
| Assertions.CountGreaterThan | src/utils/assertions.ts:171-180 | passes exactly when the count exceeds the minimum; otherwise fails with both numbers in the message |
| Assertions.CountLessThan | src/utils/assertions.ts:185-194 | passes exactly when the count is below the maximum; otherwise fails with both numbers in the message |
| Assertions.URLContains | src/utils/assertions.ts:212-221 | passes exactly when the URL contains the expected text |
| Assertions.TitleContains | src/utils/assertions.ts:239-248 | passes exactly when the title contains the expected text |
| Assertions.CSSProperty | src/utils/assertions.ts:318-331 | passes exactly when the trimmed computed value equals the trimmed expected value |
| Assertions.Equal | src/utils/assertions.ts:362-370 | passes exactly when the values are strictly equal |
| Assertions.NotEqual | src/utils/assertions.ts:375-383 | passes exactly when the values are not strictly equal |
| Assertions.IsTrue | src/utils/assertions.ts:388-396 | passes exactly on true |
| Assertions.IsFalse | src/utils/assertions.ts:401-409 | passes exactly on false |
| Assertions.Contains | src/utils/assertions.ts:414-422 | passes exactly when the array holds a strictly equal element |
| Assertions.StringContains | src/utils/assertions.ts:427-435 | passes exactly when the string contains the substring |
| Assertions.GreaterThan | src/utils/assertions.ts:440-448 | passes exactly when actual exceeds expected |
| Assertions.LessThan | src/utils/assertions.ts:453-461 | passes exactly when actual is below expected |
| Assertions.EqualNotEqualComplementary | src/utils/assertions.ts:362-383 | `assertEqual` passes exactly when `assertNotEqual` fails |
| Assertions.TrueFalseComplementary | src/utils/assertions.ts:388-409 | `assertTrue` passes exactly when `assertFalse` fails |
| Assertions.CountBoundsComplementary | src/utils/assertions.ts:171-194 | on whole counts "more than k" passes exactly when "less than k + 1" fails |
| Assertions.GreaterLessMirror | src/utils/assertions.ts:440-461 | `assertGreaterThan(a, b)` and `assertLessThan(b, a)` agree |
| Assertions.CSSIgnoresPadding | src/utils/assertions.ts:326 | a computed style that differs from the expected value only by surrounding whitespace passes |
| Assertions.StringContainsItsParts | src/utils/assertions.ts:430 | a string built around the substring passes, and so does every string against the empty substring |
| Assertions.AsStep | src/utils/assertions.ts:119-126 | the run that decides the step gives the outcome: the first run's verdict, or with Allure active and a first failure the second run's; the check mark is logged exactly when the step resolves |
| Assertions.FailingAssertionLogsTwice | src/utils/assertions.ts:119-126 | with Allure active a failing assertion logs its attempt twice, and the verdict of the second run decides the step |
| Assertions.StableFailureThrowsItsMessage | src/utils/assertions.ts:119-126 | when the second run reaches the same verdict, a failing assertion throws its own message, with or without Allure |
| Automation.Init | src/core/playwright-automation.ts:15-21 | it succeeds exactly when launch, context and page all succeed, which sets all three handles; a failed launch changes nothing; a page handle afterwards means success or an existing page |
| Automation.Navigate | src/core/playwright-automation.ts:26-31 | an existing page is reused and only the `goto` result counts; otherwise an initialisation failure is returned as is; success means a page exists and `goto` succeeded |
| Automation.Click | src/core/playwright-automation.ts:36-47 | without a page it fails and tries nothing; otherwise it tries the raw selector first and the `text=` selector only when that fails, and succeeds when either succeeds |
| Automation.Fill | src/core/playwright-automation.ts:52-57 | it needs a page and succeeds exactly when the driver's fill succeeds |
| Automation.DefaultScreenshotPath | src/core/playwright-automation.ts:66 | the default file name ends in ".png" |
| Automation.Screenshot | src/core/playwright-automation.ts:62-69 | it needs a page; it writes to the given path, or to the clock-named default when the path is missing or empty, and returns that non-empty path |
| Automation.GetText | src/core/playwright-automation.ts:74-79 | it needs a page; it returns the element's text, "" when the text is null |
| Automation.WaitForSelector | src/core/playwright-automation.ts:84-89 | it needs a page and succeeds exactly when the wait succeeds; the timeout reaches the browser as given |
| Automation.GetBrowserState | src/core/playwright-automation.ts:94-107 | it needs a page; it returns URL and title, and the page's viewport, or 1920x1080 when there is none |
| Automation.Close | src/core/playwright-automation.ts:112-122 | success drops all three handles and requires the closes of the handles that are set to succeed; a failure leaves the session unchanged |
| Automation.GuardsWithoutPage | src/core/playwright-automation.ts:36-107 | without a page every operation except `navigate` throws "Page not initialized" |
| Automation.CloseResets | src/core/playwright-automation.ts:112-122 | closing a fresh session succeeds; after a successful close the next navigation initialises anew |
| Automation.NavigateInitialisesOnce | src/core/playwright-automation.ts:27-29 | a second navigation keeps the handles of the first |
| Automation.ClickFallbackOnlyAfterFailure | src/core/playwright-automation.ts:42-46 | the text selector is tried only after the raw selector failed |
| McpServer.ToolListMatchesDispatch | src/mcp/server.ts:41-135 | the listed tool names are exactly the dispatched ones, in the same order |
| McpServer.RequiredArgumentsDeclared | src/mcp/server.ts:41-135 | every required argument of a listed tool is one of its declared properties |
| McpServer.TimeoutArg | src/mcp/server.ts:198-201 | `args.timeout` is passed on as it is, Undefined when absent; the cast checks nothing |
| McpServer.Dispatch | src/mcp/server.ts:142-213 | an unknown name fails naming the tool; missing arguments fail on the first field read; only `navigate` changes the session; each tool succeeds exactly when its automation call does, answers with its fixed template, and fails with the automation call's own message. `wait_for_selector` passes `args.timeout` on unchanged, whatever its type |
| McpServer.CallTool | src/mcp/server.ts:138-226 | a response is an error exactly when the dispatch threw, carrying "Error: " and the message; otherwise it is the success text |
| McpServer.UnknownToolAnswersError | src/mcp/server.ts:212-224 | a name outside the tool list gets the error response "Unknown tool", and the session is unchanged |
| McpServer.ToolsBeforeNavigation | src/mcp/server.ts:154-210 | before any navigation every other tool answers with the "Page not initialized" error |
| McpServer.GetTextVerbatim | src/mcp/server.ts:187-196 | `get_text` answers with the element's text verbatim |
| McpServer.ListResources | src/mcp/server.ts:229-238 | exactly one resource is listed, the browser state |
| McpServer.ReadResource | src/mcp/server.ts:241-255 | any other URI throws "Unknown resource"; the browser state reads as JSON exactly when the browser state can be obtained |
| McpServer.ListedResourcesReadable | src/mcp/server.ts:229-255 | every listed resource can be read once a page exists |
| SecretScanner.AnyMatch | scripts/scan-secrets.js:180 | true exactly when some regex of the list matches |
| SecretScanner.ShouldExclude | scripts/scan-secrets.js:178-191 | always-scan paths are never excluded; documentation paths are excluded; any other path is excluded exactly when an exclude pattern matches |
| SecretScanner.GetAllFiles | scripts/scan-secrets.js:256-275 | a completed walk lists no excluded file; a stat that throws, or a listing that throws for a directory the walk enters, ends the walk with that path |
| SecretScanner.GetAllFilesSound | scripts/scan-secrets.js:256-275 | every file a completed walk lists is reachable from the root through directories that are not excluded |
| SecretScanner.GetAllFilesComplete | scripts/scan-secrets.js:256-275 | a completed walk lists every file that is not excluded and is reachable through directories that are not excluded |
| SecretScanner.GetAllFilesFaultSound | scripts/scan-secrets.js:256-275 | a walk that throws names an entry, reached through directories that are not excluded, whose stat throws or whose listing throws when the walk enters it |
| SecretScanner.GetAllFilesFaultComplete | scripts/scan-secrets.js:256-275 | any such entry makes the whole walk throw |
| SecretScanner.EmailCaseByName | scripts/scan-secrets.js:219 | the by-name test for the email pattern picks out exactly the email pattern |
| SecretScanner.Reports | scripts/scan-secrets.js:205-231 | the per-line decision: the pattern matches, none of its exclusions does, the email special case does not apply, and a documentation-like line needs a real key shape (a definition; the lemmas below state its consequences) |
| SecretScanner.MakeIssue | scripts/scan-secrets.js:233-239 | an issue has a 1-based line number and the pattern's severity. Its snippet is the first 100 characters of the trimmed line: exactly 100 of them, or the whole trimmed line when it is shorter |
| SecretScanner.ScanLines | scripts/scan-secrets.js:204-241 | each issue comes from a reported line at or after the start; every reported line gives its issue |
| SecretScanner.ScanLinesOrdered | scripts/scan-secrets.js:204-241 | one pattern's issues come in ascending line order |
| SecretScanner.ScanPatternsSound | scripts/scan-secrets.js:203-242 | every issue is a reported match of a catalogue pattern on its line |
| SecretScanner.ScanPatternsComplete | scripts/scan-secrets.js:203-242 | every reported match of every pattern on every line is an issue |
| SecretScanner.ScanPatternsOrdered | scripts/scan-secrets.js:203-242 | issues are grouped by pattern in catalogue order, and by line within a pattern |
| SecretScanner.SecretPatternsDistinct | scripts/scan-secrets.js:26-136 | no pattern occurs twice in the catalogue |
| SecretScanner.PatternRegex | scripts/scan-secrets.js:26-136 | the regex source and flags of each catalogue entry (a table with no contract) |
| SecretScanner.PatternSeverity | scripts/scan-secrets.js:26-136 | the severity of each catalogue entry (a table with no contract) |
| SecretScanner.PatternExcludes | scripts/scan-secrets.js:26-136 | the exclusion regexes of the password and email entries, and none for the others (a table with no contract) |
| SecretScanner.ScanFile | scripts/scan-secrets.js:196-251 | an unreadable file gives no issues; a readable one gives exactly the reported matches |
| SecretScanner.ScanFileSound | scripts/scan-secrets.js:203-242 | every issue of a file is a reported match on its line |
| SecretScanner.ScanFileComplete | scripts/scan-secrets.js:203-242 | every reported match in a file is an issue |
| SecretScanner.ScanFileOrdered | scripts/scan-secrets.js:203-242 | a file's issues come in catalogue order, then by line |
| SecretScanner.OfSeverityMembers | scripts/scan-secrets.js:296-299 | a severity group holds exactly the issues of that severity |
| SecretScanner.SeverityGroupsPartition | scripts/scan-secrets.js:296-299 | the four groups together are as many as all issues |
| SecretScanner.ExitCode | scripts/scan-secrets.js:364-373 | the exit code is 1 exactly when some issue is critical or high, and 0 otherwise |
| SecretScanner.ScanAll | scripts/scan-secrets.js:288-293 | every issue is one its own file's scan yields, from a scanned file; every issue of every scanned file is kept |
| SecretScanner.ScanCodebaseSound | scripts/scan-secrets.js:284-293 | every issue of a report is a reported match on its line of a scanned, readable file |
| SecretScanner.ScanCodebaseComplete | scripts/scan-secrets.js:284-373 | every reported match in every scanned, readable file reaches the report, and a critical or high one makes the exit code 1 |
| SecretScanner.ScanCodebase | scripts/scan-secrets.js:280-374 | a throwing walk gives no report, only the path it failed on; otherwise no scanned file is excluded, the report holds exactly the issues of the scanned files' scans, the four groups partition the issues by severity, and the exit code is 1 exactly when there is a blocking issue |
| SecretScanner.ScanCodebaseAborts | scripts/scan-secrets.js:256-284 | an entry on which the walk throws, reached through directories that are not excluded, leaves no report at all |
| SecretScanner.EmailExamplesNeverReported | scripts/scan-secrets.js:219-223 | an email match on a line mentioning example, test or sample is never reported |
| SecretScanner.DocumentationLinesNeedRealKey | scripts/scan-secrets.js:226-231 | a line with a documentation keyword is reported only when it also holds an OpenAI or AWS key shape |
| SecretScanner.RealKeysAlwaysReported | scripts/scan-secrets.js:226-231 | a line holding an OpenAI or AWS key shape is reported for that pattern, documentation keywords notwithstanding |
| SecretScanner.ExcludedLinesNeverReported | scripts/scan-secrets.js:209-216 | a line matching one of a pattern's exclusions is never reported for that pattern |

## Left out

- Regular-expression semantics. Every regex is an uninterpreted `Engine` parameter. The scanner's properties hold for any engine, and no property depends on what a particular pattern matches.
- JSON. `JSON.stringify` and `JSON.parse` are abstract. A configuration file either fails to read, is malformed or parses to an `EnvConfig`. A file whose JSON is valid but not an object is not modelled.
- Real time. The clock is a parameter. `setTimeout` becomes a `Waited` event. The close that the hooks start without awaiting it becomes a `CloseRequested` event; its effect is `CloseBrowserAfterTest`, applied separately.
- Strings. Strings are sequences of Unicode scalar values, not UTF-16 code units. Case mapping covers ASCII only. Sort order is by character value.
- Numbers. They are modelled as integers, so NaN is `None`. Fractional and non-finite numbers are not modelled.
- Paths. `path.join` is concatenation with "/"; it does not normalise `..` or duplicate separators.
- Console output. The environment loader's console output is not modelled. Neither are the scanner's report printing and its unreadable-file warnings, which do not affect the result.
- Operations not modelled:
  - `attachConsoleLogs` and `handleTestFailure` of the failure handler: neither is called by the hooks that are modelled.
  - The page objects, `web-operations`, the BDD helpers, the fixtures and the MCP client: they only forward to Playwright.
  - The assertions implemented with Playwright's `expect`: their verdict is Playwright's.
  - The MCP server's transport start-up.
- Automation.Init: the `headless` launch option is not modelled, because it only reaches the browser.
- AllureLogging.Step: one flag, `active`, says both whether `allure.step` runs the body and whether attachments are accepted. A step that rejects after its body resolved is not modelled.
- AllureLogging.Log: the buffered entry and the console line carry the same timestamp `ts`, whereas the source reads the clock twice.
- Assertions.AsStep: the attempt and success lines are abstract strings, without the JSON of their arguments.
- McpServer.Dispatch: arguments are inserted as `String(value)`, whatever the declared cast. For missing arguments the error text is the V8 `TypeError` message.
- SecretScanner.GetAllFiles: the directory tree is finite. A link cycle, which `statSync` would follow until the stack overflows, cannot be written down. The listing of the root itself is taken to succeed.
- FailureHandling.CloseBrowserAfterTest: the seconds in the message are printed exactly only for whole milliseconds; negative or fractional delays are not modelled further.
- TestHelper.ExecuteWithFailureHandling: `testInfo.status` is an input. Whether the handler captures anything depends on that status, not on the rejection the helper caught.

=== FILE: allure_logger.dfy ===
/** The Allure-integrated logger (src/utils/allure-logger.ts): the same level gate and
    line format as the plain logger, plus a buffer of emitted entries, a per-message
    attachment, a flush of the buffer as one attachment, and a step wrapper that falls back
    to running the body directly.

    Whether Allure accepts an attachment (it refuses outside a running test) and whether
    `allure.step` works are inputs: `active`. */
module AllureLogging {
  import opened Wrappers
  import opened JsStrings
  import opened JsValues
  import opened Logging
  import opened Effects

  datatype LogEntry = LogEntry(level: string, message: string, timestamp: string)

  datatype AllureLogger = AllureLogger(level: LogLevel, logs: seq<LogEntry>)

  /** The exported `allureLogger` instance, before anything is logged. */
  const DefaultAllureLogger: AllureLogger := AllureLogger(INFO, [])

  /** The name of the per-message attachment: "log-" and the lower-case level. */
  function LogAttachmentName(at: LogLevel): (name: string)
    ensures name == "log-" + LowerAscii(Label(at))
  {
    LowerLabel(at);
    match at
    case DEBUG => "log-debug"
    case INFO => "log-info"
    case WARN => "log-warn"
    case ERROR => "log-error"
  }

  lemma LowerLabel(at: LogLevel)
    ensures at == DEBUG ==> LowerAscii(Label(at)) == "debug"
    ensures at == INFO ==> LowerAscii(Label(at)) == "info"
    ensures at == WARN ==> LowerAscii(Label(at)) == "warn"
    ensures at == ERROR ==> LowerAscii(Label(at)) == "error"
  {
    var l := LowerAscii(Label(at));
    match at
    case DEBUG => assert l[0] == 'd' && l[1] == 'e' && l[2] == 'b' && l[3] == 'u' && l[4] == 'g';
    case INFO => assert l[0] == 'i' && l[1] == 'n' && l[2] == 'f' && l[3] == 'o';
    case WARN => assert l[0] == 'w' && l[1] == 'a' && l[2] == 'r' && l[3] == 'n';
    case ERROR => assert l[0] == 'e' && l[1] == 'r' && l[2] == 'r' && l[3] == 'o' && l[4] == 'r';
  }

  /** `debug`/`info`/`warn`/`error` of the Allure logger. When the gate lets the message
      through: one console line, one buffered entry, and a JSON attachment when Allure
      accepts it (a refusal is swallowed). When it does not: nothing at all. */
  function Log(lg: AllureLogger, at: LogLevel, ts: string, message: string, args: seq<JsValue>,
               json: Stringify, active: bool): (r: (AllureLogger, seq<Event>))
    ensures r.0.level == lg.level
    ensures |r.0.logs| == |lg.logs| + (if Enabled(lg.level, at) then 1 else 0)
    ensures r.0.logs[..|lg.logs|] == lg.logs
    ensures Enabled(lg.level, at) ==>
              r.0.logs[|lg.logs|] == LogEntry(Label(at), FormatMessage(ts, Label(at), message, args, json), ts)
    ensures !Enabled(lg.level, at) ==> r.1 == []
    ensures Enabled(lg.level, at) ==>
              |r.1| >= 1 &&
              r.1[0] == Console(ChannelOf(at), FormatMessage(ts, Label(at), message, args, json)) &&
              (Attached(LogAttachmentName(at), "application/json", None) in r.1 <==> active)
    ensures Enabled(lg.level, at) ==> |r.1| == (if active then 2 else 1)
    ensures Enabled(lg.level, at) && active ==> r.1[1] == Attached(LogAttachmentName(at), "application/json", None)
  {
    if !Enabled(lg.level, at) then (lg, [])
    else
      var formatted := FormatMessage(ts, Label(at), message, args, json);
      var entry := LogEntry(Label(at), formatted, ts);
      var attachment := if active then [Attached(LogAttachmentName(at), "application/json", None)] else [];
      (lg.(logs := lg.logs + [entry]), [Console(ChannelOf(at), formatted)] + attachment)
  }

  /** `clearLogs`. */
  function ClearLogs(lg: AllureLogger): (r: AllureLogger)
    ensures r.logs == [] && r.level == lg.level
  {
    lg.(logs := [])
  }

  /** `attachLogsToAllure`: one "test-logs" attachment when the buffer holds anything and
      Allure accepts it. The buffer is read, never changed. */
  function AttachLogs(lg: AllureLogger, active: bool): (es: seq<Event>)
    ensures |es| <= 1
    ensures |es| == 1 <==> |lg.logs| > 0 && active
    ensures |es| == 1 ==> es[0] == Attached("test-logs", "application/json", None)
  {
    if |lg.logs| > 0 && active then [Attached("test-logs", "application/json", None)] else []
  }

  /** `attach`: the attachment when Allure accepts it, otherwise a console note; never
      throws. */
  function Attach(name: string, mime: string, active: bool): (es: seq<Event>)
    ensures |es| == 1
    ensures es[0].Attached? <==> active
    ensures active ==> es[0] == Attached(name, mime, None)
    ensures !active ==> es[0].Console? && es[0].channel == ConsoleLog
  {
    if active then [Attached(name, mime, None)]
    else [Console(ConsoleLog, "[Allure] Attachment " + name + " skipped (not in test context)")]
  }

  /** `step(name, body)`. With Allure active, `allure.step` opens the step and runs the body;
      a rejection of the body rejects `allure.step`, and the fallback in the catch calls the
      body a second time, which is `rerun` and decides the result. With Allure inactive,
      `allure.step` throws before the body and the fallback runs it once. */
  function Step(name: string, body: Run, rerun: Run, active: bool): (r: Run)
    ensures !active ==> r == body
    ensures active && body.outcome.Completed? ==> r.outcome == Completed
    ensures active && body.outcome.Threw? ==> r.outcome == rerun.outcome
    ensures active ==> |r.events| >= 1 + |body.events| && r.events[0] == StepOpened(name) &&
                       r.events[1..1 + |body.events|] == body.events
  {
    if !active then body
    else if body.outcome.Completed? then Run([StepOpened(name)] + body.events, Completed)
    else Run([StepOpened(name)] + body.events + rerun.events, rerun.outcome)
  }

  /** Every event of the body's first run shows up once more for each event of the second
      run, and the second run happens exactly when Allure is active and the first rejects. */
  lemma StepRunsBodyTwiceOnlyOnRejection(name: string, body: Run, rerun: Run, active: bool, e: Event)
    requires e != StepOpened(name)
    ensures Count(Step(name, body, rerun, active).events, e)
            == Count(body.events, e) + (if active && body.outcome.Threw? then Count(rerun.events, e) else 0)
  {
    if active {
      var r := Step(name, body, rerun, active);
      if body.outcome.Completed? {
        assert r.events == [StepOpened(name)] + body.events;
        CountConcat([StepOpened(name)], body.events, e);
      } else {
        assert r.events == [StepOpened(name)] + (body.events + rerun.events);
        CountConcat([StepOpened(name)], body.events + rerun.events, e);
        CountConcat(body.events, rerun.events, e);
      }
      assert Count([StepOpened(name)], e) == 0;
    }
  }

  /** A body whose second run repeats its first: with Allure active a rejection doubles
      every event of the body and keeps its error; otherwise each event occurs once. */
  lemma RepeatedBodyRunsTwice(name: string, body: Run, active: bool, e: Event)
    requires e != StepOpened(name)
    ensures Count(Step(name, body, body, active).events, e)
            == (if active && body.outcome.Threw? then 2 else 1) * Count(body.events, e)
    ensures Step(name, body, body, active).outcome == body.outcome
  {
    StepRunsBodyTwiceOnlyOnRejection(name, body, body, active, e);
  }

  /** A message that passes the gate is flushed by the next `attachLogsToAllure` (when
      Allure accepts attachments); after `clearLogs` nothing is flushed. */
  lemma LoggedMessagesAreFlushed(lg: AllureLogger, at: LogLevel, ts: string, message: string,
                                 args: seq<JsValue>, json: Stringify, active: bool)
    ensures Enabled(lg.level, at) && active ==>
              AttachLogs(Log(lg, at, ts, message, args, json, active).0, active)
              == [Attached("test-logs", "application/json", None)]
    ensures AttachLogs(ClearLogs(lg), active) == []
  {
  }

  /** The Allure logger passes exactly the messages the plain logger at the same level
      prints. */
  lemma SameGateAsPlainLogger(lg: AllureLogger, at: LogLevel, ts: string, message: string,
                              args: seq<JsValue>, json: Stringify, active: bool)
    ensures |Log(lg, at, ts, message, args, json, active).1| > 0
            <==> |Emit(Logger(lg.level), at, ts, message, args, json)| == 1
  {
  }
}

=== FILE: assertions.dfy ===
/** The assertions of src/utils/assertions.ts that decide pass or fail themselves instead
    of handing the comparison to Playwright's `expect`. What they read from the page (an
    attribute, an element count, the URL, the title, a computed style) is an input. Each
    runs inside an Allure step that logs the attempt, throws the failure message, and logs
    a check mark on success. */
module Assertions {
  import opened Wrappers
  import opened JsStrings
  import opened JsValues
  import opened Logging
  import opened Effects
  import opened AllureLogging

  datatype Verdict = Pass | Fail(message: string)

  /** `throw new Error(message || default)`. */
  function Failure(message: Option<string>, default: string): (v: Verdict)
    ensures v.Fail?
    ensures message.Some? && |message.value| > 0 ==> v.message == message.value
    ensures message.None? || |message.value| == 0 ==> v.message == default
  {
    Fail(OrElse(message, default))
  }

  /** `assertHasAttribute`: `value` is what `getAttribute` returned (`None` for null). */
  function HasAttribute(selector: string, attributeName: string, value: Option<string>, message: Option<string>): (v: Verdict)
    ensures v.Pass? <==> value.Some?
    ensures v.Fail? ==> v == Failure(message, "Element " + selector + " should have attribute " + attributeName)
  {
    if value.None? then Failure(message, "Element " + selector + " should have attribute " + attributeName)
    else Pass
  }

  /** `assertCountGreaterThan`. */
  function CountGreaterThan(selector: string, minCount: int, count: nat, message: Option<string>): (v: Verdict)
    ensures v.Pass? <==> count > minCount
    ensures v.Fail? ==> v == Failure(message, "Expected more than " + IntToString(minCount) + " elements for " +
                                              selector + ", but found " + IntToString(count))
  {
    if count <= minCount then
      Failure(message, "Expected more than " + IntToString(minCount) + " elements for " + selector +
                       ", but found " + IntToString(count))
    else Pass
  }

  /** `assertCountLessThan`. */
  function CountLessThan(selector: string, maxCount: int, count: nat, message: Option<string>): (v: Verdict)
    ensures v.Pass? <==> count < maxCount
    ensures v.Fail? ==> v == Failure(message, "Expected less than " + IntToString(maxCount) + " elements for " +
                                              selector + ", but found " + IntToString(count))
  {
    if count >= maxCount then
      Failure(message, "Expected less than " + IntToString(maxCount) + " elements for " + selector +
                       ", but found " + IntToString(count))
    else Pass
  }

  /** `assertURLContains`: `currentURL` is `page.url()`. */
  function URLContains(expected: string, currentURL: string, message: Option<string>): (v: Verdict)
    ensures v.Pass? <==> Includes(currentURL, expected)
    ensures v.Fail? ==> v == Failure(message, "URL should contain " + expected + ", but was " + currentURL)
  {
    if !Includes(currentURL, expected) then
      Failure(message, "URL should contain " + expected + ", but was " + currentURL)
    else Pass
  }

  /** `assertTitleContains`: `title` is `page.title()`. */
  function TitleContains(expected: string, title: string, message: Option<string>): (v: Verdict)
    ensures v.Pass? <==> Includes(title, expected)
    ensures v.Fail? ==> v == Failure(message, "Page title should contain " + expected + ", but was " + title)
  {
    if !Includes(title, expected) then
      Failure(message, "Page title should contain " + expected + ", but was " + title)
    else Pass
  }

  /** `assertCSSProperty`: `actualValue` is the computed style; both sides are trimmed. */
  function CSSProperty(selector: string, propertyName: string, expectedValue: string, actualValue: string,
                       message: Option<string>): (v: Verdict)
    ensures v.Pass? <==> Trim(actualValue) == Trim(expectedValue)
    ensures v.Fail? ==> v == Failure(message, "Element " + selector + " should have CSS property " + propertyName +
                                              " = " + expectedValue + ", but was " + actualValue)
  {
    if Trim(actualValue) != Trim(expectedValue) then
      Failure(message, "Element " + selector + " should have CSS property " + propertyName + " = " +
                       expectedValue + ", but was " + actualValue)
    else Pass
  }

  /** `assertEqual`: strict equality. */
  function Equal(actual: JsValue, expected: JsValue, message: Option<string>): (v: Verdict)
    ensures v.Pass? <==> actual == expected
    ensures v.Fail? ==> v == Failure(message, "Expected " + Render(expected) + ", but got " + Render(actual))
  {
    if !StrictEquals(actual, expected) then
      Failure(message, "Expected " + Render(expected) + ", but got " + Render(actual))
    else Pass
  }

  /** `assertNotEqual`. */
  function NotEqual(actual: JsValue, expected: JsValue, message: Option<string>): (v: Verdict)
    ensures v.Pass? <==> actual != expected
    ensures v.Fail? ==> v == Failure(message, "Expected values to be different, but both were " + Render(actual))
  {
    if StrictEquals(actual, expected) then
      Failure(message, "Expected values to be different, but both were " + Render(actual))
    else Pass
  }

  /** `assertTrue`. */
  function IsTrue(value: bool, message: Option<string>): (v: Verdict)
    ensures v.Pass? <==> value
    ensures v.Fail? ==> v == Failure(message, "Expected value to be true, but was false")
  {
    if !value then Failure(message, "Expected value to be true, but was " + Render(Bool(value))) else Pass
  }

  /** `assertFalse`. */
  function IsFalse(value: bool, message: Option<string>): (v: Verdict)
    ensures v.Pass? <==> !value
    ensures v.Fail? ==> v == Failure(message, "Expected value to be false, but was true")
  {
    if value then Failure(message, "Expected value to be false, but was " + Render(Bool(value))) else Pass
  }

  /** `assertContains`: `array.includes(value)`, `items` being the array. */
  function Contains(items: seq<JsValue>, value: JsValue, message: Option<string>): (v: Verdict)
    ensures v.Pass? <==> value in items
    ensures v.Fail? ==> v == Failure(message, "Array should contain " + Render(value))
  {
    if value !in items then Failure(message, "Array should contain " + Render(value)) else Pass
  }

  /** `assertStringContains`. */
  function StringContains(str: string, substring: string, message: Option<string>): (v: Verdict)
    ensures v.Pass? <==> Includes(str, substring)
    ensures v.Fail? ==> v == Failure(message, "String should contain " + substring)
  {
    if !Includes(str, substring) then Failure(message, "String should contain " + substring) else Pass
  }

  /** `assertGreaterThan`. */
  function GreaterThan(actual: int, expected: int, message: Option<string>): (v: Verdict)
    ensures v.Pass? <==> actual > expected
    ensures v.Fail? ==> v == Failure(message, "Expected " + IntToString(actual) + " to be greater than " + IntToString(expected))
  {
    if actual <= expected then
      Failure(message, "Expected " + IntToString(actual) + " to be greater than " + IntToString(expected))
    else Pass
  }

  /** `assertLessThan`. */
  function LessThan(actual: int, expected: int, message: Option<string>): (v: Verdict)
    ensures v.Pass? <==> actual < expected
    ensures v.Fail? ==> v == Failure(message, "Expected " + IntToString(actual) + " to be less than " + IntToString(expected))
  {
    if actual >= expected then
      Failure(message, "Expected " + IntToString(actual) + " to be less than " + IntToString(expected))
    else Pass
  }

  /** `assertEqual` and `assertNotEqual` fail on complementary inputs. */
  lemma EqualNotEqualComplementary(a: JsValue, b: JsValue, m1: Option<string>, m2: Option<string>)
    ensures Equal(a, b, m1).Pass? <==> NotEqual(a, b, m2).Fail?
  {
  }

  /** `assertTrue` and `assertFalse` fail on complementary inputs. */
  lemma TrueFalseComplementary(value: bool, m1: Option<string>, m2: Option<string>)
    ensures IsTrue(value, m1).Pass? <==> IsFalse(value, m2).Fail?
  {
  }

  /** On whole counts, "more than k" passes exactly when "less than k + 1" fails. */
  lemma CountBoundsComplementary(selector: string, k: int, count: nat, m1: Option<string>, m2: Option<string>)
    ensures CountGreaterThan(selector, k, count, m1).Pass? <==> CountLessThan(selector, k + 1, count, m2).Fail?
  {
  }

  /** `assertGreaterThan(a, b)` and `assertLessThan(b, a)` agree. */
  lemma GreaterLessMirror(a: int, b: int, m1: Option<string>, m2: Option<string>)
    ensures GreaterThan(a, b, m1).Pass? <==> LessThan(b, a, m2).Pass?
  {
  }

  /** A computed style that differs from the expected value only by surrounding blanks
      passes. */
  lemma CSSIgnoresPadding(selector: string, propertyName: string, p: string, value: string, q: string,
                          message: Option<string>)
    requires forall j :: 0 <= j < |p| ==> IsWhitespace(p[j])
    requires forall j :: 0 <= j < |q| ==> IsWhitespace(q[j])
    ensures CSSProperty(selector, propertyName, value, p + value + q, message) == Pass
  {
    TrimIgnoresPadding(p, value, q);
  }

  /** A string containing the substring passes `assertStringContains`, and so does any
      string against the empty substring. */
  lemma StringContainsItsParts(a: string, sub: string, b: string, message: Option<string>)
    ensures StringContains(a + sub + b, sub, message) == Pass
    ensures StringContains(a, "", message) == Pass
  {
    IncludesWitness(a, sub, b);
  }

  /** How an assertion body ends: it resolves on a pass and throws the message on a failure. */
  function VerdictOutcome(v: Verdict): (o: Outcome)
    ensures o.Completed? <==> v.Pass?
    ensures v.Fail? ==> o == Threw(v.message)
  {
    if v.Pass? then Completed else Threw(v.message)
  }

  /** One run of an assertion body: it logs the attempt, then either throws the failure
      message or logs the check mark. */
  function Attempt(attempt: string, success: string, v: Verdict): Run {
    if v.Pass? then Run([Logged(INFO, attempt), Logged(INFO, success)], Completed)
    else Run([Logged(INFO, attempt)], Threw(v.message))
  }

  /** An assertion inside `allureLogger.step(name, body)`. `v` is the verdict of the first
      run; `again` is the verdict the body reaches when the step's fallback calls it a second
      time, reading the page anew. The verdict of the run that decides the step is its
      outcome, and the check mark is logged exactly when the step resolves. */
  function AsStep(name: string, attempt: string, success: string, v: Verdict, again: Verdict, active: bool): (r: Run)
    ensures !active || v.Pass? ==> r.outcome == VerdictOutcome(v)
    ensures active && v.Fail? ==> r.outcome == VerdictOutcome(again)
    ensures success != attempt ==> (Logged(INFO, success) in r.events <==> r.outcome == Completed)
  {
    var body := Attempt(attempt, success, v);
    var rerun := Attempt(attempt, success, again);
    StepRunsBodyTwiceOnlyOnRejection(name, body, rerun, active, Logged(INFO, success));
    Step(name, body, rerun, active)
  }

  /** With Allure active, a failing assertion logs its attempt twice (the step fallback runs
      the body again), and the second verdict decides what the step does. */
  lemma FailingAssertionLogsTwice(name: string, attempt: string, success: string, v: Verdict, again: Verdict)
    requires v.Fail?
    ensures Count(AsStep(name, attempt, success, v, again, true).events, Logged(INFO, attempt))
            == 2 + (if again.Pass? && success == attempt then 1 else 0)
    ensures AsStep(name, attempt, success, v, again, true).outcome == VerdictOutcome(again)
  {
    var rerun := Attempt(attempt, success, again);
    StepRunsBodyTwiceOnlyOnRejection(name, Attempt(attempt, success, v), rerun, true, Logged(INFO, attempt));
    if again.Pass? {
      assert rerun.events == [Logged(INFO, attempt)] + [Logged(INFO, success)];
      CountConcat([Logged(INFO, attempt)], [Logged(INFO, success)], Logged(INFO, attempt));
    }
  }

  /** When the second run reaches the same verdict, a failing assertion still throws its
      own message. */
  lemma StableFailureThrowsItsMessage(name: string, attempt: string, success: string, v: Verdict, active: bool)
    requires v.Fail?
    ensures AsStep(name, attempt, success, v, v, active).outcome == Threw(v.message)
  {
  }
}

=== FILE: automation.dfy ===
/** The automation session (src/core/playwright-automation.ts): three nullable handles
    (browser, context, page), a lazy initialisation on the first navigation, a guard on
    every other operation, a click that falls back to a text selector, and a close that
    drops all three handles. What the browser answers is an input, `Driver`. */
module Automation {
  import opened Wrappers
  import opened JsStrings
  import opened JsValues

  /** Which of the three handles are set. */
  datatype Session = Session(browser: bool, context: bool, page: bool)

  const Fresh: Session := Session(false, false, false)

  datatype Viewport = Viewport(width: int, height: int)

  const DefaultViewport: Viewport := Viewport(1920, 1080)

  /** What the browser does when asked: the error each call rejects with, if any, and the
      values it returns. */
  datatype Driver = Driver(
    launchError: Option<string>,
    contextError: Option<string>,
    pageError: Option<string>,
    gotoError: string -> Option<string>,
    clickError: string -> Option<string>,
    fillError: (string, string) -> Option<string>,
    screenshotError: string -> Option<string>,
    textContent: string -> Result<Option<string>>,
    waitError: (string, JsValue) -> Option<string>,
    url: string,
    title: Result<string>,
    viewportSize: Option<Viewport>,
    now: int,
    contextCloseError: Option<string>,
    browserCloseError: Option<string>)

  const NotInitialized: string := "Page not initialized. Call navigate() first."

  datatype BrowserState = BrowserState(url: string, title: string, viewport: Viewport)

  /** `init()`: launch, open a context with the default viewport, open a page. Each handle is
      assigned when its call resolves; a rejection leaves the later ones as they were. */
  function Init(s: Session, d: Driver): (r: (Session, Result<()>))
    ensures r.1.Ok? <==> d.launchError.None? && d.contextError.None? && d.pageError.None?
    ensures r.1.Ok? ==> r.0 == Session(true, true, true)
    ensures d.launchError.Some? ==> r == (s, Err(d.launchError.value))
    ensures r.0.page ==> r.1.Ok? || s.page
  {
    if d.launchError.Some? then (s, Err(d.launchError.value))
    else if d.contextError.Some? then (s.(browser := true), Err(d.contextError.value))
    else if d.pageError.Some? then (s.(browser := true, context := true), Err(d.pageError.value))
    else (Session(true, true, true), Ok(()))
  }

  /** `navigate(url)`: initialise only when there is no page, then go to the URL. */
  function Navigate(s: Session, d: Driver, url: string): (r: (Session, Result<()>))
    ensures s.page ==> r.0 == s && r.1 == (if d.gotoError(url).Some? then Err(d.gotoError(url).value) else Ok(()))
    ensures !s.page ==> (Init(s, d).1.Err? ==> r == Init(s, d))
    ensures r.1.Ok? ==> r.0.page && d.gotoError(url).None?
  {
    var started := if s.page then (s, Ok(())) else Init(s, d);
    if started.1.Err? then started
    else if d.gotoError(url).Some? then (started.0, Err(d.gotoError(url).value))
    else (started.0, Ok(()))
  }

  /** `click(selector)`: the raw selector, then, only if that rejects, the text selector.
      The second component lists the selectors tried, in order. */
  function Click(s: Session, d: Driver, selector: string): (r: (Result<()>, seq<string>))
    ensures !s.page ==> r == (Err(NotInitialized), [])
    ensures s.page ==> 1 <= |r.1| <= 2 && r.1[0] == selector
    ensures s.page ==> (|r.1| == 2 <==> d.clickError(selector).Some?)
    ensures |r.1| == 2 ==> r.1[1] == "text=" + selector
    ensures s.page ==> (r.0.Ok? <==> d.clickError(selector).None? || d.clickError("text=" + selector).None?)
  {
    if !s.page then (Err(NotInitialized), [])
    else if d.clickError(selector).None? then (Ok(()), [selector])
    else
      var fallback := "text=" + selector;
      (if d.clickError(fallback).Some? then Err(d.clickError(fallback).value) else Ok(()), [selector, fallback])
  }

  /** `fill(selector, value)`. */
  function Fill(s: Session, d: Driver, selector: string, value: string): (r: Result<()>)
    ensures !s.page ==> r == Err(NotInitialized)
    ensures s.page ==> (r.Ok? <==> d.fillError(selector, value).None?)
  {
    if !s.page then Err(NotInitialized)
    else if d.fillError(selector, value).Some? then Err(d.fillError(selector, value).value)
    else Ok(())
  }

  /** The default file name of a screenshot: the clock in milliseconds. */
  function DefaultScreenshotPath(now: int): (p: string)
    ensures EndsWith(p, ".png")
  {
    "screenshot-" + IntToString(now) + ".png"
  }

  /** `screenshot(path)`: the path it wrote to, the given one unless that is missing or
      empty. */
  function Screenshot(s: Session, d: Driver, path: Option<string>): (r: Result<string>)
    ensures !s.page ==> r == Err(NotInitialized)
    ensures s.page && path.Some? && |path.value| > 0 && d.screenshotError(path.value).None? ==> r == Ok(path.value)
    ensures s.page && (path.None? || |path.value| == 0) && d.screenshotError(DefaultScreenshotPath(d.now)).None? ==>
              r == Ok(DefaultScreenshotPath(d.now))
    ensures r.Ok? ==> |r.value| > 0
  {
    if !s.page then Err(NotInitialized)
    else
      var target := OrElse(path, DefaultScreenshotPath(d.now));
      if d.screenshotError(target).Some? then Err(d.screenshotError(target).value) else Ok(target)
  }

  /** `getText(selector)`: the text content, "" for null. */
  function GetText(s: Session, d: Driver, selector: string): (r: Result<string>)
    ensures !s.page ==> r == Err(NotInitialized)
    ensures s.page ==> (r.Ok? <==> d.textContent(selector).Ok?)
    ensures s.page && d.textContent(selector) == Ok(None) ==> r == Ok("")
    ensures s.page && d.textContent(selector).Ok? && d.textContent(selector).value.Some? ==>
              r == Ok(d.textContent(selector).value.value)
  {
    if !s.page then Err(NotInitialized)
    else match d.textContent(selector)
      case Err(e) => Err(e)
      case Ok(t) => Ok(OrElse(t, ""))
  }

  /** `waitForSelector(selector, timeout)`. The timeout reaches the browser as given,
      Undefined when omitted; what the browser makes of it is the driver's answer. */
  function WaitForSelector(s: Session, d: Driver, selector: string, timeout: JsValue): (r: Result<()>)
    ensures !s.page ==> r == Err(NotInitialized)
    ensures s.page ==> (r.Ok? <==> d.waitError(selector, timeout).None?)
  {
    if !s.page then Err(NotInitialized)
    else if d.waitError(selector, timeout).Some? then Err(d.waitError(selector, timeout).value)
    else Ok(())
  }

  /** `getBrowserState()`: URL, title and viewport, 1920x1080 when the page reports none. */
  function GetBrowserState(s: Session, d: Driver): (r: Result<BrowserState>)
    ensures !s.page ==> r == Err(NotInitialized)
    ensures s.page ==> (r.Ok? <==> d.title.Ok?)
    ensures r.Ok? ==> r.value.url == d.url && r.value.title == d.title.value
    ensures r.Ok? && d.viewportSize.None? ==> r.value.viewport == DefaultViewport
    ensures r.Ok? && d.viewportSize.Some? ==> r.value.viewport == d.viewportSize.value
  {
    if !s.page then Err(NotInitialized)
    else if d.title.Err? then Err(d.title.message)
    else Ok(BrowserState(d.url, d.title.value, d.viewportSize.GetOr(DefaultViewport)))
  }

  /** `close()`: close the context and the browser that are set, then drop all three
      handles. A rejected close leaves the handles as they were. */
  function Close(s: Session, d: Driver): (r: (Session, Result<()>))
    ensures r.1.Ok? ==> r.0 == Fresh
    ensures r.1.Err? ==> r.0 == s
    ensures r.1.Ok? <==> (!s.context || d.contextCloseError.None?) && (!s.browser || d.browserCloseError.None?)
  {
    if s.context && d.contextCloseError.Some? then (s, Err(d.contextCloseError.value))
    else if s.browser && d.browserCloseError.Some? then (s, Err(d.browserCloseError.value))
    else (Fresh, Ok(()))
  }

  /** Every operation except `navigate` throws "Page not initialized" on a session without
      a page, and changes nothing. */
  lemma GuardsWithoutPage(s: Session, d: Driver, selector: string, value: string, path: Option<string>,
                          timeout: JsValue)
    requires !s.page
    ensures Click(s, d, selector).0 == Err(NotInitialized) && Click(s, d, selector).1 == []
    ensures Fill(s, d, selector, value) == Err(NotInitialized)
    ensures Screenshot(s, d, path) == Err(NotInitialized)
    ensures GetText(s, d, selector) == Err(NotInitialized)
    ensures WaitForSelector(s, d, selector, timeout) == Err(NotInitialized)
    ensures GetBrowserState(s, d) == Err(NotInitialized)
  {
  }

  /** Closing an uninitialised session succeeds, and a closed session is uninitialised
      again: the guards apply until the next navigation, which initialises anew. */
  lemma CloseResets(s: Session, d: Driver, url: string)
    ensures Close(Fresh, d) == (Fresh, Ok(()))
    ensures Close(s, d).1.Ok? ==>
              !Close(s, d).0.page &&
              Navigate(Close(s, d).0, d, url).1.Ok? == (Init(Fresh, d).1.Ok? && d.gotoError(url).None?)
  {
  }

  /** `navigate` on a session with a page never re-initialises: a second navigation keeps
      the handles of the first. */
  lemma NavigateInitialisesOnce(s: Session, d: Driver, first: string, second: string)
    requires Navigate(s, d, first).1.Ok?
    ensures Navigate(Navigate(s, d, first).0, d, second).0 == Navigate(s, d, first).0
  {
  }

  /** The text fallback is tried only after the raw selector fails, and a click that the
      raw selector satisfies never tries it. */
  lemma ClickFallbackOnlyAfterFailure(s: Session, d: Driver, selector: string)
    requires s.page
    ensures "text=" + selector in Click(s, d, selector).1 && "text=" + selector != selector ==>
              d.clickError(selector).Some?
  {
  }
}

=== FILE: effects.dfy ===
/** The observable behaviour of the asynchronous helpers, as an event trace and an
    outcome. An `async` function that resolves is `Completed`; one that rejects is
    `Threw(message)`. Each effect a helper has on the outside world (a console line, a
    call of the Allure logger, an Allure attachment, a scheduled browser close) is one
    event, in program order. */
module Effects {
  import opened Wrappers
  import opened Logging

  /** Playwright's `testInfo.status`. */
  datatype Status = Passed | Failed | TimedOut | Skipped | Interrupted

  /** The status gate shared by every failure hook: "failed" or "timedOut". */
  predicate FailedOrTimedOut(st: Option<Status>) {
    st == Some(Failed) || st == Some(TimedOut)
  }

  /** Functions whose invocation is recorded, so that "called exactly once" is observable. */
  datatype Target = BeforeEach | TestBody | AfterEach | FailureHandler

  datatype Event =
    | Console(channel: Channel, text: string)
      /** a call of `allureLogger.<level>(message)` */
    | Logged(level: LogLevel, message: string)
      /** an Allure attachment; `file` is the path of an attached file */
    | Attached(name: string, mime: string, file: Option<string>)
    | StepOpened(name: string)
    | Invoked(target: Target)
      /** a `setTimeout` wait of the given length inside the close routine */
    | Waited(delayMs: int)
      /** a detached `closeBrowserAfterTest(page, delayMs, status)` */
    | CloseRequested(delayMs: int, status: Option<Status>)
    | ContextClosed

  datatype Outcome = Completed | Threw(error: string)

  datatype Run = Run(events: seq<Event>, outcome: Outcome)

  const Done: Run := Run([], Completed)

  /** `await a; await b;` — b runs only when a resolved. */
  function Then(a: Run, b: Run): (r: Run)
    ensures a.outcome.Threw? ==> r == a
    ensures a.outcome.Completed? ==> r.outcome == b.outcome && r.events == a.events + b.events
  {
    if a.outcome.Threw? then a else Run(a.events + b.events, b.outcome)
  }

  /** `try { body } finally { after }`: `after` always runs; its rejection replaces the body's
      outcome, otherwise the body's outcome stands. */
  function Finally(body: Run, after: Run): (r: Run)
    ensures r.events == body.events + after.events
    ensures after.outcome.Completed? ==> r.outcome == body.outcome
    ensures after.outcome.Threw? ==> r.outcome == after.outcome
  {
    Run(body.events + after.events, if after.outcome.Threw? then after.outcome else body.outcome)
  }

  /** `try { body } catch { handler }` for a handler that never rejects. */
  function Recover(body: Run, handler: seq<Event>): (r: Run)
    ensures r.outcome == Completed
    ensures body.outcome.Completed? ==> r.events == body.events
    ensures body.outcome.Threw? ==> r.events == body.events + handler
  {
    Run(body.events + (if body.outcome.Threw? then handler else []), Completed)
  }

  /** Sequencing is associative, so a chain of awaits may be grouped either way. */
  lemma {:induction false} ThenAssociative(a: Run, b: Run, c: Run)
    ensures Then(Then(a, b), c) == Then(a, Then(b, c))
  {
    if a.outcome.Completed? && b.outcome.Completed? {
      assert (a.events + b.events) + c.events == a.events + (b.events + c.events);
    }
  }

  /** A trace that records no invocation of a hook, a test body or the failure handler. */
  predicate NoInvocations(es: seq<Event>) {
    forall i :: 0 <= i < |es| ==> !es[i].Invoked?
  }

  /** How often e occurs in a trace. */
  function Count(es: seq<Event>, e: Event): (n: nat)
    ensures n <= |es|
    ensures n == 0 <==> e !in es
  {
    if |es| == 0 then 0 else (if es[0] == e then 1 else 0) + Count(es[1..], e)
  }

  lemma {:induction false} CountConcat(a: seq<Event>, b: seq<Event>, e: Event)
    ensures Count(a + b, e) == Count(a, e) + Count(b, e)
  {
    if |a| > 0 {
      assert (a + b)[1..] == a[1..] + b;
      CountConcat(a[1..], b, e);
    } else {
      assert a + b == b;
    }
  }

  /** The number of close requests in a trace. */
  function Closes(es: seq<Event>): (n: nat)
    ensures n <= |es|
    ensures n == 0 <==> forall i :: 0 <= i < |es| ==> !es[i].CloseRequested?
  {
    if |es| == 0 then 0 else (if es[0].CloseRequested? then 1 else 0) + Closes(es[1..])
  }

  lemma {:induction false} ClosesConcat(a: seq<Event>, b: seq<Event>)
    ensures Closes(a + b) == Closes(a) + Closes(b)
  {
    if |a| > 0 {
      assert (a + b)[1..] == a[1..] + b;
      ClosesConcat(a[1..], b);
    } else {
      assert a + b == b;
    }
  }
}

=== FILE: environment.dfy ===
/** The environment configuration cache (src/config/environment.ts): a loader with one
    cached configuration and the name of the current environment, both static state. The
    process environment, the working directory and the configuration files are inputs; a
    file that is absent from `files` does not exist. */
module Environment {
  import opened Wrappers
  import opened JsStrings
  import opened JsValues

  datatype Credentials = Credentials(username: string, password: string)

  datatype Features = Features(enableDebugMode: bool, enableScreenshots: bool, enableVideos: bool)

  datatype Feature = EnableDebugMode | EnableScreenshots | EnableVideos

  /** `EnvironmentConfig`. The three capture modes are kept as the strings the file holds;
      `timeout` is `None` where `parseInt` yields NaN. */
  datatype EnvConfig = EnvConfig(
    name: string,
    baseURL: string,
    apiURL: string,
    timeout: Option<int>,
    retries: int,
    workers: int,
    headless: bool,
    screenshot: string,
    video: string,
    trace: string,
    credentials: Credentials,
    features: Features)

  /** A configuration file that exists: one that cannot be read, one that is not valid
      JSON, or the configuration it parses to. */
  datatype ConfigFile = Unreadable(reason: string) | Malformed(reason: string) | Parsed(config: EnvConfig)

  type ConfigFiles = map<string, ConfigFile>

  /** The loader's static fields. */
  datatype Loader = Loader(config: Option<EnvConfig>, currentEnv: string)

  const Initial: Loader := Loader(None, "preview")

  /** `getCurrentEnvironment`. */
  function CurrentEnvironment(s: Loader): string {
    s.currentEnv
  }

  /** `envName || process.env.ENV || process.env.NODE_ENV || 'preview'`. */
  function RawName(envName: Option<string>, env: ProcessEnv): (raw: string)
    ensures envName.Some? && |envName.value| > 0 ==> raw == envName.value
    ensures (envName.None? || |envName.value| == 0) && EnvSet(env, "ENV") ==> raw == env["ENV"]
    ensures (envName.None? || |envName.value| == 0) && !EnvSet(env, "ENV") && EnvSet(env, "NODE_ENV") ==>
              raw == env["NODE_ENV"]
    ensures (envName.None? || |envName.value| == 0) && !EnvSet(env, "ENV") && !EnvSet(env, "NODE_ENV") ==>
              raw == "preview"
  {
    OrElse(envName, OrElse(EnvVar(env, "ENV"), OrElse(EnvVar(env, "NODE_ENV"), "preview")))
  }

  /** The environment name: the first non-empty of the argument, ENV and NODE_ENV, else
      "preview", lower-cased. */
  function ResolveName(envName: Option<string>, env: ProcessEnv): (name: string)
    ensures |name| == |RawName(envName, env)|
    ensures forall i :: 0 <= i < |name| ==> name[i] == LowerChar(RawName(envName, env)[i])
    ensures forall i :: 0 <= i < |name| ==> !('A' <= name[i] <= 'Z')
  {
    LowerAscii(RawName(envName, env))
  }

  /** `path.join(process.cwd(), 'config', `${name}.json`)`. */
  function ConfigPath(cwd: string, name: string): (p: string)
    ensures |cwd| <= |p| && p[..|cwd|] == cwd
    ensures EndsWith(p, "/config/" + name + ".json")
  {
    JoinPath(JoinPath(cwd, "config"), name + ".json")
  }

  /** Different environment names read different files. */
  lemma ConfigPathInjective(cwd: string, a: string, b: string)
    requires ConfigPath(cwd, a) == ConfigPath(cwd, b)
    ensures a == b
  {
    var pa, pb := ConfigPath(cwd, a), ConfigPath(cwd, b);
    var n := |cwd| + |"/config/"|;
    assert pa[n..|pa| - 5] == a;
    assert pb[n..|pb| - 5] == b;
  }

  function NotFound(path: string): string {
    "Environment configuration file not found: " + path + "\nAvailable environments: preview, staging, production"
  }

  function LoadFailed(path: string, reason: string): string {
    "Failed to load environment configuration from " + path + ": " + reason
  }

  /** The parsed file with its name set and the three overrides applied. */
  function Override(c: EnvConfig, name: string, env: ProcessEnv): (r: EnvConfig)
    ensures r.name == name
    ensures r.baseURL == (if EnvSet(env, "BASE_URL") then env["BASE_URL"] else c.baseURL)
    ensures r.apiURL == (if EnvSet(env, "API_URL") then env["API_URL"] else c.apiURL)
    ensures r.timeout == (if EnvSet(env, "TIMEOUT") then ParseInt(env["TIMEOUT"]) else c.timeout)
    ensures r.(name := c.name, baseURL := c.baseURL, apiURL := c.apiURL, timeout := c.timeout) == c
  {
    var named := c.(name := name);
    var withBase := if EnvSet(env, "BASE_URL") then named.(baseURL := env["BASE_URL"]) else named;
    var withApi := if EnvSet(env, "API_URL") then withBase.(apiURL := env["API_URL"]) else withBase;
    if EnvSet(env, "TIMEOUT") then withApi.(timeout := ParseInt(env["TIMEOUT"])) else withApi
  }

  /** `config.name === currentEnv` for a cached configuration. */
  predicate CacheHit(s: Loader, name: string) {
    s.config.Some? && s.config.value.name == name
  }

  /** `loadEnvironment(envName)`: the loader afterwards and the configuration or the error
      it throws. */
  function LoadEnvironment(s: Loader, envName: Option<string>, env: ProcessEnv, cwd: string,
                           files: ConfigFiles): (r: (Loader, Result<EnvConfig>))
    ensures r.0.currentEnv == ResolveName(envName, env)
    ensures CacheHit(s, ResolveName(envName, env)) ==> r.0.config == s.config && r.1 == Ok(s.config.value)
    ensures r.1.Err? ==> r.0.config == s.config
    ensures r.1.Ok? ==> r.0.config == Some(r.1.value) && r.1.value.name == r.0.currentEnv
    ensures !CacheHit(s, ResolveName(envName, env)) ==>
              var path := ConfigPath(cwd, ResolveName(envName, env));
              (path !in files ==> r.1 == Err(NotFound(path))) &&
              (path in files && files[path].Unreadable? ==> r.1 == Err(LoadFailed(path, files[path].reason))) &&
              (path in files && files[path].Malformed? ==> r.1 == Err(LoadFailed(path, files[path].reason))) &&
              (path in files && files[path].Parsed? ==>
                 r.1 == Ok(Override(files[path].config, ResolveName(envName, env), env)))
  {
    LoadNamed(s, ResolveName(envName, env), env, cwd, files)
  }

  /** The load once the name is resolved. */
  function LoadNamed(s: Loader, name: string, env: ProcessEnv, cwd: string,
                     files: ConfigFiles): (r: (Loader, Result<EnvConfig>))
    ensures r.0.currentEnv == name
    ensures CacheHit(s, name) ==> r.0.config == s.config && r.1 == Ok(s.config.value)
    ensures r.1.Err? ==> r.0.config == s.config
    ensures r.1.Ok? ==> r.0.config == Some(r.1.value) && r.1.value.name == name
    ensures !CacheHit(s, name) ==>
              var path := ConfigPath(cwd, name);
              (path !in files ==> r.1 == Err(NotFound(path))) &&
              (path in files && files[path].Unreadable? ==> r.1 == Err(LoadFailed(path, files[path].reason))) &&
              (path in files && files[path].Malformed? ==> r.1 == Err(LoadFailed(path, files[path].reason))) &&
              (path in files && files[path].Parsed? ==> r.1 == Ok(Override(files[path].config, name, env)))
  {
    var s1 := s.(currentEnv := name);
    if CacheHit(s, name) then (s1, Ok(s.config.value))
    else
      var path := ConfigPath(cwd, name);
      if path !in files then (s1, Err(NotFound(path)))
      else match files[path]
        case Unreadable(reason) => (s1, Err(LoadFailed(path, reason)))
        case Malformed(reason) => (s1, Err(LoadFailed(path, reason)))
        case Parsed(c) =>
          var loaded := Override(c, name, env);
          (s1.(config := Some(loaded)), Ok(loaded))
  }

  /** `getConfig`: the cached configuration as it is, whatever `currentEnv` says; a load
      with no argument only when nothing is cached. */
  function GetConfig(s: Loader, env: ProcessEnv, cwd: string, files: ConfigFiles): (r: (Loader, Result<EnvConfig>))
    ensures s.config.Some? ==> r == (s, Ok(s.config.value))
    ensures s.config.None? ==> r == LoadEnvironment(s, None, env, cwd, files)
    ensures r.1.Ok? ==> r.0.config == Some(r.1.value)
  {
    if s.config.None? then LoadEnvironment(s, None, env, cwd, files) else (s, Ok(s.config.value))
  }

  /** `reset`. */
  function Reset(s: Loader): (r: Loader)
    ensures r.config.None? && r.currentEnv == "preview"
  {
    Initial
  }

  /** `getBaseURL`, `getAPIURL`, `getCredentials`, `isFeatureEnabled`: one field of
      `getConfig()`, whose error they pass on. */
  function GetBaseURL(s: Loader, env: ProcessEnv, cwd: string, files: ConfigFiles): (r: (Loader, Result<string>))
    ensures var g := GetConfig(s, env, cwd, files);
            r.0 == g.0 && (r.1.Ok? <==> g.1.Ok?) && (g.1.Ok? ==> r.1.value == g.1.value.baseURL) &&
            (g.1.Err? ==> r.1 == Err(g.1.message))
  {
    var g := GetConfig(s, env, cwd, files);
    (g.0, if g.1.Ok? then Ok(g.1.value.baseURL) else Err(g.1.message))
  }

  function GetAPIURL(s: Loader, env: ProcessEnv, cwd: string, files: ConfigFiles): (r: (Loader, Result<string>))
    ensures var g := GetConfig(s, env, cwd, files);
            r.0 == g.0 && (r.1.Ok? <==> g.1.Ok?) && (g.1.Ok? ==> r.1.value == g.1.value.apiURL) &&
            (g.1.Err? ==> r.1 == Err(g.1.message))
  {
    var g := GetConfig(s, env, cwd, files);
    (g.0, if g.1.Ok? then Ok(g.1.value.apiURL) else Err(g.1.message))
  }

  function GetCredentials(s: Loader, env: ProcessEnv, cwd: string, files: ConfigFiles): (r: (Loader, Result<Credentials>))
    ensures var g := GetConfig(s, env, cwd, files);
            r.0 == g.0 && (r.1.Ok? <==> g.1.Ok?) && (g.1.Ok? ==> r.1.value == g.1.value.credentials) &&
            (g.1.Err? ==> r.1 == Err(g.1.message))
  {
    var g := GetConfig(s, env, cwd, files);
    (g.0, if g.1.Ok? then Ok(g.1.value.credentials) else Err(g.1.message))
  }

  function FeatureFlag(fs: Features, f: Feature): bool {
    match f
    case EnableDebugMode => fs.enableDebugMode
    case EnableScreenshots => fs.enableScreenshots
    case EnableVideos => fs.enableVideos
  }

  function IsFeatureEnabled(s: Loader, f: Feature, env: ProcessEnv, cwd: string, files: ConfigFiles): (r: (Loader, Result<bool>))
    ensures var g := GetConfig(s, env, cwd, files);
            r.0 == g.0 && (r.1.Ok? <==> g.1.Ok?) && (g.1.Ok? ==> r.1.value == FeatureFlag(g.1.value.features, f)) &&
            (g.1.Err? ==> r.1 == Err(g.1.message))
  {
    var g := GetConfig(s, env, cwd, files);
    (g.0, if g.1.Ok? then Ok(FeatureFlag(g.1.value.features, f)) else Err(g.1.message))
  }

  /** The load that runs when the module is first imported; its error fails the import. */
  function AutoLoad(env: ProcessEnv, cwd: string, files: ConfigFiles): (r: (Loader, Result<EnvConfig>))
    ensures r.0.currentEnv == ResolveName(None, env)
    ensures r.1.Ok? <==> ConfigPath(cwd, ResolveName(None, env)) in files &&
                         files[ConfigPath(cwd, ResolveName(None, env))].Parsed?
  {
    LoadEnvironment(Initial, None, env, cwd, files)
  }

  /** A cache hit reads no file: its result does not depend on the files or on the working
      directory. */
  lemma CacheHitIgnoresFiles(s: Loader, envName: Option<string>, env: ProcessEnv,
                             cwd1: string, cwd2: string, files1: ConfigFiles, files2: ConfigFiles)
    requires CacheHit(s, ResolveName(envName, env))
    ensures LoadEnvironment(s, envName, env, cwd1, files1) == LoadEnvironment(s, envName, env, cwd2, files2)
  {
    var name := ResolveName(envName, env);
    var r1 := LoadNamed(s, name, env, cwd1, files1);
    var r2 := LoadNamed(s, name, env, cwd2, files2);
    assert r1.0 == Loader(r1.0.config, r1.0.currentEnv) == r2.0;
  }

  /** A non-empty argument decides the name whatever the process environment holds. */
  lemma SameArgumentSameName(name: string, env1: ProcessEnv, env2: ProcessEnv)
    requires |name| > 0
    ensures ResolveName(Some(name), env1) == ResolveName(Some(name), env2) == LowerAscii(name)
  {
    assert RawName(Some(name), env1) == name == RawName(Some(name), env2);
  }

  /** A second load of the same environment is a cache hit returning the first load's
      configuration, whatever the files say by then. */
  lemma SecondLoadIsCached(s: Loader, envName: Option<string>, env: ProcessEnv, cwd: string,
                           files: ConfigFiles, later: ConfigFiles)
    ensures var first := LoadEnvironment(s, envName, env, cwd, files);
            first.1.Ok? ==> LoadEnvironment(first.0, envName, env, cwd, later) == first
  {
  }

  /** A failed load of another environment still switches `getCurrentEnvironment()`, while
      `getConfig()` keeps returning the configuration of the environment loaded before. */
  lemma FailedSwitchLeavesStaleConfig(s: Loader, envName: Option<string>, env: ProcessEnv, cwd: string,
                                      files: ConfigFiles)
    requires s.config.Some? && !CacheHit(s, ResolveName(envName, env))
    requires ConfigPath(cwd, ResolveName(envName, env)) !in files
    ensures var after := LoadEnvironment(s, envName, env, cwd, files).0;
            CurrentEnvironment(after) == ResolveName(envName, env) &&
            GetConfig(after, env, cwd, files).1 == Ok(s.config.value) &&
            s.config.value.name != CurrentEnvironment(after)
  {
  }

  /** After `reset`, `getConfig()` loads again, from the file of the name the process
      environment resolves to. */
  lemma ResetForcesReload(s: Loader, env: ProcessEnv, cwd: string, files: ConfigFiles)
    ensures GetConfig(Reset(s), env, cwd, files) == AutoLoad(env, cwd, files)
  {
  }

  /** The name written into a loaded configuration never holds an upper-case letter, and a
      differently cased argument names the same environment. */
  lemma NamesAreCaseInsensitive(s: Loader, a: string, env: ProcessEnv, cwd: string, files: ConfigFiles)
    requires |a| > 0
    ensures LoadEnvironment(s, Some(a), env, cwd, files) == LoadEnvironment(s, Some(LowerAscii(a)), env, cwd, files)
  {
    LowerAsciiIdempotent(a);
    SameArgumentSameName(a, env, env);
    SameArgumentSameName(LowerAscii(a), env, env);
  }

  lemma LowerAsciiIdempotent(a: string)
    ensures LowerAscii(LowerAscii(a)) == LowerAscii(a)
  {
    var l := LowerAscii(a);
    assert forall i :: 0 <= i < |l| ==> LowerAscii(l)[i] == l[i];
  }
}

=== FILE: failure_handler.dfy ===
/** Failure-artifact capture and the delayed browser close (src/utils/failure-handler.ts).

    The page, the file system and Allure are inputs (`Artifacts`, `Session`, `ProcessEnv`);
    each helper's behaviour is its trace of events and its outcome. The close routine runs
    detached from its callers: they record a `CloseRequested` event, and its effect on a
    session is `CloseBrowserAfterTest`. */
module FailureHandling {
  import opened Wrappers
  import opened JsStrings
  import opened JsValues
  import opened Logging
  import opened Effects
  import opened AllureLogging
  import opened StringOrder

  /** The parts of `testInfo` the handler reads. */
  datatype TestError = TestError(message: string, stack: Option<string>)
  datatype TestInfo = TestInfo(title: string, status: Option<Status>, error: Option<TestError>)

  /** One entry of `readdirSync(dir, { recursive: true })` with what `statSync` reports for it:
      `Ok(isFile)`, or `Err` when it throws. */
  datatype DirEntry = DirEntry(relative: string, stat: Result<bool>)

  /** What the capture helpers find in the world. */
  datatype Artifacts = Artifacts(
    /** `page.screenshot()`: a buffer (always truthy, even when empty), or the error */
    screenshot: Result<()>,
    /** `page.content()` */
    html: Result<string>,
    /** the working directory */
    cwd: string,
    /** None when `<cwd>/test-results` does not exist; Err when listing it throws */
    testResults: Option<Result<seq<DirEntry>>>,
    /** `testInfo.outputPath('trace.zip')` and whether that file exists */
    tracePath: string,
    traceExists: bool,
    /** whether `readFileSync(path)` succeeds */
    readable: string -> bool,
    /** whether Allure accepts attachments and steps (inside a running test) */
    active: bool,
    /** the message `allure.attachment` throws when it refuses */
    refusal: string)

  // ---------------------------------------------------------------------------
  // Video selection
  // ---------------------------------------------------------------------------

  predicate IsVideo(e: DirEntry) {
    e.stat == Ok(true) && (EndsWith(e.relative, ".webm") || EndsWith(e.relative, ".mp4"))
  }

  /** The loop of `findVideoFiles`: the joined paths of the video entries in listing order, up
      to the first entry whose `statSync` throws (the catch ends the loop); the flag says
      whether one did. */
  function CollectVideos(dir: string, es: seq<DirEntry>): (r: (seq<string>, bool))
    ensures r.1 <==> exists i :: 0 <= i < |es| && es[i].stat.Err?
    ensures forall p :: p in r.0 ==> exists e :: e in es && IsVideo(e) && p == JoinPath(dir, e.relative)
    ensures !r.1 ==> forall e :: e in es && IsVideo(e) ==> JoinPath(dir, e.relative) in r.0
  {
    if |es| == 0 then ([], false)
    else if es[0].stat.Err? then ([], true)
    else
      var rest := CollectVideos(dir, es[1..]);
      assert forall e :: e in es[1..] ==> e in es;
      assert forall e :: e in es ==> e == es[0] || e in es[1..];
      if IsVideo(es[0]) then ([JoinPath(dir, es[0].relative)] + rest.0, rest.1) else rest
  }

  /** Entries after the first failing `statSync` are never looked at. */
  lemma {:induction false} CollectStopsAtStatError(dir: string, before: seq<DirEntry>, bad: DirEntry, after: seq<DirEntry>)
    requires bad.stat.Err?
    requires forall i :: 0 <= i < |before| ==> before[i].stat.Ok?
    ensures CollectVideos(dir, before + [bad] + after).0 == CollectVideos(dir, before).0
  {
    var es := before + [bad] + after;
    if |before| > 0 {
      assert es[0] == before[0];
      assert es[1..] == before[1..] + [bad] + after;
      CollectStopsAtStatError(dir, before[1..], bad, after);
    } else {
      assert es[0] == bad;
    }
  }

  /** `findVideoFiles(dir, title)`: the collected paths, sorted; a listing that throws gives
      none. Either failure leaves one console line. The title is not used. */
  function FindVideoFiles(dir: string, listing: Result<seq<DirEntry>>): (r: (seq<string>, seq<Event>))
    ensures Sorted(r.0)
    ensures listing.Err? ==> r.0 == []
    ensures listing.Ok? ==> multiset(r.0) == multiset(CollectVideos(dir, listing.value).0)
    ensures |r.1| <= 1
    ensures |r.1| == 1 <==> listing.Err? || CollectVideos(dir, listing.value).1
    ensures |r.1| == 1 ==> r.1[0].Console?
  {
    var found := if listing.Ok? then CollectVideos(dir, listing.value) else ([], true);
    (Sort(found.0), if found.1 then [Console(ConsoleError, "Error finding video files:")] else [])
  }

  /** The directory the video search starts from. */
  function VideoDir(w: Artifacts): string {
    JoinPath(w.cwd, "test-results")
  }

  /** All videos the search finds. */
  function FoundVideos(w: Artifacts): seq<string> {
    if w.testResults.Some? && w.testResults.value.Ok? then CollectVideos(VideoDir(w), w.testResults.value.value).0 else []
  }

  /** m is the lexicographically greatest of the paths. */
  ghost predicate Greatest(m: string, paths: seq<string>) {
    m in paths && forall p :: p in paths ==> LexLe(p, m)
  }

  /** `videoFiles[videoFiles.length - 1]` of the sorted list: the greatest video path, if
      there is any. */
  function LatestVideo(w: Artifacts): (r: Option<string>)
    ensures r.None? <==> |FoundVideos(w)| == 0
    ensures r.Some? ==> Greatest(r.value, FoundVideos(w))
  {
    if w.testResults.None? then None
    else
      var files := FindVideoFiles(VideoDir(w), w.testResults.value).0;
      if |files| == 0 then
        assert |FoundVideos(w)| == 0 by {
          assert |multiset(FoundVideos(w))| == 0;
        }
        None
      else
        LatestIsGreatest(VideoDir(w), w.testResults.value, files);
        Some(files[|files| - 1])
  }

  /** `attachVideo`: attaches the latest video when it can be read and Allure accepts it.
      Every failure ends in a console line; the returned promise always resolves. */
  function AttachVideo(name: string, w: Artifacts): (r: Run)
    ensures OnlyNotesAndAttachments(r.events)
    ensures r.outcome == Completed
    ensures forall i :: 0 <= i < |r.events| - 1 ==> r.events[i].Console?
    ensures |r.events| > 0 && r.events[|r.events| - 1].Attached? <==>
              LatestVideo(w).Some? && w.readable(LatestVideo(w).value) && w.active
    ensures |r.events| > 0 && r.events[|r.events| - 1].Attached? ==>
              r.events[|r.events| - 1] == Attached(name, "video/webm", LatestVideo(w))
  {
    AttachLatest(name, VideoNotes(w), LatestVideo(w), w)
  }

  /** The console notes of the video search: none when `test-results` does not exist. */
  function VideoNotes(w: Artifacts): (notes: seq<Event>)
    ensures |notes| <= 1 && (|notes| == 1 ==> notes[0].Console?)
    ensures w.testResults.None? ==> notes == []
  {
    if w.testResults.None? then [] else FindVideoFiles(VideoDir(w), w.testResults.value).1
  }

  /** The part of `attachVideo` after the search: its console notes, then the attachment of
      the latest video or a console line saying it failed. */
  function AttachLatest(name: string, notes: seq<Event>, latest: Option<string>, w: Artifacts): (r: Run)
    requires |notes| <= 1 && (|notes| == 1 ==> notes[0].Console?)
    ensures OnlyNotesAndAttachments(r.events)
    ensures r.outcome == Completed
    ensures forall i :: 0 <= i < |r.events| - 1 ==> r.events[i].Console?
    ensures |r.events| > 0 && r.events[|r.events| - 1].Attached? <==>
              latest.Some? && w.readable(latest.value) && w.active
    ensures |r.events| > 0 && r.events[|r.events| - 1].Attached? ==>
              r.events[|r.events| - 1] == Attached(name, "video/webm", latest)
  {
    match latest
    case None => Run(notes, Completed)
    case Some(path) =>
      if w.readable(path) && w.active then Run(notes + [Attached(name, "video/webm", Some(path))], Completed)
      else Run(notes + [Console(ConsoleError, "Failed to attach video:")], Completed)
  }

  lemma LatestIsGreatest(dir: string, listing: Result<seq<DirEntry>>, files: seq<string>)
    requires files == FindVideoFiles(dir, listing).0 && |files| > 0
    ensures listing.Ok?
    ensures Greatest(files[|files| - 1], CollectVideos(dir, listing.value).0)
  {
    var found := CollectVideos(dir, listing.value).0;
    assert files == Sort(found);
    assert |found| == |multiset(found)| == |multiset(files)| == |files|;
    LastOfSortedIsGreatest(found);
  }

  // ---------------------------------------------------------------------------
  // The other capture helpers
  // ---------------------------------------------------------------------------

  /** A capture helper only writes console lines and makes attachments. */
  predicate OnlyNotesAndAttachments(es: seq<Event>) {
    forall i :: 0 <= i < |es| ==> es[i].Console? || es[i].Attached?
  }

  /** `attachScreenshot`: the buffer `page.screenshot()` resolves to is an object, so the
      `if (screenshot)` guard always holds and the capture is always offered to Allure; a
      failing capture or a refused attachment is caught and logged. */
  function AttachScreenshot(name: string, w: Artifacts): (r: Run)
    ensures OnlyNotesAndAttachments(r.events)
    ensures r.outcome == Completed
    ensures |r.events| == 1
    ensures Attached(name, "image/png", None) in r.events <==> w.screenshot.Ok? && w.active
    ensures !(w.screenshot.Ok? && w.active) ==> r.events == [Console(ConsoleError, "Failed to capture screenshot:")]
  {
    if w.screenshot.Ok? && w.active then Run([Attached(name, "image/png", None)], Completed)
    else Run([Console(ConsoleError, "Failed to capture screenshot:")], Completed)
  }

  /** `attachPageHTML`. */
  function AttachPageHTML(name: string, w: Artifacts): (r: Run)
    ensures OnlyNotesAndAttachments(r.events)
    ensures r.outcome == Completed
    ensures |r.events| == 1
    ensures r.events[0] == Attached(name, "text/html", None) <==> w.html.Ok? && w.active
  {
    if w.html.Ok? && w.active then Run([Attached(name, "text/html", None)], Completed)
    else Run([Console(ConsoleError, "Failed to capture page HTML:")], Completed)
  }

  /** `attachTrace`: only an existing trace file is read and attached. */
  function AttachTrace(name: string, w: Artifacts): (r: Run)
    ensures OnlyNotesAndAttachments(r.events)
    ensures r.outcome == Completed
    ensures |r.events| <= 1
    ensures r.events == [] <==> |w.tracePath| == 0 || !w.traceExists
    ensures Attached(name, "application/zip", Some(w.tracePath)) in r.events <==>
              |w.tracePath| > 0 && w.traceExists && w.readable(w.tracePath) && w.active
  {
    if |w.tracePath| == 0 || !w.traceExists then Done
    else if w.readable(w.tracePath) && w.active then Run([Attached(name, "application/zip", Some(w.tracePath))], Completed)
    else Run([Console(ConsoleError, "Failed to attach trace:")], Completed)
  }

  /** The error-details attachment of `handleFailureComprehensive`. It has no catch of its
      own: a refused attachment rejects. */
  function ErrorDetails(info: TestInfo, w: Artifacts): (r: Run)
    ensures OnlyNotesAndAttachments(r.events)
    ensures info.error.None? ==> r == Done
    ensures info.error.Some? && w.active ==> r == Run([Attached("Test Failure Details", "application/json", None)], Completed)
    ensures info.error.Some? && !w.active ==> r == Run([], Threw(w.refusal))
  {
    if info.error.None? then Done
    else if w.active then Run([Attached("Test Failure Details", "application/json", None)], Completed)
    else Run([], Threw(w.refusal))
  }

  /** The body of the "Capturing failure artifacts" step. */
  function CaptureArtifacts(info: TestInfo, w: Artifacts): Run {
    Then(Then(Then(Then(AttachScreenshot("Failure Screenshot", w), AttachVideo("Failure Video", w)),
                   AttachPageHTML("Page HTML", w)), AttachTrace("Trace File", w)), ErrorDetails(info, w))
  }

  /** Every capture is attempted, in the order screenshot, video, page HTML, trace, error
      details: none of the first four can stop the ones after it, and only the error details
      can make the step reject. */
  lemma CaptureAttemptsAll(info: TestInfo, w: Artifacts)
    ensures CaptureArtifacts(info, w).events ==
              AttachScreenshot("Failure Screenshot", w).events + AttachVideo("Failure Video", w).events +
              AttachPageHTML("Page HTML", w).events + AttachTrace("Trace File", w).events +
              ErrorDetails(info, w).events
    ensures CaptureArtifacts(info, w).outcome == ErrorDetails(info, w).outcome
  {
  }

  // ---------------------------------------------------------------------------
  // handleFailureComprehensive
  // ---------------------------------------------------------------------------

  const DelayVariable: string := "BROWSER_CLOSE_DELAY_MS"

  /** `closeBrowserDelayMs ?? parseInt(process.env.BROWSER_CLOSE_DELAY_MS || '5000', 10)`;
      None stands for NaN. */
  function ResolveCloseDelay(explicit: Option<int>, env: ProcessEnv): (r: Option<int>)
    ensures explicit.Some? ==> r == explicit
    ensures explicit.None? && !EnvSet(env, DelayVariable) ==> r == Some(5000)
    ensures explicit.None? && EnvSet(env, DelayVariable) ==> r == ParseInt(env[DelayVariable])
  {
    if explicit.Some? then explicit
    else
      ParseDefaultDelay();
      ParseInt(OrElse(EnvVar(env, DelayVariable), "5000"))
  }

  /** A positive delay: NaN and values <= 0 disable the close. */
  predicate Positive(d: Option<int>) {
    d.Some? && d.value > 0
  }

  /** The "Capturing failure artifacts" step. Its body rejects only when Allure refuses the
      error details, and then Allure is inactive and the body runs once; so the step's
      fallback never calls the body a second time (CaptureStepNeverReruns), and the second
      run given here is immaterial. */
  function CaptureStep(info: TestInfo, w: Artifacts): (r: Run)
    ensures !w.active ==> r == CaptureArtifacts(info, w)
    ensures w.active ==> r.outcome == Completed &&
                         r.events == [StepOpened("Capturing failure artifacts")] + CaptureArtifacts(info, w).events
  {
    CaptureAttemptsAll(info, w);
    Step("Capturing failure artifacts", CaptureArtifacts(info, w), CaptureArtifacts(info, w), w.active)
  }

  /** Whatever a second run of the capture would do, the step is the same. */
  lemma CaptureStepNeverReruns(info: TestInfo, w: Artifacts, rerun: Run)
    ensures Step("Capturing failure artifacts", CaptureArtifacts(info, w), rerun, w.active) == CaptureStep(info, w)
  {
    CaptureAttemptsAll(info, w);
  }

  /** `handleFailureComprehensive(page, testInfo, closeBrowserDelayMs)`. */
  function HandleFailureComprehensive(info: TestInfo, w: Artifacts, explicitDelay: Option<int>, env: ProcessEnv): (r: Run)
    ensures !FailedOrTimedOut(info.status) ==> r == Done
    ensures FailedOrTimedOut(info.status) ==>
              r.outcome == ErrorDetails(info, w).outcome &&
              (info.error.Some? && !w.active ==> r.outcome.Threw?)
    ensures Closes(r.events) ==
              (if FailedOrTimedOut(info.status) && ErrorDetails(info, w).outcome.Completed? &&
                  Positive(ResolveCloseDelay(explicitDelay, env)) then 1 else 0)
    ensures Closes(r.events) == 1 ==>
              r.events[|r.events| - 1] == CloseRequested(ResolveCloseDelay(explicitDelay, env).value, info.status)
    ensures NoInvocations(r.events)
    ensures FailedOrTimedOut(info.status) ==>
              |r.events| >= |CaptureStep(info, w).events| &&
              r.events[..|CaptureStep(info, w).events|] == CaptureStep(info, w).events
    ensures FailedOrTimedOut(info.status) ==> |r.events| == |CaptureStep(info, w).events| + Closes(r.events)
  {
    if !FailedOrTimedOut(info.status) then Done
    else
      var step := CaptureStep(info, w);
      StepHasNoCloses(info, w);
      CaptureAttemptsAll(info, w);
      ScheduleClose(step, ResolveCloseDelay(explicitDelay, env), info.status)
  }

  /** After the step: a rejection propagates, otherwise one detached close request when the
      delay is positive. */
  function ScheduleClose(step: Run, delay: Option<int>, st: Option<Status>): (r: Run)
    ensures r.outcome == step.outcome
    ensures step.outcome.Threw? || !Positive(delay) ==> r == step
    ensures |r.events| >= |step.events| && r.events[..|step.events|] == step.events
    ensures NoInvocations(step.events) ==> NoInvocations(r.events)
    ensures Closes(r.events) == Closes(step.events) + (if step.outcome.Completed? && Positive(delay) then 1 else 0)
    ensures step.outcome.Completed? && Positive(delay) ==>
              |r.events| == |step.events| + 1 &&
              (forall i :: 0 <= i < |step.events| ==> r.events[i] == step.events[i]) &&
              r.events[|step.events|] == CloseRequested(delay.value, st)
  {
    if step.outcome.Threw? || !Positive(delay) then step
    else
      ClosesConcat(step.events, [CloseRequested(delay.value, st)]);
      Run(step.events + [CloseRequested(delay.value, st)], Completed)
  }


  lemma StepHasNoCloses(info: TestInfo, w: Artifacts)
    ensures Closes(CaptureStep(info, w).events) == 0
    ensures NoInvocations(CaptureStep(info, w).events)
  {
    CaptureOnlyNotes(info, w);
    StepOfNotesHasNoCloses("Capturing failure artifacts", CaptureArtifacts(info, w), w.active);
  }

  lemma CaptureOnlyNotes(info: TestInfo, w: Artifacts)
    ensures OnlyNotesAndAttachments(CaptureArtifacts(info, w).events)
  {
    CaptureAttemptsAll(info, w);
    var a := AttachScreenshot("Failure Screenshot", w).events;
    var b := AttachVideo("Failure Video", w).events;
    var c := AttachPageHTML("Page HTML", w).events;
    var d := AttachTrace("Trace File", w).events;
    var e := ErrorDetails(info, w).events;
    NotesConcat(a, b);
    NotesConcat(a + b, c);
    NotesConcat(a + b + c, d);
    NotesConcat(a + b + c + d, e);
  }

  lemma NotesConcat(a: seq<Event>, b: seq<Event>)
    requires OnlyNotesAndAttachments(a) && OnlyNotesAndAttachments(b)
    ensures OnlyNotesAndAttachments(a + b)
  {
    forall i | 0 <= i < |a + b|
      ensures (a + b)[i].Console? || (a + b)[i].Attached?
    {
      if i < |a| {
        assert (a + b)[i] == a[i];
      } else {
        assert (a + b)[i] == b[i - |a|];
      }
    }
  }

  lemma StepOfNotesHasNoCloses(name: string, body: Run, active: bool)
    requires OnlyNotesAndAttachments(body.events)
    ensures Closes(Step(name, body, body, active).events) == 0
    ensures NoInvocations(Step(name, body, body, active).events)
  {
    var es := Step(name, body, body, active).events;
    assert forall i :: 0 <= i < |es| ==> es[i].StepOpened? || es[i] in body.events;
  }

  /** On failure the handler's trace starts with the step (opened only when Allure is
      active) and the five captures in order: screenshot, video, page HTML, trace, error
      details. */
  lemma HandlerCapturesInOrder(info: TestInfo, w: Artifacts, explicitDelay: Option<int>, env: ProcessEnv)
    requires FailedOrTimedOut(info.status)
    ensures var r := HandleFailureComprehensive(info, w, explicitDelay, env);
            var c := AttachScreenshot("Failure Screenshot", w).events + AttachVideo("Failure Video", w).events +
                     AttachPageHTML("Page HTML", w).events + AttachTrace("Trace File", w).events +
                     ErrorDetails(info, w).events;
            var p := if w.active then [StepOpened("Capturing failure artifacts")] else [];
            |r.events| >= |p| + |c| && r.events[..|p| + |c|] == p + c
  {
    var r := HandleFailureComprehensive(info, w, explicitDelay, env);
    var s := CaptureStep(info, w).events;
    CaptureAttemptsAll(info, w);
    var c := CaptureArtifacts(info, w).events;
    if w.active {
      assert CaptureArtifacts(info, w).outcome.Completed?;
      assert s == [StepOpened("Capturing failure artifacts")] + c;
    } else {
      assert s == c;
    }
    assert r.events[..|s|] == s;
  }

  /** With no explicit delay and the variable unset, a failed test schedules one close after
      5000 ms, provided the step resolved. An explicit 0 never schedules one. */
  lemma DefaultAndDisabledDelays(info: TestInfo, w: Artifacts, env: ProcessEnv)
    requires FailedOrTimedOut(info.status) && ErrorDetails(info, w).outcome.Completed?
    ensures !EnvSet(env, DelayVariable) ==>
              Closes(HandleFailureComprehensive(info, w, None, env).events) == 1 &&
              CloseRequested(5000, info.status) in HandleFailureComprehensive(info, w, None, env).events
    ensures Closes(HandleFailureComprehensive(info, w, Some(0), env).events) == 0
  {
    var r := HandleFailureComprehensive(info, w, None, env);
    if !EnvSet(env, DelayVariable) {
      assert r.events[|r.events| - 1] in r.events;
    }
  }

  // ---------------------------------------------------------------------------
  // The delayed close
  // ---------------------------------------------------------------------------

  /** The state the close routine reads and changes. The guard reads whether the browser is
      connected; the action closes the context. These are separate facts: closing the context
      leaves the browser connected. */
  datatype Session = Session(hasContext: bool, browserConnected: bool, contextOpen: bool)

  /** Headless holds unless HEADLESS is "false" or PWDEBUG or DEBUG is set. */
  predicate IsHeadless(env: ProcessEnv) {
    EnvVar(env, "HEADLESS") != Some("false") && !EnvSet(env, "PWDEBUG") && !EnvSet(env, "DEBUG")
  }

  /** The words that end the close messages. */
  function StatusText(st: Option<Status>): (t: string)
    ensures t == "after failure" <==> FailedOrTimedOut(st)
  {
    if FailedOrTimedOut(st) then "after failure" else "after test"
  }

  /** `${ms / 1000}`: JavaScript divides exactly, so the seconds keep up to three decimals,
      printed without trailing zeros. */
  function Seconds(ms: int): (t: string)
    ensures ms >= 0 ==> |NatToString(ms / 1000)| <= |t| && t[..|NatToString(ms / 1000)|] == NatToString(ms / 1000)
    ensures ms >= 0 ==> (t == NatToString(ms / 1000) <==> ms % 1000 == 0)
    ensures ms < 0 ==> |t| > 0 && t[0] == '-'
  {
    if ms < 0 then "-" + SecondsOf(-ms) else SecondsOf(ms)
  }

  function SecondsOf(ms: nat): string {
    NatToString(ms / 1000) + Fraction(ms % 1000)
  }

  /** The decimals of f/1000 for 0 <= f < 1000: empty for 0, else "." and the digits. */
  function Fraction(f: nat): (r: string)
    requires f < 1000
    ensures f == 0 <==> r == ""
  {
    if f == 0 then ""
    else
      var digits := [DigitChar(f / 100), DigitChar(f / 10 % 10), DigitChar(f % 10)];
      "." + (if f % 100 == 0 then digits[..1] else if f % 10 == 0 then digits[..2] else digits)
  }

  /** Whole seconds print as the integer. */
  lemma SecondsOfWholeSeconds(k: nat)
    ensures Seconds(1000 * k) == NatToString(k)
  {
    assert Fraction(0) == "";
    assert (1000 * k) / 1000 == k && (1000 * k) % 1000 == 0;
  }

  /** `closeBrowserAfterTest(page, delayMs, testStatus)`. `connectedAfterDelay` is what the
      browser reports once the wait is over; `closeFails` says whether `context.close()`
      rejects. The routine never rejects. */
  function CloseBrowserAfterTest(s: Session, delayMs: int, st: Option<Status>, env: ProcessEnv,
                                 connectedAfterDelay: bool, closeFails: bool): (r: (Session, Run))
    ensures r.1.outcome == Completed
    ensures r.0.hasContext == s.hasContext
    ensures !s.hasContext || !s.browserConnected ==>
              r == (s, Run([Logged(INFO, "Browser already closed")], Completed))
    ensures !IsHeadless(env) ==> r.0 == s && Waited(delayMs) !in r.1.events
    ensures r.0.contextOpen != s.contextOpen ==> s.contextOpen && ContextClosed in r.1.events
    ensures ContextClosed in r.1.events <==>
              s.hasContext && s.browserConnected && IsHeadless(env) && connectedAfterDelay && !closeFails
    ensures ContextClosed in r.1.events ==>
              !r.0.contextOpen && r.1.events[|r.1.events| - 1] == Logged(INFO, "Browser closed " + StatusText(st))
    ensures ContextClosed in r.1.events ==> |r.1.events| == 4 && r.1.events[2] == ContextClosed
    ensures s.hasContext && s.browserConnected && !IsHeadless(env) ==>
              r == (s, Run([Logged(INFO, "Browser kept open for debugging (headed mode)")], Completed))
    ensures s.hasContext && s.browserConnected && IsHeadless(env) ==>
              && |r.1.events| >= 2
              && r.1.events[..2] == [Logged(INFO, "Browser will close in " + Seconds(delayMs) + " seconds " + StatusText(st)),
                                     Waited(delayMs)]
              && r.0.browserConnected == connectedAfterDelay
    ensures s.hasContext && s.browserConnected && IsHeadless(env) && !connectedAfterDelay ==> |r.1.events| == 2
    ensures s.hasContext && s.browserConnected && IsHeadless(env) && connectedAfterDelay ==>
              |r.1.events| > 2 && r.1.events[2] == (if closeFails then Console(ConsoleError, "Error closing browser after test:") else ContextClosed)
    ensures closeFails && ContextClosed !in r.1.events && |r.1.events| > 2 ==>
              r.1.events == r.1.events[..2] + [Console(ConsoleError, "Error closing browser after test:")]
  {
    if !s.hasContext || !s.browserConnected then
      (s, Run([Logged(INFO, "Browser already closed")], Completed))
    else if !IsHeadless(env) then
      (s, Run([Logged(INFO, "Browser kept open for debugging (headed mode)")], Completed))
    else
      var text := StatusText(st);
      var waited := [Logged(INFO, "Browser will close in " + Seconds(delayMs) + " seconds " + text), Waited(delayMs)];
      var after := s.(browserConnected := connectedAfterDelay);
      if !connectedAfterDelay then (after, Run(waited, Completed))
      else if closeFails then (after, Run(waited + [Console(ConsoleError, "Error closing browser after test:")], Completed))
      else (after.(contextOpen := false), Run(waited + [ContextClosed, Logged(INFO, "Browser closed " + text)], Completed))
  }

  /** The context is never closed before the routine has waited the full delay. */
  lemma WaitsBeforeClosing(s: Session, delayMs: int, st: Option<Status>, env: ProcessEnv,
                           connectedAfterDelay: bool, closeFails: bool, i: nat)
    requires var r := CloseBrowserAfterTest(s, delayMs, st, env, connectedAfterDelay, closeFails).1;
             i < |r.events| && r.events[i] == ContextClosed
    ensures Waited(delayMs) in CloseBrowserAfterTest(s, delayMs, st, env, connectedAfterDelay, closeFails).1.events[..i]
  {
    var r := CloseBrowserAfterTest(s, delayMs, st, env, connectedAfterDelay, closeFails).1;
    assert r.events[i] in r.events;
    assert r.events[..2][1] == Waited(delayMs);
    assert r.events[..i][1] == Waited(delayMs);
  }

  /** `closeBrowserAfterFailure(page, delayMs)`: the close routine with status "failed", so
      its messages say "after failure". */
  function CloseBrowserAfterFailure(s: Session, delayMs: int, env: ProcessEnv,
                                    connectedAfterDelay: bool, closeFails: bool): (r: (Session, Run))
    ensures ContextClosed in r.1.events ==> r.1.events[|r.1.events| - 1] == Logged(INFO, "Browser closed after failure")
  {
    assert "Browser closed " + StatusText(Some(Failed)) == "Browser closed after failure";
    CloseBrowserAfterTest(s, delayMs, Some(Failed), env, connectedAfterDelay, closeFails)
  }

  /** A second close request in the same conditions leaves the context as the first one
      left it: two requests act on the session like one. */
  lemma SecondCloseChangesNothing(s: Session, delayMs: int, st: Option<Status>, env: ProcessEnv,
                                  connectedAfterDelay: bool, closeFails: bool)
    ensures var once := CloseBrowserAfterTest(s, delayMs, st, env, connectedAfterDelay, closeFails).0;
            var twice := CloseBrowserAfterTest(once, delayMs, st, env, connectedAfterDelay, closeFails).0;
            twice == once
  {
  }
}

=== FILE: global_hooks.dfy ===
/** The global `afterEach` hook (tests/global-hooks.ts): failure capture for "failed" and
    "timedOut", then a detached browser close for every outcome. `handler` is what
    `handleFailureComprehensive(page, testInfo)` does for the page and test at hand. */
module GlobalHooks {
  import opened Wrappers
  import opened JsStrings
  import opened JsValues
  import opened Effects
  import opened FailureHandling

  /** `parseInt(process.env.BROWSER_CLOSE_DELAY_MS || '5000', 10)`. */
  function GlobalDelay(env: ProcessEnv): (d: Option<int>)
    ensures !EnvSet(env, DelayVariable) ==> d == Some(5000)
    ensures EnvSet(env, DelayVariable) ==> d == ParseInt(env[DelayVariable])
  {
    ParseDefaultDelay();
    ParseInt(OrElse(EnvVar(env, DelayVariable), "5000"))
  }

  /** The hook and the handler resolve the delay alike when no explicit delay is passed. */
  lemma GlobalDelayMatchesHandler(env: ProcessEnv)
    ensures GlobalDelay(env) == ResolveCloseDelay(None, env)
  {
  }

  /** The awaited part of the hook: the handler, for "failed" and "timedOut" only. */
  function Capture(info: TestInfo, handler: Run): (r: Run)
    ensures !FailedOrTimedOut(info.status) ==> r == Done
    ensures FailedOrTimedOut(info.status) ==>
              |r.events| == 1 + |handler.events| && r.events[0] == Invoked(FailureHandler) &&
              (forall i :: 0 <= i < |handler.events| ==> r.events[1 + i] == handler.events[i]) &&
              r.outcome == handler.outcome &&
              Closes(r.events) == Closes(handler.events)
  {
    if FailedOrTimedOut(info.status) then
      ClosesConcat([Invoked(FailureHandler)], handler.events);
      Run([Invoked(FailureHandler)] + handler.events, handler.outcome)
    else Done
  }

  /** The hook: the awaited capture, then, if the parsed delay is positive, a close request
      that is not awaited (its rejection is caught and logged by the request itself). A
      rejection of the capture leaves the hook before the close is requested. */
  function GlobalAfterEach(info: TestInfo, handler: Run, env: ProcessEnv): (r: Run)
    ensures !FailedOrTimedOut(info.status) ==> r.outcome == Completed
    ensures FailedOrTimedOut(info.status) ==>
              |r.events| == 1 + |handler.events| + (if r.outcome.Completed? && Positive(GlobalDelay(env)) then 1 else 0) &&
              r.events[0] == Invoked(FailureHandler) &&
              (forall i :: 0 <= i < |handler.events| ==> r.events[1 + i] == handler.events[i]) &&
              r.outcome == handler.outcome
    ensures Closes(r.events) ==
              (if FailedOrTimedOut(info.status) then Closes(handler.events) else 0) +
              (if r.outcome.Completed? && Positive(GlobalDelay(env)) then 1 else 0)
    ensures r.outcome.Completed? && Positive(GlobalDelay(env)) ==>
              r.events[|r.events| - 1] == CloseRequested(GlobalDelay(env).value, info.status)
    ensures !FailedOrTimedOut(info.status) ==> NoInvocations(r.events)
  {
    ScheduleClose(Capture(info, handler), GlobalDelay(env), info.status)
  }

  /** With the real handler, a failed test whose capture resolves and a positive delay get
      two close requests with the same delay, back to back at the end of the trace: the
      handler's and the hook's. */
  lemma TwoClosesOnFailure(info: TestInfo, w: Artifacts, env: ProcessEnv)
    requires FailedOrTimedOut(info.status) && ErrorDetails(info, w).outcome.Completed?
    requires Positive(GlobalDelay(env))
    ensures var r := GlobalAfterEach(info, HandleFailureComprehensive(info, w, None, env), env);
            Closes(r.events) == 2 && |r.events| >= 2 &&
            r.events[|r.events| - 1] == r.events[|r.events| - 2] ==
              CloseRequested(GlobalDelay(env).value, info.status)
  {
    GlobalDelayMatchesHandler(env);
    ClosesAfterClosingHandler(info, HandleFailureComprehensive(info, w, None, env), env);
  }

  /** The hook after a handler that resolved and ended with the same close request. */
  lemma ClosesAfterClosingHandler(info: TestInfo, handler: Run, env: ProcessEnv)
    requires FailedOrTimedOut(info.status) && handler.outcome.Completed? && Positive(GlobalDelay(env))
    requires Closes(handler.events) == 1
    requires |handler.events| >= 1 &&
             handler.events[|handler.events| - 1] == CloseRequested(GlobalDelay(env).value, info.status)
    ensures var r := GlobalAfterEach(info, handler, env);
            Closes(r.events) == 2 && |r.events| >= 2 &&
            r.events[|r.events| - 1] == r.events[|r.events| - 2] ==
              CloseRequested(GlobalDelay(env).value, info.status)
  {
    var r := GlobalAfterEach(info, handler, env);
    var n := |handler.events|;
    assert |r.events| == n + 2;
    assert r.events[n] == handler.events[n - 1];
  }

  /** Every other outcome with a positive delay gets exactly one close request, passed and
      skipped tests included; a non-positive or unparsable delay gets none from the hook. */
  lemma OneCloseOtherwise(info: TestInfo, w: Artifacts, env: ProcessEnv)
    requires !FailedOrTimedOut(info.status)
    ensures var r := GlobalAfterEach(info, HandleFailureComprehensive(info, w, None, env), env);
            Closes(r.events) == (if Positive(GlobalDelay(env)) then 1 else 0) &&
            Count(r.events, Invoked(FailureHandler)) == 0
  {
  }

  /** When the handler rejects (error details refused outside a test context), the
      rejection leaves the hook and no close is requested at all, not even the hook's own. */
  lemma RefusedDetailsMeanNoClose(info: TestInfo, w: Artifacts, env: ProcessEnv)
    requires FailedOrTimedOut(info.status) && info.error.Some? && !w.active
    ensures var r := GlobalAfterEach(info, HandleFailureComprehensive(info, w, None, env), env);
            r.outcome == Threw(w.refusal) && Closes(r.events) == 0
  {
  }

  /** With `BROWSER_CLOSE_DELAY_MS` unset, the hook requests a close after 5000 ms. */
  lemma DefaultDelayCloses(info: TestInfo, handler: Run, env: ProcessEnv)
    requires !EnvSet(env, DelayVariable) && !FailedOrTimedOut(info.status)
    ensures GlobalAfterEach(info, handler, env).events == [CloseRequested(5000, info.status)]
  {
  }
}

=== FILE: js_strings.dfy ===
/** The few JavaScript string built-ins whose exact behaviour decides something in the
    modelled code: `trim`, `includes`, `substring(0, n)`, ASCII `toLowerCase`,
    `parseInt(s, 10)` and the decimal rendering of an integer in a template literal.
    Strings are sequences of Unicode scalar values (see README for the UTF-16 caveat). */
module JsStrings {
  import opened Wrappers

  // ---------------------------------------------------------------------------
  // Whitespace and trimming
  // ---------------------------------------------------------------------------

  /** The WhiteSpace and LineTerminator code points of ECMA-262 (sections 12.2 and 12.3)
      above the ASCII range: with tab, line feed, vertical tab, form feed, carriage return
      and space they are the characters `String.prototype.trim` removes and `parseInt`
      skips. */
  const WideWhitespace: seq<char> := [
    '\U{A0}', '\U{1680}',
    '\U{2000}', '\U{2001}', '\U{2002}', '\U{2003}', '\U{2004}', '\U{2005}',
    '\U{2006}', '\U{2007}', '\U{2008}', '\U{2009}', '\U{200A}',
    '\U{2028}', '\U{2029}', '\U{202F}', '\U{205F}', '\U{3000}', '\U{FEFF}'
  ]

  /** c occurs in cs. */
  predicate Listed(cs: seq<char>, c: char) {
    |cs| > 0 && (cs[0] == c || Listed(cs[1..], c))
  }

  predicate IsWhitespace(c: char) {
    if c as int < 128 then '\t' <= c <= '\r' || c == ' ' else Listed(WideWhitespace, c)
  }

  /** The index of the first non-whitespace character of s at or after i (|s| if none). */
  function SkipForward(s: string, i: nat): (k: nat)
    requires i <= |s|
    ensures i <= k <= |s|
    ensures forall j :: i <= j < k ==> IsWhitespace(s[j])
    ensures k < |s| ==> !IsWhitespace(s[k])
    decreases |s| - i
  {
    if i < |s| && IsWhitespace(s[i]) then SkipForward(s, i + 1) else i
  }

  /** The index just past the last non-whitespace character of s[lo..hi] (lo if none). */
  function SkipBackward(s: string, lo: nat, hi: nat): (k: nat)
    requires lo <= hi <= |s|
    ensures lo <= k <= hi
    ensures forall j :: k <= j < hi ==> IsWhitespace(s[j])
    ensures k > lo ==> !IsWhitespace(s[k - 1])
    decreases hi
  {
    if hi > lo && IsWhitespace(s[hi - 1]) then SkipBackward(s, lo, hi - 1) else hi
  }

  /** `s.trimStart()`: the suffix of s after its leading whitespace. */
  function TrimStart(s: string): (r: string)
    ensures |r| <= |s| && r == s[|s| - |r|..]
    ensures forall j :: 0 <= j < |s| - |r| ==> IsWhitespace(s[j])
    ensures |r| > 0 ==> !IsWhitespace(r[0])
  {
    s[SkipForward(s, 0)..]
  }

  /** s[a..b] is what trimming leaves of s: only whitespace is cut away on either side,
      and the slice neither starts nor ends with whitespace. */
  ghost predicate IsTrimOf(s: string, a: nat, b: nat) {
    && a <= b <= |s|
    && (forall j :: 0 <= j < a ==> IsWhitespace(s[j]))
    && (forall j :: b <= j < |s| ==> IsWhitespace(s[j]))
    && (a < b ==> !IsWhitespace(s[a]) && !IsWhitespace(s[b - 1]))
  }

  /** `s.trim()`. */
  function Trim(s: string): (r: string)
    ensures var a := SkipForward(s, 0); a + |r| <= |s| && r == s[a..a + |r|] && IsTrimOf(s, a, a + |r|)
  {
    var a := SkipForward(s, 0);
    s[a..SkipBackward(s, a, |s|)]
  }

  /** There is only one way to trim a string: any slice with the trimmed shape is Trim(s). */
  lemma TrimUnique(s: string, a: nat, b: nat)
    requires IsTrimOf(s, a, b)
    ensures Trim(s) == s[a..b]
  {
    var a' := SkipForward(s, 0);
    var b' := a' + |Trim(s)|;
    assert IsTrimOf(s, a', b');
    if a < b {
      assert !IsWhitespace(s[a]) && !IsWhitespace(s[b - 1]);
    }
    if a' < b' {
      assert !IsWhitespace(s[a']) && !IsWhitespace(s[b' - 1]);
    }
  }

  /** Trimming is idempotent. */
  lemma TrimIdempotent(s: string)
    ensures Trim(Trim(s)) == Trim(s)
  {
    var t := Trim(s);
    assert IsTrimOf(t, 0, |t|);
    TrimUnique(t, 0, |t|);
    assert t[0..|t|] == t;
  }

  /** Whitespace padding on either side does not change `trim`: the fact that makes a
      comparison of trimmed values insensitive to surrounding blanks. */
  lemma TrimIgnoresPadding(p: string, s: string, q: string)
    requires forall j :: 0 <= j < |p| ==> IsWhitespace(p[j])
    requires forall j :: 0 <= j < |q| ==> IsWhitespace(q[j])
    ensures Trim(p + s + q) == Trim(s)
  {
    var a := SkipForward(s, 0);
    var b := a + |Trim(s)|;
    TrimOfPadded(p, s, q, a, b);
  }

  /** The trimmed slice of s is also what trimming leaves of s with blank padding. */
  lemma TrimOfPadded(p: string, s: string, q: string, a: nat, b: nat)
    requires forall j :: 0 <= j < |p| ==> IsWhitespace(p[j])
    requires forall j :: 0 <= j < |q| ==> IsWhitespace(q[j])
    requires IsTrimOf(s, a, b)
    ensures Trim(p + s + q) == s[a..b]
  {
    PaddedTrimShape(p, s, q, a, b);
    TrimUnique(p + s + q, |p| + a, |p| + b);
    PaddedSlice(p, s, q, a, b);
  }

  lemma PaddedSlice(p: string, s: string, q: string, a: nat, b: nat)
    requires a <= b <= |s|
    ensures (p + s + q)[|p| + a..|p| + b] == s[a..b]
  {
    var x := p + s + q;
    assert |x[|p| + a..|p| + b]| == |s[a..b]|;
    forall j | 0 <= j < b - a ensures x[|p| + a..|p| + b][j] == s[a..b][j] {
      assert x[|p| + a + j] == s[a + j];
    }
  }

  /** The trimmed slice of s, shifted past the padding, has the trimmed shape in p + s + q. */
  lemma PaddedTrimShape(p: string, s: string, q: string, a: nat, b: nat)
    requires forall j :: 0 <= j < |p| ==> IsWhitespace(p[j])
    requires forall j :: 0 <= j < |q| ==> IsWhitespace(q[j])
    requires IsTrimOf(s, a, b)
    ensures IsTrimOf(p + s + q, |p| + a, |p| + b)
  {
    var x := p + s + q;
    forall j | 0 <= j < |p| + a ensures IsWhitespace(x[j]) {
      if j < |p| { assert x[j] == p[j]; } else { assert x[j] == s[j - |p|]; }
    }
    forall j | |p| + b <= j < |x| ensures IsWhitespace(x[j]) {
      if j < |p| + |s| { assert x[j] == s[j - |p|]; } else { assert x[j] == q[j - |p| - |s|]; }
    }
    if a < b {
      assert x[|p| + a] == s[a];
      assert x[|p| + b - 1] == s[b - 1];
    }
  }

  // ---------------------------------------------------------------------------
  // Substrings
  // ---------------------------------------------------------------------------

  predicate OccursAt(s: string, sub: string, i: nat) {
    i + |sub| <= |s| && s[i..i + |sub|] == sub
  }

  /** `s.includes(sub)`. */
  predicate Includes(s: string, sub: string) {
    exists i | 0 <= i <= |s| :: OccursAt(s, sub, i)
  }

  /** Every string includes itself embedded in any context, and the empty string. */
  lemma IncludesWitness(a: string, sub: string, b: string)
    ensures Includes(a + sub + b, sub)
    ensures Includes(a, "")
  {
    var s := a + sub + b;
    assert s[|a|..|a| + |sub|] == sub;
    assert OccursAt(s, sub, |a|);
    assert OccursAt(a, "", 0);
  }

  /** `s.substring(0, n)` for n >= 0: the first n characters, or all of a shorter s. */
  function Take(s: string, n: nat): (r: string)
    ensures |r| <= n && |r| <= |s|
    ensures r == s[..|r|]
    ensures |s| <= n ==> r == s
    ensures |s| > n ==> |r| == n
  {
    if |s| <= n then s else s[..n]
  }

  /** An ASCII capital letter is mapped to its small letter; any other character is kept. */
  function LowerChar(c: char): (d: char)
    ensures 'A' <= c <= 'Z' <==> d != c
    ensures !('A' <= d <= 'Z')
  {
    if 'A' <= c <= 'Z' then (c as int + 32) as char else c
  }

  /** `toLowerCase` restricted to ASCII letters; other characters are kept. */
  function LowerAscii(s: string): (r: string)
    ensures |r| == |s|
    ensures forall i :: 0 <= i < |s| ==> r[i] == LowerChar(s[i])
  {
    if |s| == 0 then [] else [LowerChar(s[0])] + LowerAscii(s[1..])
  }

  // ---------------------------------------------------------------------------
  // Decimal integers
  // ---------------------------------------------------------------------------

  predicate IsDigit(c: char) {
    '0' <= c <= '9'
  }

  predicate AllDigits(s: string) {
    forall i :: 0 <= i < |s| ==> IsDigit(s[i])
  }

  function DigitChar(d: nat): (c: char)
    requires d < 10
    ensures IsDigit(c) && c as int - '0' as int == d
  {
    ('0' as int + d) as char
  }

  /** The value of a string of decimal digits, most significant first. */
  function DigitsValue(s: string): nat
    requires AllDigits(s)
  {
    if |s| == 0 then 0
    else DigitsValue(s[..|s| - 1]) * 10 + (s[|s| - 1] as int - '0' as int)
  }

  /** The decimal numeral of a natural number: at least one digit, no leading zero. */
  function NatToString(n: nat): (r: string)
    ensures |r| >= 1 && AllDigits(r)
    ensures |r| > 1 ==> r[0] != '0'
  {
    if n < 10 then [DigitChar(n)] else NatToString(n / 10) + [DigitChar(n % 10)]
  }

  /** `${i}` for an integer i. */
  function IntToString(i: int): (r: string)
    ensures |r| >= 1
    ensures r[0] == '-' <==> i < 0
  {
    if i < 0 then "-" + NatToString(-i) else NatToString(i)
  }

  /** The longest prefix of s made of decimal digits. */
  function DigitPrefix(s: string): (r: string)
    ensures |r| <= |s| && r == s[..|r|] && AllDigits(r)
    ensures |r| < |s| ==> !IsDigit(s[|r|])
  {
    if |s| > 0 && IsDigit(s[0]) then [s[0]] + DigitPrefix(s[1..]) else []
  }

  /** The text after an optional leading sign. */
  function Unsigned(t: string): (u: string)
    ensures |t| > 0 && (t[0] == '-' || t[0] == '+') ==> u == t[1..]
    ensures |t| == 0 || (t[0] != '-' && t[0] != '+') ==> u == t
  {
    if |t| > 0 && (t[0] == '-' || t[0] == '+') then t[1..] else t
  }

  /** parseInt on text whose leading whitespace is already gone. */
  function ParseTrimmed(t: string): Option<int> {
    var z := DigitPrefix(Unsigned(t));
    if |z| == 0 then None
    else
      var v: int := DigitsValue(z);
      if |t| > 0 && t[0] == '-' then Some(-v) else Some(v)
  }

  /** `parseInt(s, 10)` (ECMA-262 section 19.2.5): skip leading whitespace, read an optional
      sign, then the longest run of decimal digits; no digit at all gives NaN (None).
      Characters after the digits are ignored. */
  function ParseInt(s: string): (r: Option<int>)
    ensures r.Some? ==> exists i :: 0 <= i < |s| && IsDigit(s[i])
    ensures r.Some? && r.value < 0 ==> exists i :: 0 <= i < |s| && s[i] == '-'
  {
    var t := TrimStart(s);
    var k := |s| - |t|;
    var i := if |t| > 0 && (t[0] == '-' || t[0] == '+') then k + 1 else k;
    assert |DigitPrefix(Unsigned(t))| > 0 ==> i < |s| && IsDigit(s[i]) by {
      if |DigitPrefix(Unsigned(t))| > 0 {
        assert Unsigned(t) == s[i..];
        assert DigitPrefix(Unsigned(t))[0] == s[i];
      }
    }
    assert ParseTrimmed(t).Some? && ParseTrimmed(t).value < 0 ==> s[k] == '-';
    ParseTrimmed(t)
  }

  lemma {:induction false} DigitsValueOfNatToString(n: nat)
    ensures DigitsValue(NatToString(n)) == n
  {
    if n >= 10 {
      var r := NatToString(n);
      assert r[..|r| - 1] == NatToString(n / 10);
      DigitsValueOfNatToString(n / 10);
    }
  }

  lemma {:induction false} DigitPrefixOfDigits(d: string, rest: string)
    requires AllDigits(d)
    requires |rest| == 0 || !IsDigit(rest[0])
    ensures DigitPrefix(d + rest) == d
  {
    if |d| > 0 {
      assert (d + rest)[1..] == d[1..] + rest;
      DigitPrefixOfDigits(d[1..], rest);
    } else {
      assert d + rest == rest;
    }
  }

  /** parseInt of a digit string followed by non-digit text. */
  lemma {:induction false} ParseIntOfDigits(d: string, rest: string)
    requires AllDigits(d) && |d| >= 1
    requires |rest| == 0 || !IsDigit(rest[0])
    ensures ParseInt(d + rest) == Some(DigitsValue(d) as int)
  {
    var u := d + rest;
    assert IsDigit(u[0]) by {
      assert u[0] == d[0];
    }
    assert DigitPrefix(Unsigned(u)) == d by {
      assert Unsigned(u) == u;
      DigitPrefixOfDigits(d, rest);
    }
    ParseTrimmedPositive(u, d);
    TrimStartKeeps(u);
  }

  lemma ParseTrimmedPositive(t: string, d: string)
    requires |t| > 0 && IsDigit(t[0]) && |d| > 0 && DigitPrefix(Unsigned(t)) == d
    ensures ParseTrimmed(t) == Some(DigitsValue(d) as int)
  {
  }

  /** A string that starts with a non-blank character is its own trimStart. */
  lemma TrimStartKeeps(s: string)
    requires |s| > 0 && !IsWhitespace(s[0])
    ensures TrimStart(s) == s
  {
    assert SkipForward(s, 0) == 0;
  }

  /** parseInt of a minus sign, a digit string and non-digit text. */
  lemma {:induction false} ParseIntOfNegatedDigits(d: string, rest: string)
    requires AllDigits(d) && |d| >= 1
    requires |rest| == 0 || !IsDigit(rest[0])
    ensures ParseInt("-" + d + rest) == Some(-(DigitsValue(d) as int))
  {
    var s := "-" + d + rest;
    assert s[0] == '-' && s[1..] == d + rest by {
      assert s == ['-'] + (d + rest);
    }
    assert TrimStart(s) == s by {
      assert !IsWhitespace(s[0]);
      TrimStartKeeps(s);
    }
    assert DigitPrefix(Unsigned(s)) == d by {
      DigitPrefixOfDigits(d, rest);
    }
    ParseTrimmedNegative(s, d);
  }

  lemma ParseTrimmedNegative(t: string, d: string)
    requires |t| > 0 && t[0] == '-' && |d| > 0 && DigitPrefix(Unsigned(t)) == d
    ensures ParseTrimmed(t) == Some(-(DigitsValue(d) as int))
  {
  }

  /** parseInt reads back what a template literal wrote, whatever non-digit text follows
      (so `parseInt("5000") == 5000` and `parseInt("12px") == 12`). */
  lemma {:induction false} ParseIntOfIntToString(i: int, rest: string)
    requires |rest| == 0 || !IsDigit(rest[0])
    ensures ParseInt(IntToString(i) + rest) == Some(i)
  {
    if i < 0 {
      var d := NatToString(-i);
      assert ParseInt("-" + d + rest) == Some(-(DigitsValue(d) as int)) by {
        ParseIntOfNegatedDigits(d, rest);
      }
      assert DigitsValue(d) == -i by {
        DigitsValueOfNatToString(-i);
      }
      assert IntToString(i) + rest == "-" + d + rest;
    } else {
      var d := NatToString(i);
      assert ParseInt(d + rest) == Some(DigitsValue(d) as int) by {
        ParseIntOfDigits(d, rest);
      }
      assert DigitsValue(d) == i by {
        DigitsValueOfNatToString(i);
      }
      assert IntToString(i) == d;
    }
  }

  /** Leading whitespace does not change what parseInt reads. */
  lemma {:induction false} ParseIntSkipsWhitespace(p: string, s: string)
    requires forall j :: 0 <= j < |p| ==> IsWhitespace(p[j])
    ensures ParseInt(p + s) == ParseInt(s)
  {
    var x := p + s;
    var k := SkipForward(s, 0);
    assert SkipForward(x, 0) == |p| + k by {
      assert forall j :: 0 <= j < |p| ==> x[j] == p[j];
      SkipOverWhitespace(x, 0, |p|);
      SkipForwardShift(p, s, 0);
    }
    assert TrimStart(x) == TrimStart(s) by {
      assert x[|p| + k..] == s[k..];
    }
  }

  /** Skipping from i reaches the same place as skipping from k when x[i..k] is blank. */
  lemma {:induction false} SkipOverWhitespace(x: string, i: nat, k: nat)
    requires i <= k <= |x|
    requires forall j :: i <= j < k ==> IsWhitespace(x[j])
    ensures SkipForward(x, i) == SkipForward(x, k)
    decreases k - i
  {
    if i < k {
      SkipOverWhitespace(x, i + 1, k);
    }
  }

  /** Skipping inside the second part of a concatenation ignores the first part. */
  lemma {:induction false} SkipForwardShift(p: string, s: string, i: nat)
    requires i <= |s|
    ensures SkipForward(p + s, |p| + i) == |p| + SkipForward(s, i)
    decreases |s| - i
  {
    if i < |s| {
      assert (p + s)[|p| + i] == s[i];
      if IsWhitespace(s[i]) {
        SkipForwardShift(p, s, i + 1);
      }
    }
  }

  /** The default "5000" used for an unset delay variable parses to 5000. */
  lemma ParseDefaultDelay()
    ensures ParseInt("5000") == Some(5000)
  {
    assert NatToString(5) == "5";
    assert NatToString(50) == "50";
    assert NatToString(500) == "500";
    assert NatToString(5000) == "5000";
    ParseIntOfIntToString(5000, "");
    assert IntToString(5000) + "" == "5000";
  }

  // ---------------------------------------------------------------------------
  // Paths
  // ---------------------------------------------------------------------------

  /** `path.join(dir, name)` for a plain entry name (no "." or ".." segments to collapse). */
  function JoinPath(dir: string, name: string): string {
    dir + "/" + name
  }

  /** `s.endsWith(suffix)`. */
  predicate EndsWith(s: string, suffix: string) {
    |suffix| <= |s| && s[|s| - |suffix|..] == suffix
  }
}

=== FILE: js_values.dfy ===
/** The JavaScript values that cross the modelled boundaries: `unknown` arguments of the
    assertions, tool arguments of the MCP server, and the values rendered into messages.
    Numbers are integers here (no NaN, no fractions), so strict equality coincides with
    SameValueZero, the comparison `Array.prototype.includes` uses. */
module JsValues {
  import opened Wrappers
  import opened JsStrings

  /** An object is known only by its identity. */
  datatype JsValue =
    | Undefined
    | Null
    | Bool(b: bool)
    | Num(n: int)
    | Str(s: string)
    | Obj(id: nat)

  /** `a === b` (ECMA-262 section 7.2.15): same type and same value; objects by identity. */
  function StrictEquals(a: JsValue, b: JsValue): (r: bool)
    ensures r <==> a == b
  {
    match (a, b)
    case (Undefined, Undefined) => true
    case (Null, Null) => true
    case (Bool(x), Bool(y)) => x == y
    case (Num(x), Num(y)) => x == y
    case (Str(x), Str(y)) => x == y
    case (Obj(x), Obj(y)) => x == y
    case _ => false
  }

  /** ToBoolean (ECMA-262 section 7.1.2): undefined, null, false, 0 and "" are falsy. */
  function Truthy(v: JsValue): (r: bool)
    ensures !r <==> v in {Undefined, Null, Bool(false), Num(0), Str("")}
  {
    match v
    case Undefined => false
    case Null => false
    case Bool(b) => b
    case Num(n) => n != 0
    case Str(s) => |s| > 0
    case Obj(_) => true
  }

  /** `String(v)`, the text a template literal `${v}` inserts (ECMA-262 section 7.1.17);
      a plain object renders as "[object Object]". */
  function Render(v: JsValue): (r: string)
    ensures v.Str? ==> r == v.s
    ensures v.Num? ==> ParseInt(r) == Some(v.n)
    ensures v.Bool? ==> (r == "true" <==> v.b)
  {
    match v
    case Undefined => "undefined"
    case Null => "null"
    case Bool(b) => if b then "true" else "false"
    case Num(n) => ParseIntOfIntToString(n, ""); assert IntToString(n) + "" == IntToString(n); IntToString(n)
    case Str(s) => s
    case Obj(_) => "[object Object]"
  }

  /** `(v as string | undefined) || fallback` for a possibly missing string. */
  function OrElse(v: Option<string>, fallback: string): (r: string)
    ensures v.Some? && |v.value| > 0 ==> r == v.value
    ensures v.None? || |v.value| == 0 ==> r == fallback
  {
    if v.Some? && |v.value| > 0 then v.value else fallback
  }

  /** `process.env`: the variables that are set, with their values. */
  type ProcessEnv = map<string, string>

  /** `process.env[key]`: undefined when unset. */
  function EnvVar(env: ProcessEnv, key: string): (r: Option<string>)
    ensures r.Some? <==> key in env
    ensures r.Some? ==> r.value == env[key]
  {
    if key in env then Some(env[key]) else None
  }

  /** `if (process.env[key])`: set to a non-empty value. */
  predicate EnvSet(env: ProcessEnv, key: string) {
    key in env && |env[key]| > 0
  }
}

=== FILE: logger.dfy ===
/** The plain level-gated console logger (src/utils/logger.ts) and the pieces the
    Allure-integrated logger shares with it: the level order, the gate and the line format.
    The clock is a parameter (`ts`, an ISO-8601 timestamp) and `JSON.stringify` of the
    argument list is an abstract function `json`. */
module Logging {
  import opened Wrappers
  import opened JsValues

  /** `LogLevel`: DEBUG = 0, INFO = 1, WARN = 2, ERROR = 3. */
  datatype LogLevel = DEBUG | INFO | WARN | ERROR

  /** The numeric value of a level. */
  function Rank(l: LogLevel): (n: nat)
    ensures n <= 3
    ensures l == DEBUG <==> n == 0
    ensures l == INFO <==> n == 1
    ensures l == WARN <==> n == 2
    ensures l == ERROR <==> n == 3
  {
    match l
    case DEBUG => 0
    case INFO => 1
    case WARN => 2
    case ERROR => 3
  }

  /** The level's name as printed between brackets. */
  function Label(l: LogLevel): string {
    match l
    case DEBUG => "DEBUG"
    case INFO => "INFO"
    case WARN => "WARN"
    case ERROR => "ERROR"
  }

  /** The console method a message goes to: `console.log`, `console.debug`, ... */
  datatype Channel = ConsoleLog | ConsoleDebug | ConsoleInfo | ConsoleWarn | ConsoleError

  function ChannelOf(l: LogLevel): Channel {
    match l
    case DEBUG => ConsoleDebug
    case INFO => ConsoleInfo
    case WARN => ConsoleWarn
    case ERROR => ConsoleError
  }

  /** A message at level `at` passes a logger configured at `configured`. */
  predicate Enabled(configured: LogLevel, at: LogLevel) {
    Rank(configured) <= Rank(at)
  }

  /** `JSON.stringify` of an argument list, left abstract. */
  type Stringify = seq<JsValue> -> string

  /** The `[ts] [LEVEL] ` header of a line. */
  function Header(ts: string, tag: string): string {
    "[" + ts + "] [" + tag + "] "
  }

  /** `formatMessage`: the header, the message, and a space with the JSON of the
      arguments only when there are any. */
  function FormatMessage(ts: string, tag: string, message: string, args: seq<JsValue>, json: Stringify): (r: string)
    ensures |args| == 0 <==> r == Header(ts, tag) + message
    ensures |args| > 0 ==> r == Header(ts, tag) + message + " " + json(args)
  {
    var formattedArgs := if |args| > 0 then " " + json(args) else "";
    assert |args| > 0 ==> |Header(ts, tag) + message + formattedArgs| > |Header(ts, tag) + message|;
    Header(ts, tag) + message + formattedArgs
  }

  // ---------------------------------------------------------------------------
  // Reading a header back
  // ---------------------------------------------------------------------------

  /** The longest prefix of s without the character c. */
  function Until(s: string, c: char): (r: string)
    ensures |r| <= |s| && r == s[..|r|]
    ensures c !in r
    ensures |r| < |s| ==> s[|r|] == c
  {
    if |s| == 0 || s[0] == c then [] else [s[0]] + Until(s[1..], c)
  }

  lemma {:induction false} UntilStops(a: string, c: char, b: string)
    requires c !in a
    ensures Until(a + [c] + b, c) == a
  {
    if |a| > 0 {
      assert (a + [c] + b)[1..] == a[1..] + [c] + b;
      UntilStops(a[1..], c, b);
    }
  }

  /** Splits the text after a timestamp, `] [tag] rest`, into the tag and the rest. */
  function ReadTagged(after: string): Option<(string, string)> {
    if |after| < 3 || after[..3] != "] [" then None
    else
      var tag := Until(after[3..], ']');
      var tail := after[3 + |tag|..];
      if |tail| < 2 || tail[..2] != "] " then None
      else Some((tag, tail[2..]))
  }

  /** Splits a line `[ts] [tag] rest` into its three parts. */
  function ReadHeader(line: string): Option<(string, string, string)> {
    if |line| == 0 || line[0] != '[' then None
    else
      var ts := Until(line[1..], ']');
      var tagged := ReadTagged(line[1 + |ts|..]);
      if tagged.None? then None else Some((ts, tagged.value.0, tagged.value.1))
  }

  lemma TaggedReadsBack(tag: string, rest: string)
    requires ']' !in tag
    ensures ReadTagged("] [" + tag + "] " + rest) == Some((tag, rest))
  {
    var after := "] [" + tag + "] " + rest;
    assert after[..3] == "] [";
    assert Until(after[3..], ']') == tag by {
      assert after[3..] == tag + [']'] + (" " + rest);
      UntilStops(tag, ']', " " + rest);
    }
    assert after[3 + |tag|..] == "] " + rest;
  }

  /** The timestamp between the opening bracket and the first ']' reads back. */
  lemma StampReadsBack(ts: string, after: string)
    requires ']' !in ts && |after| > 0 && after[0] == ']'
    ensures var line := "[" + ts + after; Until(line[1..], ']') == ts && line[1 + |ts|..] == after
  {
    var line := "[" + ts + after;
    assert line[1..] == ts + [']'] + after[1..];
    UntilStops(ts, ']', after[1..]);
    assert line[1 + |ts|..] == after;
  }

  /** A header whose timestamp and tag hold no ']' reads back as what was written, and
      the rest of the line is the message followed by the argument suffix. */
  lemma HeaderReadsBack(ts: string, tag: string, rest: string)
    requires ']' !in ts && ']' !in tag
    ensures ReadHeader(Header(ts, tag) + rest) == Some((ts, tag, rest))
  {
    var after := "] [" + tag + "] " + rest;
    assert Header(ts, tag) + rest == "[" + ts + after;
    StampReadsBack(ts, after);
    TaggedReadsBack(tag, rest);
  }

  /** Every formatted line names its level in its header and keeps the message intact. */
  lemma FormatMessageReadsBack(ts: string, l: LogLevel, message: string, args: seq<JsValue>, json: Stringify)
    requires ']' !in ts
    ensures var r := ReadHeader(FormatMessage(ts, Label(l), message, args, json));
            r.Some? && r.value.0 == ts && r.value.1 == Label(l) &&
            message <= r.value.2 && (|args| == 0 <==> r.value.2 == message)
  {
    var suffix := if |args| > 0 then " " + json(args) else "";
    assert FormatMessage(ts, Label(l), message, args, json) == Header(ts, Label(l)) + (message + suffix);
    HeaderReadsBack(ts, Label(l), message + suffix);
  }

  // ---------------------------------------------------------------------------
  // The logger
  // ---------------------------------------------------------------------------

  /** A line written to the console. */
  datatype ConsoleLine = ConsoleLine(channel: Channel, text: string)

  datatype Logger = Logger(level: LogLevel)

  /** The exported `logger` instance. */
  const DefaultLogger: Logger := Logger(INFO)

  /** `debug`, `info`, `warn` and `error`: one formatted line on the level's console
      channel when the gate lets the message through, nothing otherwise. */
  function Emit(lg: Logger, at: LogLevel, ts: string, message: string, args: seq<JsValue>, json: Stringify): (out: seq<ConsoleLine>)
    ensures |out| <= 1
    ensures |out| == 1 <==> Rank(lg.level) <= Rank(at)
    ensures at == ERROR ==> |out| == 1
    ensures at == DEBUG ==> (|out| == 1 <==> lg.level == DEBUG)
    ensures |out| == 1 ==> out[0].channel == ChannelOf(at) && out[0].text == FormatMessage(ts, Label(at), message, args, json)
  {
    if Enabled(lg.level, at) then [ConsoleLine(ChannelOf(at), FormatMessage(ts, Label(at), message, args, json))] else []
  }

  /** Raising the configured level never lets more messages through. */
  lemma GateMonotone(lower: LogLevel, higher: LogLevel, at: LogLevel)
    requires Rank(lower) <= Rank(higher)
    ensures Enabled(higher, at) ==> Enabled(lower, at)
  {
  }

  /** The levels ascend DEBUG < INFO < WARN < ERROR, so a level passes exactly the messages
      at it or above it in that order. */
  lemma RanksAscend(configured: LogLevel, at: LogLevel)
    ensures Rank(DEBUG) < Rank(INFO) < Rank(WARN) < Rank(ERROR)
    ensures Enabled(configured, at) <==>
              (configured == DEBUG || (configured == INFO && at != DEBUG) ||
               (configured == WARN && (at == WARN || at == ERROR)) || at == ERROR)
  {
  }

  /** A WARN logger prints nothing for DEBUG and INFO and one line for WARN and ERROR. */
  lemma WarnLoggerGate(at: LogLevel, ts: string, message: string, args: seq<JsValue>, json: Stringify)
    ensures |Emit(Logger(WARN), at, ts, message, args, json)| == (if at == WARN || at == ERROR then 1 else 0)
  {
  }

  /** The default logger suppresses DEBUG and prints the other three levels. */
  lemma DefaultLoggerGate(at: LogLevel, ts: string, message: string, args: seq<JsValue>, json: Stringify)
    ensures |Emit(DefaultLogger, at, ts, message, args, json)| == 1 <==> at != DEBUG
  {
  }
}

=== FILE: mcp_server.dfy ===
/** The MCP server (src/mcp/server.ts): a fixed tool list, a call handler that maps a tool
    name onto one operation of the automation session and answers with a fixed text
    template, and one readable resource. The handler turns every rejection into an error
    response; the resource reader throws. */
module McpServer {
  import opened Wrappers
  import opened JsStrings
  import opened JsValues
  import opened Automation

  /** A listed tool: its name, its description, its argument names and the required ones. */
  datatype Tool = Tool(name: string, description: string, properties: seq<string>, required: seq<string>)

  function ToolList(): seq<Tool> {
    [ Tool("navigate", "Navigate to a URL", ["url"], ["url"]),
      Tool("click", "Click an element", ["selector"], ["selector"]),
      Tool("fill", "Fill an input field", ["selector", "value"], ["selector", "value"]),
      Tool("screenshot", "Take a screenshot", ["path"], []),
      Tool("get_text", "Get text content from an element", ["selector"], ["selector"]),
      Tool("wait_for_selector", "Wait for an element to appear", ["selector", "timeout"], ["selector"]) ]
  }

  function ToolNames(tools: seq<Tool>): (names: seq<string>)
    ensures |names| == |tools|
    ensures forall i :: 0 <= i < |tools| ==> names[i] == tools[i].name
  {
    if |tools| == 0 then [] else [tools[0].name] + ToolNames(tools[1..])
  }

  /** The cases of the call handler's `switch`, in order. */
  const Dispatched: seq<string> := ["navigate", "click", "fill", "screenshot", "get_text", "wait_for_selector"]

  predicate Known(name: string) {
    name in Dispatched
  }

  /** The listed tools are the dispatched ones, in the same order. */
  lemma ToolListMatchesDispatch()
    ensures ToolNames(ToolList()) == Dispatched
  {
    var tools := ToolList();
    var names := ToolNames(tools);
    assert |names| == |Dispatched|;
    forall i | 0 <= i < |names|
      ensures names[i] == Dispatched[i]
    {
      assert names[i] == tools[i].name;
    }
  }

  /** Every required argument of a listed tool is one of its declared arguments. */
  lemma RequiredArgumentsDeclared()
    ensures forall t :: t in ToolList() ==> forall a :: a in t.required ==> a in t.properties
  {
  }

  /** The `arguments` object of a call; absent when the request carries none. */
  type Arguments = Option<map<string, JsValue>>

  /** `${args.key}`: the text a template inserts for an argument. */
  function ArgText(args: map<string, JsValue>, key: string): (t: string)
    ensures key in args && args[key].Str? ==> t == args[key].s
    ensures key !in args ==> t == "undefined"
  {
    if key in args then Render(args[key]) else "undefined"
  }

  /** `args.path`, as `screenshot` sees it after `path || default`. */
  function PathArg(args: map<string, JsValue>): (p: Option<string>)
    ensures p.Some? ==> "path" in args && Truthy(args["path"])
  {
    if "path" in args && Truthy(args["path"]) then Some(Render(args["path"])) else None
  }

  /** `args.timeout`, passed on as it is: the `as number | undefined` cast checks nothing. */
  function TimeoutArg(args: map<string, JsValue>): (t: JsValue)
    ensures "timeout" in args ==> t == args["timeout"]
    ensures "timeout" !in args ==> t == Undefined
  {
    if "timeout" in args then args["timeout"] else Undefined
  }

  /** The text of the TypeError thrown when `args` is undefined and a field is read. */
  function UndefinedRead(key: string): string {
    "Cannot read properties of undefined (reading '" + key + "')"
  }

  /** The first argument a tool reads. */
  function FirstArg(name: string): string {
    if name == "navigate" then "url" else if name == "screenshot" then "path" else "selector"
  }

  /** The body of the `switch`: the session afterwards and either the success text or the
      message of what was thrown. Only `navigate` changes the session. */
  function Dispatch(s: Session, d: Driver, name: string, args: Arguments): (r: (Session, Result<string>))
    ensures !Known(name) ==> r == (s, Err("Unknown tool: " + name))
    ensures Known(name) && args.None? ==> r == (s, Err(UndefinedRead(FirstArg(name))))
    ensures name != "navigate" ==> r.0 == s
    ensures Known(name) && args.Some? ==>
              var a := args.value;
              (name == "navigate" ==>
                 r.0 == Navigate(s, d, ArgText(a, "url")).0 &&
                 (r.1.Ok? <==> Navigate(s, d, ArgText(a, "url")).1.Ok?) &&
                 (r.1.Err? ==> r.1.message == Navigate(s, d, ArgText(a, "url")).1.message) &&
                 (r.1.Ok? ==> r.1.value == "Navigated to " + ArgText(a, "url"))) &&
              (name == "click" ==>
                 (r.1.Ok? <==> Click(s, d, ArgText(a, "selector")).0.Ok?) &&
                 (r.1.Err? ==> r.1.message == Click(s, d, ArgText(a, "selector")).0.message) &&
                 (r.1.Ok? ==> r.1.value == "Clicked element: " + ArgText(a, "selector"))) &&
              (name == "fill" ==>
                 (r.1.Ok? <==> Fill(s, d, ArgText(a, "selector"), ArgText(a, "value")).Ok?) &&
                 (r.1.Err? ==> r.1.message == Fill(s, d, ArgText(a, "selector"), ArgText(a, "value")).message) &&
                 (r.1.Ok? ==> r.1.value == "Filled " + ArgText(a, "selector") + " with " + ArgText(a, "value"))) &&
              (name == "screenshot" ==>
                 (r.1.Ok? <==> Screenshot(s, d, PathArg(a)).Ok?) &&
                 (r.1.Err? ==> r.1.message == Screenshot(s, d, PathArg(a)).message) &&
                 (r.1.Ok? ==> r.1.value == "Screenshot saved to " + Screenshot(s, d, PathArg(a)).value)) &&
              (name == "get_text" ==> r.1 == GetText(s, d, ArgText(a, "selector"))) &&
              (name == "wait_for_selector" ==>
                 (r.1.Ok? <==> WaitForSelector(s, d, ArgText(a, "selector"), TimeoutArg(a)).Ok?) &&
                 (r.1.Err? ==> r.1.message == WaitForSelector(s, d, ArgText(a, "selector"), TimeoutArg(a)).message) &&
                 (r.1.Ok? ==> r.1.value == "Element " + ArgText(a, "selector") + " appeared"))
  {
    if !Known(name) then (s, Err("Unknown tool: " + name))
    else if args.None? then (s, Err(UndefinedRead(FirstArg(name))))
    else
      var a := args.value;
      if name == "navigate" then
        var n := Navigate(s, d, ArgText(a, "url"));
        (n.0, if n.1.Ok? then Ok("Navigated to " + ArgText(a, "url")) else Err(n.1.message))
      else if name == "click" then
        var c := Click(s, d, ArgText(a, "selector")).0;
        (s, if c.Ok? then Ok("Clicked element: " + ArgText(a, "selector")) else Err(c.message))
      else if name == "fill" then
        var f := Fill(s, d, ArgText(a, "selector"), ArgText(a, "value"));
        (s, if f.Ok? then Ok("Filled " + ArgText(a, "selector") + " with " + ArgText(a, "value")) else Err(f.message))
      else if name == "screenshot" then
        var p := Screenshot(s, d, PathArg(a));
        (s, if p.Ok? then Ok("Screenshot saved to " + p.value) else Err(p.message))
      else if name == "get_text" then
        (s, GetText(s, d, ArgText(a, "selector")))
      else
        var w := WaitForSelector(s, d, ArgText(a, "selector"), TimeoutArg(a));
        (s, if w.Ok? then Ok("Element " + ArgText(a, "selector") + " appeared") else Err(w.message))
  }

  /** A tool response: one text item, flagged when it reports an error. */
  datatype Response = Response(text: string, isError: bool)

  /** The call handler: whatever the switch throws becomes an error response. */
  function CallTool(s: Session, d: Driver, name: string, args: Arguments): (r: (Session, Response))
    ensures r.0 == Dispatch(s, d, name, args).0
    ensures r.1.isError <==> Dispatch(s, d, name, args).1.Err?
    ensures r.1.isError ==> r.1.text == "Error: " + Dispatch(s, d, name, args).1.message
    ensures !r.1.isError ==> r.1.text == Dispatch(s, d, name, args).1.value
  {
    var (s1, out) := Dispatch(s, d, name, args);
    (s1, if out.Ok? then Response(out.value, false) else Response("Error: " + out.message, true))
  }

  /** A name outside the `switch` (and so, by ToolListMatchesDispatch, outside the tool
      list) is answered with an error response naming it, and changes nothing. */
  lemma UnknownToolAnswersError(s: Session, d: Driver, name: string, args: Arguments)
    requires !Known(name)
    ensures CallTool(s, d, name, args) == (s, Response("Error: Unknown tool: " + name, true))
  {
    var m := "Unknown tool: " + name;
    assert Dispatch(s, d, name, args).1 == Err(m);
    assert "Error: " + m == "Error: Unknown tool: " + name;
  }

  /** Before any navigation every tool but `navigate` answers "Page not initialized" as an
      error response. */
  lemma ToolsBeforeNavigation(d: Driver, name: string, a: map<string, JsValue>)
    requires Known(name) && name != "navigate"
    ensures CallTool(Fresh, d, name, Some(a)) == (Fresh, Response("Error: " + NotInitialized, true))
  {
  }

  /** `get_text` answers with the element's text verbatim, "" for an element without text. */
  lemma GetTextVerbatim(s: Session, d: Driver, selector: string)
    requires s.page && d.textContent(selector).Ok?
    ensures CallTool(s, d, "get_text", Some(map["selector" := Str(selector)])).1 ==
              Response(d.textContent(selector).value.GetOr(""), false)
  {
  }

  /** A resource entry of `resources/list` and of `resources/read`. */
  datatype Resource = Resource(uri: string, name: string, description: string, mimeType: string)

  datatype ResourceContents = ResourceContents(uri: string, mimeType: string, text: string)

  const BrowserStateUri: string := "playwright://browser-state"

  function ListResources(): (rs: seq<Resource>)
    ensures |rs| == 1 && rs[0].uri == BrowserStateUri
  {
    [Resource(BrowserStateUri, "Browser State", "Current browser state and context", "application/json")]
  }

  /** Serialises a browser state; `JSON.stringify(state, null, 2)`. */
  type StateJson = BrowserState -> string

  /** `resources/read`: the browser state as JSON for the one listed URI; any other URI,
      or a session without a page, throws. */
  function ReadResource(s: Session, d: Driver, uri: string, json: StateJson): (r: Result<ResourceContents>)
    ensures uri != BrowserStateUri ==> r == Err("Unknown resource: " + uri)
    ensures uri == BrowserStateUri ==> (r.Ok? <==> GetBrowserState(s, d).Ok?)
    ensures r.Ok? ==> r.value == ResourceContents(uri, "application/json", json(GetBrowserState(s, d).value))
  {
    if uri == BrowserStateUri then
      var st := GetBrowserState(s, d);
      if st.Ok? then Ok(ResourceContents(uri, "application/json", json(st.value))) else Err(st.message)
    else Err("Unknown resource: " + uri)
  }

  /** Every listed resource can be read once a page exists whose title resolves. */
  lemma ListedResourcesReadable(s: Session, d: Driver, json: StateJson)
    requires s.page && d.title.Ok?
    ensures forall res :: res in ListResources() ==> ReadResource(s, d, res.uri, json).Ok?
  {
  }
}

=== FILE: secret_scanner.dfy ===
/** The pre-commit secret scanner of scripts/scan-secrets.js: which paths are scanned,
    which (pattern, line) pairs become issues, what an issue records, and the exit code.
    Regular expressions are kept as their source text; what `regex.test(text)` answers is
    the `Engine` parameter, so every result below holds for any regex engine. */
module SecretScanner {
  import opened Wrappers
  import opened JsStrings

  // ---------------------------------------------------------------------------
  // Patterns
  // ---------------------------------------------------------------------------

  /** A JavaScript regular-expression literal: its source text and its flags. */
  datatype Regex = Regex(source: string, flags: string)

  /** What `regex.test(text)` (equivalently, the truthiness of `text.match(regex)`) answers. */
  type Engine = (Regex, string) -> bool

  datatype Severity = Critical | High | Medium | Low

  /** The entries of SECRET_PATTERNS, one constructor each; the name, regex, severity and
      exclude list of an entry are the functions below. */
  datatype PatternKind =
    | OpenAiApiKey | AwsAccessKeyId | AwsSecretKey | GitHubToken | GoogleApiKey | SlackToken
    | StripeApiKey | StripePublishableKey | GenericApiKey | AccessToken | HardcodedPassword
    | DatabasePassword | PrivateKey | SshPrivateKey | BearerToken | EmailAddress | UrlWithCredentials

  /** SECRET_PATTERNS in list order. */
  const SecretPatterns: seq<PatternKind> := [
    OpenAiApiKey, AwsAccessKeyId, AwsSecretKey, GitHubToken, GoogleApiKey, SlackToken,
    StripeApiKey, StripePublishableKey, GenericApiKey, AccessToken, HardcodedPassword,
    DatabasePassword, PrivateKey, SshPrivateKey, BearerToken, EmailAddress, UrlWithCredentials
  ]

  /** The `name` of an entry; it is what an issue records as its pattern. */
  function PatternName(k: PatternKind): string {
    match k
    case OpenAiApiKey => "OpenAI API Key"
    case AwsAccessKeyId => "AWS Access Key"
    case AwsSecretKey => "AWS Secret Key"
    case GitHubToken => "GitHub Personal Access Token"
    case GoogleApiKey => "Google API Key"
    case SlackToken => "Slack Token"
    case StripeApiKey => "Stripe API Key"
    case StripePublishableKey => "Stripe Publishable Key"
    case GenericApiKey => "Generic API Key"
    case AccessToken => "Access Token"
    case HardcodedPassword => "Hardcoded Password"
    case DatabasePassword => "Database Password"
    case PrivateKey => "Private Key"
    case SshPrivateKey => "SSH Private Key"
    case BearerToken => "Bearer Token"
    case EmailAddress => "Email Address (Potential)"
    case UrlWithCredentials => "URL with Credentials"
  }

  /** The `pattern` of an entry. */
  function PatternRegex(k: PatternKind): Regex {
    match k
    case OpenAiApiKey => Regex("sk-[a-zA-Z0-9]{32,}", "")
    case AwsAccessKeyId => Regex("AKIA[0-9A-Z]{16}", "")
    case AwsSecretKey => Regex(@"aws_secret_access_key\s*=\s*['""]([^'""]+)['""]", "i")
    case GitHubToken => Regex("ghp_[a-zA-Z0-9]{36}", "")
    case GoogleApiKey => Regex("AIza[0-9A-Za-z-_]{35}", "")
    case SlackToken => Regex("xox[baprs]-[0-9]{12}-[0-9]{12}-[a-zA-Z0-9]{32}", "")
    case StripeApiKey => Regex("sk_live_[0-9a-zA-Z]{24,}", "")
    case StripePublishableKey => Regex("pk_live_[0-9a-zA-Z]{24,}", "")
    case GenericApiKey => Regex(@"api[_-]?key\s*[:=]\s*['""]?([a-zA-Z0-9_\-]{20,})['""]?", "i")
    case AccessToken => Regex(@"access[_-]?token\s*[:=]\s*['""]?([a-zA-Z0-9_\-]{20,})['""]?", "i")
    case HardcodedPassword =>
      Regex(@"password\s*[:=]\s*['""](?!.*(?:example|test|demo|placeholder|dummy|fake|sample|preview|staging|prod_user|staging_user|preview_user))([^'""]{8,})['""]", "i")
    case DatabasePassword => Regex(@"(?:db|database)[_-]?password\s*[:=]\s*['""]([^'""]+)['""]", "i")
    case PrivateKey => Regex(@"-----BEGIN\s+(?:RSA\s+)?PRIVATE\s+KEY-----", "")
    case SshPrivateKey => Regex(@"-----BEGIN\s+(?:DSA|EC|OPENSSH)\s+PRIVATE\s+KEY-----", "")
    case BearerToken => Regex(@"bearer\s+([a-zA-Z0-9_\-\.]{20,})", "i")
    case EmailAddress => Regex(@"[a-zA-Z0-9._%+-]+@[a-zA-Z0-9.-]+\.[a-zA-Z]{2,}", "")
    case UrlWithCredentials => Regex(@"https?:\/\/([^:]+):([^@]+)@", "")
  }

  /** The `severity` of an entry. */
  function PatternSeverity(k: PatternKind): Severity {
    match k
    case PrivateKey | SshPrivateKey => Critical
    case StripePublishableKey | GenericApiKey => Medium
    case EmailAddress => Low
    case _ => High
  }

  /** The `excludePatterns` of an entry (empty where it has none). */
  function PatternExcludes(k: PatternKind): seq<Regex> {
    match k
    case HardcodedPassword =>
      [Regex("password123", ""), Regex("testpassword", ""), Regex("examplepassword", ""),
       Regex("preview_password", ""), Regex("staging_password", ""), Regex("prod_password", ""),
       Regex("dummy_password", ""), Regex("sample_password", "")]
    case EmailAddress =>
      [Regex(@"@example\.com", ""), Regex(@"@test\.com", ""), Regex("@localhost", ""),
       Regex(@"@domain\.com", ""), Regex(@"user@example\.com", ""),
       Regex(@"admin@example\.com", ""), Regex(@"test@example\.com", "")]
    case _ => []
  }

  /** EXCLUDE_PATTERNS: build output, dependencies, reports, lock files, logs. */
  function ExcludePatterns(): seq<Regex> {
    [
      Regex("node_modules", ""), Regex(@"\.git", ""), Regex("dist", ""), Regex("build", ""),
      Regex("coverage", ""), Regex(@"\.next", ""), Regex(@"\.cache", ""),
      Regex("allure-results", ""), Regex("allure-report", ""), Regex("test-results", ""),
      Regex("playwright-report", ""), Regex(@"package-lock\.json", ""), Regex(@"yarn\.lock", ""),
      Regex(@"\.log$", ""), Regex(@"\.env\.example", "")
    ]
  }

  /** DOCUMENTATION_FILES: documents that may quote example secrets. */
  function DocumentationFiles(): seq<Regex> {
    [
      Regex(@"SECURITY_AUDIT_REPORT\.md", ""), Regex(@"SECURITY_SETUP\.md", ""),
      Regex(@"README\.md", ""), Regex(@"HOW_TO_RUN_TESTS\.md", ""), Regex(@"config\/README\.md", "")
    ]
  }

  /** ALWAYS_SCAN: files scanned even when another list would exclude them. */
  function AlwaysScan(): seq<Regex> {
    [
      Regex(@"\.env$", ""), Regex(@"\.env\.local$", ""), Regex(@"config\/.*\.json$", ""),
      Regex(@"\.config\.js$", ""), Regex(@"\.config\.ts$", "")
    ]
  }

  /** The keyword test that marks a line as documentation-like. */
  const DocumentationKeywords :=
    Regex("(?:example|test|demo|placeholder|dummy|fake|sample|tutorial|guide|documentation)", "i")

  /** Some regex of the list matches the text (the source's `list.some(r => r.test(text))`). */
  ghost predicate Matches(rs: seq<Regex>, text: string, test: Engine) {
    exists i :: 0 <= i < |rs| && test(rs[i], text)
  }

  /** `rs.some(r => r.test(text))`, evaluated front to back. */
  function AnyMatch(rs: seq<Regex>, text: string, test: Engine): (b: bool)
    ensures b <==> Matches(rs, text, test)
  {
    if |rs| == 0 then false
    else if test(rs[0], text) then true
    else
      var b := AnyMatch(rs[1..], text, test);
      assert Matches(rs[1..], text, test) ==> Matches(rs, text, test) by {
        if Matches(rs[1..], text, test) {
          var i :| 0 <= i < |rs[1..]| && test(rs[1..][i], text);
          assert test(rs[i + 1], text);
        }
      }
      b
  }

  // ---------------------------------------------------------------------------
  // Which paths are scanned
  // ---------------------------------------------------------------------------

  /** `shouldExcludeFile`: the always-scan list wins over the documentation list, which
      wins over the exclude list. */
  function ShouldExclude(path: string, test: Engine): (excluded: bool)
    ensures Matches(AlwaysScan(), path, test) ==> !excluded
    ensures !Matches(AlwaysScan(), path, test) && Matches(DocumentationFiles(), path, test) ==> excluded
    ensures !Matches(AlwaysScan(), path, test) && !Matches(DocumentationFiles(), path, test) ==>
              (excluded <==> Matches(ExcludePatterns(), path, test))
  {
    if AnyMatch(AlwaysScan(), path, test) then false
    else if AnyMatch(DocumentationFiles(), path, test) then true
    else AnyMatch(ExcludePatterns(), path, test)
  }

  /** A directory entry as `readdirSync` and `statSync` report it. `Unstatable` is an entry
      whose `statSync` throws (a dangling link, a permission error); `Unlistable` is a
      directory whose own `readdirSync` throws. The walk does not catch either, so each ends
      the scan. Links are followed by `statSync` and so appear as what they point to. */
  datatype Node =
    | File(name: string)
    | Dir(name: string, children: seq<Node>)
    | Unstatable(name: string)
    | Unlistable(name: string)

  /** f is the path of a file reached from the entries of `dir` by descending through the
      directories whose paths are `via`, outermost first. */
  ghost predicate Reaches(dir: string, entries: seq<Node>, via: seq<string>, f: string)
    decreases entries
  {
    |entries| > 0 &&
    ( (match entries[0]
        case File(n) => via == [] && f == JoinPath(dir, n)
        case Dir(n, cs) => |via| > 0 && via[0] == JoinPath(dir, n) && Reaches(via[0], cs, via[1..], f)
        case _ => false)
      || Reaches(dir, entries[1..], via, f))
  }

  /** p is the path of an entry below `dir`, reached through the directories `via`, on which
      the walk throws: its stat fails, or it is a directory the walk would enter (it is not
      excluded) whose listing fails. */
  ghost predicate Faults(dir: string, entries: seq<Node>, via: seq<string>, p: string, test: Engine)
    decreases entries
  {
    |entries| > 0 &&
    ( (match entries[0]
        case File(_) => false
        case Dir(n, cs) => |via| > 0 && via[0] == JoinPath(dir, n) && Faults(via[0], cs, via[1..], p, test)
        case Unstatable(n) => via == [] && p == JoinPath(dir, n)
        case Unlistable(n) => via == [] && p == JoinPath(dir, n) && !ShouldExclude(p, test))
      || Faults(dir, entries[1..], via, p, test))
  }

  /** None of the directories descended through is excluded. */
  predicate OpenPath(via: seq<string>, test: Engine) {
    forall i :: 0 <= i < |via| ==> !ShouldExclude(via[i], test)
  }

  /** `getAllFiles`: a depth-first walk in listing order that skips excluded files and does
      not enter excluded directories. A throw ends the walk; its message is the path the
      failing call was given. No returned file is excluded. */
  function GetAllFiles(dir: string, entries: seq<Node>, test: Engine): (files: Result<seq<string>>)
    ensures files.Ok? ==> forall f :: f in files.value ==> !ShouldExclude(f, test)
    decreases entries
  {
    if |entries| == 0 then Ok([])
    else
      var here: Result<seq<string>> := match entries[0]
        case File(n) =>
          Ok(if !ShouldExclude(JoinPath(dir, n), test) then [JoinPath(dir, n)] else [])
        case Dir(n, cs) =>
          if !ShouldExclude(JoinPath(dir, n), test) then GetAllFiles(JoinPath(dir, n), cs, test) else Ok([])
        case Unstatable(n) =>
          Err(JoinPath(dir, n))
        case Unlistable(n) =>
          if !ShouldExclude(JoinPath(dir, n), test) then Err(JoinPath(dir, n)) else Ok([]);
      if here.Err? then here
      else
        var rest := GetAllFiles(dir, entries[1..], test);
        if rest.Err? then rest else Ok(here.value + rest.value)
  }

  /** Every returned file was reached only through directories that are not excluded. */
  lemma {:induction false} GetAllFilesSound(dir: string, entries: seq<Node>, test: Engine, f: string)
    requires GetAllFiles(dir, entries, test).Ok? && f in GetAllFiles(dir, entries, test).value
    ensures exists via :: Reaches(dir, entries, via, f) && OpenPath(via, test)
    decreases entries
  {
    var rest := GetAllFiles(dir, entries[1..], test);
    if f in rest.value {
      GetAllFilesSound(dir, entries[1..], test, f);
      var via :| Reaches(dir, entries[1..], via, f) && OpenPath(via, test);
      assert Reaches(dir, entries, via, f);
    } else {
      match entries[0]
      case File(n) =>
        assert Reaches(dir, entries, [], f);
      case Dir(n, cs) =>
        var p := JoinPath(dir, n);
        GetAllFilesSound(p, cs, test, f);
        assert !ShouldExclude(p, test);
        var via :| Reaches(p, cs, via, f) && OpenPath(via, test);
        var full := [p] + via;
        assert full[1..] == via;
        assert Reaches(dir, entries, full, f);
        assert OpenPath(full, test);
    }
  }

  /** When the walk completes, every file that is not excluded and sits below directories
      that are not excluded is returned. */
  lemma {:induction false} GetAllFilesComplete(dir: string, entries: seq<Node>, test: Engine,
                                               via: seq<string>, f: string)
    requires GetAllFiles(dir, entries, test).Ok?
    requires Reaches(dir, entries, via, f)
    requires !ShouldExclude(f, test)
    requires OpenPath(via, test)
    ensures f in GetAllFiles(dir, entries, test).value
    decreases entries
  {
    var first := match entries[0]
      case File(n) => via == [] && f == JoinPath(dir, n)
      case Dir(n, cs) => |via| > 0 && via[0] == JoinPath(dir, n) && Reaches(via[0], cs, via[1..], f)
      case _ => false;
    if !first {
      GetAllFilesComplete(dir, entries[1..], test, via, f);
    } else {
      match entries[0]
      case File(n) =>
      case Dir(n, cs) =>
        assert !ShouldExclude(via[0], test);
        assert OpenPath(via[1..], test) by {
          forall i | 0 <= i < |via[1..]| ensures !ShouldExclude(via[1..][i], test) {
            assert via[1..][i] == via[i + 1];
          }
        }
        GetAllFilesComplete(via[0], cs, test, via[1..], f);
    }
  }

  /** A walk that throws names a path on which it throws, reached through directories that
      are not excluded. */
  lemma {:induction false} GetAllFilesFaultSound(dir: string, entries: seq<Node>, test: Engine)
    requires GetAllFiles(dir, entries, test).Err?
    ensures exists via :: Faults(dir, entries, via, GetAllFiles(dir, entries, test).message, test) &&
                          OpenPath(via, test)
    decreases entries
  {
    var p := GetAllFiles(dir, entries, test).message;
    var rest := GetAllFiles(dir, entries[1..], test);
    match entries[0]
    case File(n) =>
      GetAllFilesFaultSound(dir, entries[1..], test);
      var via :| Faults(dir, entries[1..], via, p, test) && OpenPath(via, test);
      assert Faults(dir, entries, via, p, test);
    case Unstatable(n) =>
      assert Faults(dir, entries, [], p, test);
    case Unlistable(n) =>
      if ShouldExclude(JoinPath(dir, n), test) {
        GetAllFilesFaultSound(dir, entries[1..], test);
        var via :| Faults(dir, entries[1..], via, p, test) && OpenPath(via, test);
        assert Faults(dir, entries, via, p, test);
      } else {
        assert Faults(dir, entries, [], p, test);
      }
    case Dir(n, cs) =>
      var q := JoinPath(dir, n);
      if !ShouldExclude(q, test) && GetAllFiles(q, cs, test).Err? {
        GetAllFilesFaultSound(q, cs, test);
        var via :| Faults(q, cs, via, p, test) && OpenPath(via, test);
        var full := [q] + via;
        assert full[1..] == via;
        assert Faults(dir, entries, full, p, test);
        assert OpenPath(full, test);
      } else {
        GetAllFilesFaultSound(dir, entries[1..], test);
        var via :| Faults(dir, entries[1..], via, p, test) && OpenPath(via, test);
        assert Faults(dir, entries, via, p, test);
      }
  }

  /** Any entry on which the walk would throw, reached through directories that are not
      excluded, makes the whole walk throw: no file list comes out. */
  lemma {:induction false} GetAllFilesFaultComplete(dir: string, entries: seq<Node>, test: Engine,
                                                    via: seq<string>, p: string)
    requires Faults(dir, entries, via, p, test)
    requires OpenPath(via, test)
    ensures GetAllFiles(dir, entries, test).Err?
    decreases entries
  {
    var first := match entries[0]
      case File(_) => false
      case Dir(n, cs) => |via| > 0 && via[0] == JoinPath(dir, n) && Faults(via[0], cs, via[1..], p, test)
      case Unstatable(n) => via == [] && p == JoinPath(dir, n)
      case Unlistable(n) => via == [] && p == JoinPath(dir, n) && !ShouldExclude(p, test);
    if !first {
      GetAllFilesFaultComplete(dir, entries[1..], test, via, p);
    } else {
      match entries[0]
      case Unstatable(n) =>
      case Unlistable(n) =>
      case Dir(n, cs) =>
        assert !ShouldExclude(via[0], test);
        assert OpenPath(via[1..], test) by {
          forall i | 0 <= i < |via[1..]| ensures !ShouldExclude(via[1..][i], test) {
            assert via[1..][i] == via[i + 1];
          }
        }
        GetAllFilesFaultComplete(via[0], cs, test, via[1..], p);
    }
  }

  // ---------------------------------------------------------------------------
  // Which lines are reported
  // ---------------------------------------------------------------------------

  /** The e-mail false-positive filter: `line.includes` of example, test or sample. */
  predicate LooksLikeExampleEmail(line: string) {
    Includes(line, "example") || Includes(line, "test") || Includes(line, "sample")
  }

  /** The override of the documentation filter: an OpenAI-style key or an AWS access key id
      (the same two regexes as the first two entries). */
  predicate LooksLikeRealKey(line: string, test: Engine) {
    test(PatternRegex(OpenAiApiKey), line) || test(PatternRegex(AwsAccessKeyId), line)
  }

  /** The per-line decision of `scanFile`: the entry's regex matches, none of its own exclude
      patterns does, the e-mail special case does not apply, and the line is not
      documentation-like unless it also carries a real-looking key. */
  predicate Reports(k: PatternKind, line: string, test: Engine) {
    && test(PatternRegex(k), line)
    && !AnyMatch(PatternExcludes(k), line, test)
    && !(k == EmailAddress && LooksLikeExampleEmail(line))
    && !(test(DocumentationKeywords, line) && !LooksLikeRealKey(line, test))
  }

  /** The source tests the e-mail special case by name; only the e-mail entry has that name. */
  lemma EmailCaseByName(k: PatternKind)
    ensures PatternName(k) == "Email Address (Potential)" <==> k == EmailAddress
  {
  }

  /** What an issue records about a finding; `pattern` is the entry, whose name is
      PatternName(pattern). */
  datatype Issue = Issue(file: string, line: nat, pattern: PatternKind, severity: Severity, snippet: string)

  /** The record pushed for a finding on the line with zero-based index `index`: a 1-based
      line number, the entry's name and severity, and at most 100 characters of the
      trimmed line. */
  function MakeIssue(path: string, k: PatternKind, index: nat, line: string): (x: Issue)
    ensures x.line == index + 1 && x.line >= 1
    ensures x.file == path && x.pattern == k && x.severity == PatternSeverity(k)
    ensures |x.snippet| <= 100 && |x.snippet| <= |Trim(line)| && x.snippet == Trim(line)[..|x.snippet|]
    ensures |Trim(line)| <= 100 ==> x.snippet == Trim(line)
    ensures |x.snippet| == if |Trim(line)| < 100 then |Trim(line)| else 100
  {
    Issue(path, index + 1, k, PatternSeverity(k), Take(Trim(line), 100))
  }

  /** A per-(entry, line) reporting decision. The scanning loops below are stated for any
      decision; `scanFile` uses Decision(test). */
  type Decide = (PatternKind, string) -> bool

  function Decision(test: Engine): Decide {
    (k: PatternKind, line: string) => Reports(k, line, test)
  }

  /** x is the issue of its own entry on one of the lines, and the decision kept that pair. */
  ghost predicate Found(path: string, lines: seq<string>, x: Issue, decide: Decide) {
    && 1 <= x.line <= |lines|
    && decide(x.pattern, lines[x.line - 1])
    && x == MakeIssue(path, x.pattern, x.line - 1, lines[x.line - 1])
  }

  /** The inner `lines.forEach` of one entry, from line index `from` on: exactly the lines
      the decision keeps, each giving its issue. */
  function ScanLines(path: string, k: PatternKind, lines: seq<string>, from: nat, decide: Decide)
    : (issues: seq<Issue>)
    requires from <= |lines|
    ensures forall x :: x in issues ==> x.pattern == k && x.line > from && Found(path, lines, x, decide)
    ensures forall i :: from <= i < |lines| && decide(k, lines[i]) ==> MakeIssue(path, k, i, lines[i]) in issues
    decreases |lines| - from
  {
    if from == |lines| then []
    else
      var here := if decide(k, lines[from]) then [MakeIssue(path, k, from, lines[from])] else [];
      here + ScanLines(path, k, lines, from + 1, decide)
  }

  /** Line numbers strictly increase along the list. */
  predicate LineOrdered(issues: seq<Issue>) {
    forall n, n' :: 0 <= n < n' < |issues| ==> issues[n].line < issues[n'].line
  }

  /** Two line-ordered lists, the second wholly below the first, join into a line-ordered list. */
  lemma ConcatLineOrdered(here: seq<Issue>, rest: seq<Issue>, bound: nat)
    requires LineOrdered(here) && LineOrdered(rest)
    requires forall x :: x in here ==> x.line <= bound
    requires forall x :: x in rest ==> x.line > bound
    ensures LineOrdered(here + rest)
  {
    forall n, n' | 0 <= n < n' < |here + rest| ensures (here + rest)[n].line < (here + rest)[n'].line {
      if n' < |here| {
        assert (here + rest)[n] == here[n] && (here + rest)[n'] == here[n'];
      } else if n < |here| {
        assert (here + rest)[n] == here[n] && here[n] in here;
        assert (here + rest)[n'] == rest[n' - |here|] && rest[n' - |here|] in rest;
      } else {
        assert (here + rest)[n] == rest[n - |here|] && (here + rest)[n'] == rest[n' - |here|];
      }
    }
  }

  /** One entry's issues come out in line order. */
  lemma {:induction false} ScanLinesOrdered(path: string, k: PatternKind, lines: seq<string>, from: nat,
                                            decide: Decide)
    requires from <= |lines|
    ensures LineOrdered(ScanLines(path, k, lines, from, decide))
    decreases |lines| - from
  {
    if from < |lines| {
      var here: seq<Issue> := if decide(k, lines[from]) then [MakeIssue(path, k, from, lines[from])] else [];
      var rest := ScanLines(path, k, lines, from + 1, decide);
      ScanLinesOrdered(path, k, lines, from + 1, decide);
      ConcatLineOrdered(here, rest, from + 1);
    }
  }

  /** The outer `SECRET_PATTERNS.forEach`: entry by entry, in list order. */
  function ScanPatterns(path: string, pats: seq<PatternKind>, lines: seq<string>, decide: Decide)
    : seq<Issue>
  {
    if |pats| == 0 then []
    else ScanLines(path, pats[0], lines, 0, decide) + ScanPatterns(path, pats[1..], lines, decide)
  }

  /** Every issue comes from an entry of the list and a line the decision keeps. */
  lemma {:induction false} ScanPatternsSound(path: string, pats: seq<PatternKind>, lines: seq<string>,
                                             decide: Decide, x: Issue)
    requires x in ScanPatterns(path, pats, lines, decide)
    ensures x.pattern in pats && Found(path, lines, x, decide)
  {
    if x !in ScanLines(path, pats[0], lines, 0, decide) {
      ScanPatternsSound(path, pats[1..], lines, decide, x);
    }
  }

  /** Every (entry, line) pair that the decision keeps yields its issue. */
  lemma {:induction false} ScanPatternsComplete(path: string, pats: seq<PatternKind>, lines: seq<string>,
                                                decide: Decide, j: nat, i: nat)
    requires j < |pats| && i < |lines| && decide(pats[j], lines[i])
    ensures MakeIssue(path, pats[j], i, lines[i]) in ScanPatterns(path, pats, lines, decide)
  {
    if j > 0 {
      assert pats[j] == pats[1..][j - 1];
      ScanPatternsComplete(path, pats[1..], lines, decide, j - 1, i);
    }
  }

  // ---------------------------------------------------------------------------
  // Issue order
  // ---------------------------------------------------------------------------

  /** No entry occurs twice in the list. */
  predicate DistinctEntries(pats: seq<PatternKind>) {
    forall j, j' :: 0 <= j < j' < |pats| ==> pats[j] != pats[j']
  }

  /** The position of the first occurrence of k in `pats` (|pats| if there is none). */
  function PositionOf(pats: seq<PatternKind>, k: PatternKind): (pos: nat)
    ensures pos <= |pats|
    ensures pos < |pats| ==> pats[pos] == k
    ensures forall j :: 0 <= j < pos ==> pats[j] != k
  {
    if |pats| == 0 then 0
    else if pats[0] == k then 0
    else 1 + PositionOf(pats[1..], k)
  }

  /** x comes before y in entry-major, then line order. */
  predicate Precedes(pats: seq<PatternKind>, x: Issue, y: Issue) {
    var px := PositionOf(pats, x.pattern);
    var py := PositionOf(pats, y.pattern);
    px < py || (px == py && x.line < y.line)
  }

  /** Every issue of the list precedes every later one. */
  predicate Ordered(pats: seq<PatternKind>, issues: seq<Issue>) {
    forall n, n' :: 0 <= n < n' < |issues| ==> Precedes(pats, issues[n], issues[n'])
  }

  /** Issues come out entry-major in list order, then in line order. */
  lemma {:induction false} ScanPatternsOrdered(path: string, pats: seq<PatternKind>, lines: seq<string>,
                                               decide: Decide)
    requires DistinctEntries(pats)
    ensures Ordered(pats, ScanPatterns(path, pats, lines, decide))
  {
    if |pats| > 0 {
      var first := ScanLines(path, pats[0], lines, 0, decide);
      var rest := ScanPatterns(path, pats[1..], lines, decide);
      assert DistinctEntries(pats[1..]);
      ScanPatternsOrdered(path, pats[1..], lines, decide);
      ScanLinesOrdered(path, pats[0], lines, 0, decide);
      forall x | x in rest ensures PositionOf(pats, x.pattern) == 1 + PositionOf(pats[1..], x.pattern) {
        ScanPatternsSound(path, pats[1..], lines, decide, x);
      }
      ConcatOrdered(pats, first, rest);
    }
  }

  /** Joining the issues of the first entry to the ordered issues of the others keeps the
      order. */
  lemma ConcatOrdered(pats: seq<PatternKind>, first: seq<Issue>, rest: seq<Issue>)
    requires |pats| > 0
    requires forall x :: x in first ==> x.pattern == pats[0]
    requires LineOrdered(first)
    requires forall x :: x in rest ==> PositionOf(pats, x.pattern) == 1 + PositionOf(pats[1..], x.pattern)
    requires Ordered(pats[1..], rest)
    ensures Ordered(pats, first + rest)
  {
    forall n, n' | 0 <= n < n' < |first + rest| ensures Precedes(pats, (first + rest)[n], (first + rest)[n'])
    {
      if n' < |first| {
        assert first[n] in first && first[n'] in first;
      } else if n < |first| {
        assert first[n] in first;
        assert rest[n' - |first|] in rest;
      } else {
        var r, r' := rest[n - |first|], rest[n' - |first|];
        assert r in rest && r' in rest;
        assert Precedes(pats[1..], r, r');
      }
    }
  }

  /** The place of an entry in SECRET_PATTERNS. */
  function CatalogIndex(k: PatternKind): (i: nat)
    ensures i < |SecretPatterns| && SecretPatterns[i] == k
  {
    match k
    case OpenAiApiKey => 0 case AwsAccessKeyId => 1 case AwsSecretKey => 2 case GitHubToken => 3
    case GoogleApiKey => 4 case SlackToken => 5 case StripeApiKey => 6 case StripePublishableKey => 7
    case GenericApiKey => 8 case AccessToken => 9 case HardcodedPassword => 10
    case DatabasePassword => 11 case PrivateKey => 12 case SshPrivateKey => 13 case BearerToken => 14
    case EmailAddress => 15 case UrlWithCredentials => 16
  }

  /** SECRET_PATTERNS lists no entry twice. */
  lemma SecretPatternsDistinct()
    ensures DistinctEntries(SecretPatterns)
  {
    assert forall j :: 0 <= j < |SecretPatterns| ==> CatalogIndex(SecretPatterns[j]) == j;
  }

  // ---------------------------------------------------------------------------
  // One file, the whole tree, the verdict
  // ---------------------------------------------------------------------------

  /** `scanFile`: the file's lines, or None when it cannot be read (which yields no issue).
      An issue is reported exactly for the (entry, line) pairs that pass the filter. */
  function ScanFile(path: string, content: Option<seq<string>>, test: Engine): (issues: seq<Issue>)
    ensures content.None? ==> issues == []
    ensures content.Some? ==> forall x :: x in issues ==> FoundIn(path, content.value, x, test)
    ensures content.Some? ==>
              forall k, i :: (0 <= i < |content.value| && Reports(k, content.value[i], test)) ==>
                MakeIssue(path, k, i, content.value[i]) in issues
  {
    match content
    case None => []
    case Some(lines) =>
      ScanFileSound(path, lines, test);
      ScanFileComplete(path, lines, test);
      ScanPatterns(path, SecretPatterns, lines, Decision(test))
  }

  /** x is the issue of a line of the file that passes the filter for x's entry. */
  ghost predicate FoundIn(path: string, lines: seq<string>, x: Issue, test: Engine) {
    && 1 <= x.line <= |lines|
    && Reports(x.pattern, lines[x.line - 1], test)
    && x == MakeIssue(path, x.pattern, x.line - 1, lines[x.line - 1])
  }

  lemma ScanFileSound(path: string, lines: seq<string>, test: Engine)
    ensures forall x :: x in ScanPatterns(path, SecretPatterns, lines, Decision(test)) ==>
              FoundIn(path, lines, x, test)
  {
    forall x | x in ScanPatterns(path, SecretPatterns, lines, Decision(test))
      ensures FoundIn(path, lines, x, test)
    {
      ScanPatternsSound(path, SecretPatterns, lines, Decision(test), x);
      assert Decision(test)(x.pattern, lines[x.line - 1]);
    }
  }

  lemma ScanFileComplete(path: string, lines: seq<string>, test: Engine)
    ensures forall k, i :: (0 <= i < |lines| && Reports(k, lines[i], test)) ==>
              MakeIssue(path, k, i, lines[i]) in ScanPatterns(path, SecretPatterns, lines, Decision(test))
  {
    forall k, i | 0 <= i < |lines| && Reports(k, lines[i], test)
      ensures MakeIssue(path, k, i, lines[i]) in ScanPatterns(path, SecretPatterns, lines, Decision(test))
    {
      var j := CatalogIndex(k);
      assert Decision(test)(SecretPatterns[j], lines[i]);
      ScanPatternsComplete(path, SecretPatterns, lines, Decision(test), j, i);
    }
  }

  /** The issues of one file come out entry-major in SECRET_PATTERNS order, then by line. */
  lemma ScanFileOrdered(path: string, lines: seq<string>, test: Engine)
    ensures Ordered(SecretPatterns, ScanFile(path, Some(lines), test))
  {
    SecretPatternsDistinct();
    ScanPatternsOrdered(path, SecretPatterns, lines, Decision(test));
  }

  /** The issues of one severity, in their original order (`allIssues.filter`). */
  function OfSeverity(issues: seq<Issue>, sev: Severity): (group: seq<Issue>)
    ensures |group| <= |issues|
  {
    if |issues| == 0 then []
    else (if issues[0].severity == sev then [issues[0]] else []) + OfSeverity(issues[1..], sev)
  }

  /** A severity group holds exactly the issues of that severity. */
  lemma {:induction false} OfSeverityMembers(issues: seq<Issue>, sev: Severity, x: Issue)
    ensures x in OfSeverity(issues, sev) <==> x in issues && x.severity == sev
  {
    if |issues| > 0 {
      OfSeverityMembers(issues[1..], sev, x);
      assert x in issues <==> x == issues[0] || x in issues[1..];
    }
  }

  /** The four severity groups together are as long as the issue list. */
  lemma {:induction false} SeverityGroupsPartition(issues: seq<Issue>)
    ensures |OfSeverity(issues, Critical)| + |OfSeverity(issues, High)|
            + |OfSeverity(issues, Medium)| + |OfSeverity(issues, Low)| == |issues|
  {
    if |issues| > 0 {
      SeverityGroupsPartition(issues[1..]);
    }
  }

  /** An issue blocks a commit when it is CRITICAL or HIGH. */
  predicate Blocking(x: Issue) {
    x.severity == Critical || x.severity == High
  }

  /** The exit code of `scanCodebase`: 1 exactly when the CRITICAL and HIGH groups are not
      both empty, that is, when some issue blocks; 0 otherwise, including when nothing was
      found. */
  function ExitCode(issues: seq<Issue>): (code: int)
    ensures code == 0 || code == 1
    ensures code == 1 <==> exists x :: x in issues && Blocking(x)
  {
    if |issues| == 0 then 0
    else
      var blocking := |OfSeverity(issues, Critical)| + |OfSeverity(issues, High)|;
      assert (exists x :: x in issues && Blocking(x)) ==> blocking > 0 by {
        if exists x :: x in issues && Blocking(x) {
          var x :| x in issues && Blocking(x);
          OfSeverityMembers(issues, x.severity, x);
        }
      }
      assert blocking > 0 ==> exists x :: x in issues && Blocking(x) by {
        if |OfSeverity(issues, Critical)| > 0 {
          OfSeverityMembers(issues, Critical, OfSeverity(issues, Critical)[0]);
        } else if |OfSeverity(issues, High)| > 0 {
          OfSeverityMembers(issues, High, OfSeverity(issues, High)[0]);
        }
      }
      if blocking > 0 then 1 else 0
  }

  /** The issues of every file, file by file (`allIssues.push(...scanFile(file))`): each
      issue is one its own file's scan yields, and every issue of every file is kept. */
  function ScanAll(files: seq<string>, read: string -> Option<seq<string>>, test: Engine)
    : (issues: seq<Issue>)
    ensures forall x :: x in issues ==> x.file in files && x in ScanFile(x.file, read(x.file), test)
    ensures forall f, x :: f in files && x in ScanFile(f, read(f), test) ==> x in issues
  {
    if |files| == 0 then []
    else
      var here := ScanFile(files[0], read(files[0]), test);
      var rest := ScanAll(files[1..], read, test);
      assert forall x :: x in here ==> x.file == files[0] by {
        forall x | x in here ensures x.file == files[0] {
          FileOfIssue(files[0], read(files[0]), test, x);
        }
      }
      assert forall f :: f in files ==> f == files[0] || f in files[1..];
      here + rest
  }

  /** An issue of a file's scan names that file. */
  lemma FileOfIssue(path: string, content: Option<seq<string>>, test: Engine, x: Issue)
    requires x in ScanFile(path, content, test)
    ensures x.file == path
  {
    assert FoundIn(path, content.value, x, test);
  }

  datatype ScanReport = ScanReport(
    files: seq<string>,
    issues: seq<Issue>,
    critical: seq<Issue>,
    high: seq<Issue>,
    medium: seq<Issue>,
    low: seq<Issue>,
    exitCode: int)

  /** The severity group of `issues` for `sev`, with its membership spelled out. */
  lemma GroupMembers(issues: seq<Issue>, sev: Severity)
    ensures forall x :: x in OfSeverity(issues, sev) <==> x in issues && x.severity == sev
  {
    forall x ensures x in OfSeverity(issues, sev) <==> x in issues && x.severity == sev {
      OfSeverityMembers(issues, sev, x);
    }
  }

  /** `scanCodebase` without its console output: walk, scan, group, decide. `read` stands
      for `readFileSync` followed by `split('\n')`, None when the read throws (a failed read
      is caught in `scanFile`). A throw of the walk is not caught: the scan ends with that
      error and no report, and Node ends the process with status 1. */
  function ScanCodebase(root: string, entries: seq<Node>, read: string -> Option<seq<string>>, test: Engine)
    : (r: Result<ScanReport>)
    ensures r.Err? ==> exists via :: Faults(root, entries, via, r.message, test) && OpenPath(via, test)
    ensures r.Ok? ==> forall f :: f in r.value.files ==> !ShouldExclude(f, test)
    ensures r.Ok? ==> forall x :: x in r.value.issues ==>
              x.file in r.value.files && x in ScanFile(x.file, read(x.file), test)
    ensures r.Ok? ==> forall f, x :: f in r.value.files && x in ScanFile(f, read(f), test) ==> x in r.value.issues
    ensures r.Ok? ==> forall x :: x in r.value.critical <==> x in r.value.issues && x.severity == Critical
    ensures r.Ok? ==> forall x :: x in r.value.high <==> x in r.value.issues && x.severity == High
    ensures r.Ok? ==> forall x :: x in r.value.medium <==> x in r.value.issues && x.severity == Medium
    ensures r.Ok? ==> forall x :: x in r.value.low <==> x in r.value.issues && x.severity == Low
    ensures r.Ok? ==> |r.value.critical| + |r.value.high| + |r.value.medium| + |r.value.low| == |r.value.issues|
    ensures r.Ok? ==> (r.value.exitCode == 1 <==> exists x :: x in r.value.issues && Blocking(x))
    ensures r.Ok? ==> (r.value.exitCode == 0 <==> forall x :: x in r.value.issues ==> !Blocking(x))
  {
    match GetAllFiles(root, entries, test)
    case Err(p) =>
      GetAllFilesFaultSound(root, entries, test);
      Err(p)
    case Ok(files) =>
      var issues := ScanAll(files, read, test);
      SeverityGroupsPartition(issues);
      GroupMembers(issues, Critical);
      GroupMembers(issues, High);
      GroupMembers(issues, Medium);
      GroupMembers(issues, Low);
      Ok(ScanReport(files, issues,
        OfSeverity(issues, Critical), OfSeverity(issues, High),
        OfSeverity(issues, Medium), OfSeverity(issues, Low),
        ExitCode(issues)))
  }

  /** An entry on which the walk throws, reached through directories that are not excluded,
      leaves no report at all. */
  lemma ScanCodebaseAborts(root: string, entries: seq<Node>, read: string -> Option<seq<string>>, test: Engine,
                           via: seq<string>, p: string)
    requires Faults(root, entries, via, p, test) && OpenPath(via, test)
    ensures ScanCodebase(root, entries, read, test).Err?
  {
    GetAllFilesFaultComplete(root, entries, test, via, p);
  }

  /** Every issue of a report is a reported match on its line of a scanned, readable file. */
  lemma ScanCodebaseSound(root: string, entries: seq<Node>, read: string -> Option<seq<string>>, test: Engine,
                          x: Issue)
    requires ScanCodebase(root, entries, read, test).Ok?
    requires x in ScanCodebase(root, entries, read, test).value.issues
    ensures x.file in ScanCodebase(root, entries, read, test).value.files
    ensures read(x.file).Some? && FoundIn(x.file, read(x.file).value, x, test)
  {
    assert x in ScanFile(x.file, read(x.file), test);
  }

  /** Every reported match in every scanned, readable file reaches the report, and a
      critical or high one makes the exit code 1. */
  lemma ScanCodebaseComplete(root: string, entries: seq<Node>, read: string -> Option<seq<string>>, test: Engine,
                             f: string, k: PatternKind, i: nat)
    requires ScanCodebase(root, entries, read, test).Ok?
    requires f in ScanCodebase(root, entries, read, test).value.files
    requires read(f).Some? && i < |read(f).value| && Reports(k, read(f).value[i], test)
    ensures MakeIssue(f, k, i, read(f).value[i]) in ScanCodebase(root, entries, read, test).value.issues
    ensures PatternSeverity(k) == Critical || PatternSeverity(k) == High ==>
              ScanCodebase(root, entries, read, test).value.exitCode == 1
  {
    var x := MakeIssue(f, k, i, read(f).value[i]);
    assert x in ScanFile(f, read(f), test);
    assert x in ScanCodebase(root, entries, read, test).value.issues;
  }

  // ---------------------------------------------------------------------------
  // Consequences of the line filter
  // ---------------------------------------------------------------------------

  /** An e-mail address on a line that mentions example, test or sample is never reported. */
  lemma EmailExamplesNeverReported(line: string, test: Engine)
    requires LooksLikeExampleEmail(line)
    ensures !Reports(EmailAddress, line, test)
  {
  }

  /** A documentation-like line is only reported when it also carries a real-looking key. */
  lemma DocumentationLinesNeedRealKey(k: PatternKind, line: string, test: Engine)
    requires test(DocumentationKeywords, line) && Reports(k, line, test)
    ensures test(PatternRegex(OpenAiApiKey), line) || test(PatternRegex(AwsAccessKeyId), line)
  {
  }

  /** OpenAI-style and AWS access keys are reported even on documentation-like lines. */
  lemma RealKeysAlwaysReported(line: string, test: Engine)
    ensures test(PatternRegex(OpenAiApiKey), line) ==> Reports(OpenAiApiKey, line, test)
    ensures test(PatternRegex(AwsAccessKeyId), line) ==> Reports(AwsAccessKeyId, line, test)
  {
  }

  /** A line that one of an entry's own exclude patterns matches is never reported for it. */
  lemma ExcludedLinesNeverReported(k: PatternKind, line: string, test: Engine, e: nat)
    requires e < |PatternExcludes(k)| && test(PatternExcludes(k)[e], line)
    ensures !Reports(k, line, test)
  {
  }
}

=== FILE: string_order.dfy ===
/** The order `Array.prototype.sort()` without a comparator puts strings in: lexicographic
    by character (ECMA-262 section 23.1.3.30; code units and characters coincide for text
    in the Basic Multilingual Plane). Sorting is modelled as an insertion sort; only its
    result matters, and that is fixed by the order being total. */
module StringOrder {

  /** a precedes or equals b. */
  predicate LexLe(a: string, b: string)
    decreases |a|
  {
    |a| == 0 || (|b| > 0 && (a[0] < b[0] || (a[0] == b[0] && LexLe(a[1..], b[1..]))))
  }

  lemma {:induction false} LexLeReflexive(a: string)
    ensures LexLe(a, a)
    decreases |a|
  {
    if |a| > 0 {
      LexLeReflexive(a[1..]);
    }
  }

  lemma {:induction false} LexLeTotal(a: string, b: string)
    ensures LexLe(a, b) || LexLe(b, a)
    decreases |a|
  {
    if |a| > 0 && |b| > 0 && a[0] == b[0] {
      LexLeTotal(a[1..], b[1..]);
    }
  }

  lemma {:induction false} LexLeTransitive(a: string, b: string, c: string)
    requires LexLe(a, b) && LexLe(b, c)
    ensures LexLe(a, c)
    decreases |a|
  {
    if |a| > 0 && a[0] == b[0] && b[0] == c[0] {
      LexLeTransitive(a[1..], b[1..], c[1..]);
    }
  }

  lemma {:induction false} LexLeAntisymmetric(a: string, b: string)
    requires LexLe(a, b) && LexLe(b, a)
    ensures a == b
    decreases |a|
  {
    if |a| > 0 {
      LexLeAntisymmetric(a[1..], b[1..]);
      assert a == [a[0]] + a[1..] && b == [b[0]] + b[1..];
    }
  }

  ghost predicate Sorted(s: seq<string>) {
    forall i, j :: 0 <= i < j < |s| ==> LexLe(s[i], s[j])
  }

  /** A bound below every element of a sorted sequence stays sorted in front of it. */
  lemma SortedCons(x: string, s: seq<string>)
    requires Sorted(s)
    requires forall y :: y in s ==> LexLe(x, y)
    ensures Sorted([x] + s)
  {
    var r := [x] + s;
    forall i, j | 0 <= i < j < |r|
      ensures LexLe(r[i], r[j])
    {
      if i > 0 {
        assert r[i] == s[i - 1] && r[j] == s[j - 1];
      } else {
        assert r[j] == s[j - 1];
        assert r[j] in s;
      }
    }
  }

  /** Inserts x into a sorted sequence, in front of the first element it precedes. */
  function Insert(x: string, s: seq<string>): (r: seq<string>)
    requires Sorted(s)
    ensures Sorted(r)
    ensures multiset(r) == multiset(s) + multiset{x}
  {
    if |s| == 0 then [x]
    else if LexLe(x, s[0]) then
      InsertFront(x, s);
      [x] + s
    else
      var rest := Insert(x, s[1..]);
      InsertBehind(x, s, rest);
      assert s == [s[0]] + s[1..];
      [s[0]] + rest
  }

  lemma InsertFront(x: string, s: seq<string>)
    requires Sorted(s) && |s| > 0 && LexLe(x, s[0])
    ensures Sorted([x] + s)
  {
    forall y | y in s
      ensures LexLe(x, y)
    {
      var j :| 0 <= j < |s| && s[j] == y;
      if j > 0 {
        LexLeTransitive(x, s[0], y);
      }
    }
    SortedCons(x, s);
  }

  lemma InsertBehind(x: string, s: seq<string>, rest: seq<string>)
    requires Sorted(s) && |s| > 0 && !LexLe(x, s[0])
    requires Sorted(rest) && multiset(rest) == multiset(s[1..]) + multiset{x}
    ensures Sorted([s[0]] + rest)
  {
    LexLeTotal(x, s[0]);
    forall y | y in rest
      ensures LexLe(s[0], y)
    {
      assert y in multiset(rest);
      if y != x {
        assert y in multiset(s[1..]);
        var j :| 0 <= j < |s[1..]| && s[1..][j] == y;
        assert s[j + 1] == y;
      }
    }
    SortedCons(s[0], rest);
  }

  /** `files.sort()`. */
  function Sort(s: seq<string>): (r: seq<string>)
    ensures Sorted(r)
    ensures multiset(r) == multiset(s)
  {
    if |s| == 0 then []
    else
      var init := s[..|s| - 1];
      var r := Insert(s[|s| - 1], Sort(init));
      SplitLast(s);
      r
  }

  lemma SplitLast(s: seq<string>)
    requires |s| > 0
    ensures multiset(s) == multiset(s[..|s| - 1]) + multiset{s[|s| - 1]}
  {
    assert s == s[..|s| - 1] + [s[|s| - 1]];
  }

  /** The last element of the sorted list is the greatest of the inputs: it is one of them,
      every input precedes or equals it, and it is the only input with that property. */
  lemma LastOfSortedIsGreatest(s: seq<string>)
    requires |s| > 0
    ensures |Sort(s)| == |s|
    ensures var m := Sort(s)[|s| - 1];
            m in s &&
            (forall f :: f in s ==> LexLe(f, m)) &&
            (forall g :: g in s && (forall f :: f in s ==> LexLe(f, g)) ==> g == m)
  {
    var r := Sort(s);
    assert |r| == |multiset(r)| == |multiset(s)| == |s|;
    var m := r[|s| - 1];
    assert m in multiset(r);
    assert m in s;
    forall f | f in s
      ensures LexLe(f, m)
    {
      assert f in multiset(s);
      assert f in r;
      var i :| 0 <= i < |r| && r[i] == f;
      if i < |r| - 1 {
      } else {
        LexLeReflexive(f);
      }
    }
    forall g | g in s && (forall f :: f in s ==> LexLe(f, g))
      ensures g == m
    {
      LexLeAntisymmetric(g, m);
    }
  }
}

=== FILE: test_helper.dfy ===
/** The test helper (src/utils/test-helper.ts): run a test body and, when it rejects, run
    the failure handler before rethrowing. `test` is what the test body does; `handler` is
    what `handleFailureComprehensive(page, testInfo)` does for the same page and test. */
module TestHelper {
  import opened Wrappers
  import opened JsValues
  import opened Effects
  import opened FailureHandling

  /** `executeWithFailureHandling(page, testInfo, testFn)`. */
  function ExecuteWithFailureHandling(info: TestInfo, test: Run, handler: Run): (r: Run)
    ensures |r.events| >= 1 + |test.events| && r.events[0] == Invoked(TestBody)
    ensures forall i :: 0 <= i < |test.events| ==> r.events[1 + i] == test.events[i]
    ensures test.outcome.Completed? ==> r.outcome == Completed && |r.events| == 1 + |test.events|
    ensures test.outcome.Threw? ==>
              |r.events| == 2 + |test.events| + |handler.events| &&
              r.events[1 + |test.events|] == Invoked(FailureHandler) &&
              (forall i :: 0 <= i < |handler.events| ==> r.events[2 + |test.events| + i] == handler.events[i]) &&
              r.outcome == (if handler.outcome.Threw? then handler.outcome else test.outcome)
    ensures NoInvocations(test.events) && NoInvocations(handler.events) ==>
              Count(r.events, Invoked(FailureHandler)) == (if test.outcome.Threw? then 1 else 0)
  {
    var body := [Invoked(TestBody)] + test.events;
    HandlerMarkers(body, handler.events, test.events);
    if test.outcome.Completed? then Run(body, Completed)
    else
      var es := body + [Invoked(FailureHandler)] + handler.events;
      Run(es, if handler.outcome.Threw? then handler.outcome else test.outcome)
  }

  /** Counting the handler marker in the two shapes the helper produces. */
  lemma HandlerMarkers(body: seq<Event>, handler: seq<Event>, test: seq<Event>)
    requires body == [Invoked(TestBody)] + test
    ensures NoInvocations(test) ==> Count(body, Invoked(FailureHandler)) == 0
    ensures NoInvocations(test) && NoInvocations(handler) ==>
              Count(body + [Invoked(FailureHandler)] + handler, Invoked(FailureHandler)) == 1
  {
    var e := Invoked(FailureHandler);
    if NoInvocations(test) {
      assert e !in body by {
        assert forall i :: 0 <= i < |test| ==> test[i] != e;
      }
      CountConcat(body + [e], handler, e);
      CountConcat(body, [e], e);
      assert NoInvocations(handler) ==> e !in handler;
    }
  }

  /** With the real handler: when the test body rejects, the handler runs once and the
      body's own error is what the helper rethrows, unless the handler itself rejects. What
      the handler captures still depends on `testInfo.status`, not on the rejection: for a
      status other than "failed"/"timedOut" nothing follows the handler marker. */
  lemma RethrowsOriginalError(info: TestInfo, test: Run, w: Artifacts, env: ProcessEnv)
    requires test.outcome.Threw?
    ensures var r := ExecuteWithFailureHandling(info, test, HandleFailureComprehensive(info, w, None, env));
            (!FailedOrTimedOut(info.status) || info.error.None? || w.active ==> r.outcome == test.outcome) &&
            (!FailedOrTimedOut(info.status) ==> |r.events| == 2 + |test.events|) &&
            (FailedOrTimedOut(info.status) && info.error.Some? && !w.active ==> r.outcome == Threw(w.refusal))
  {
  }

  /** A wrapped test: a function of the page (its artifacts) and the test info. */
  type TestFn = (Artifacts, TestInfo) -> Run

  /** `wrapTest(testFn)`: the wrapped function hands its own page and test info to `testFn`
      and to the failure handler. */
  function WrapTest(testFn: TestFn, env: ProcessEnv): (wrapped: TestFn)
    ensures forall w, info :: wrapped(w, info) ==
              ExecuteWithFailureHandling(info, testFn(w, info), HandleFailureComprehensive(info, w, None, env))
  {
    (w: Artifacts, info: TestInfo) =>
      ExecuteWithFailureHandling(info, testFn(w, info), HandleFailureComprehensive(info, w, None, env))
  }

  /** A wrapped test that resolves never calls the handler; one that rejects calls it
      exactly once. */
  lemma WrappedHandlerCalls(testFn: TestFn, env: ProcessEnv, w: Artifacts, info: TestInfo)
    requires NoInvocations(testFn(w, info).events)
    ensures Count(WrapTest(testFn, env)(w, info).events, Invoked(FailureHandler))
            == (if testFn(w, info).outcome.Threw? then 1 else 0)
  {
  }
}

=== FILE: test_hooks.dfy ===
/** The reusable test hooks (src/hooks/test-hooks.ts): a before-hook that announces the
    test, an after-hook that dispatches on the test status, and a wrapper that runs the
    three in order. `Invoked` markers record each call.

    `handler` is what `handleFailureComprehensive(page, testInfo)` does for the page and
    test at hand; `FailureHandling.HandleFailureComprehensive` computes it, and the lemmas
    at the end put the two together. */
module TestHooks {
  import opened Wrappers
  import opened JsValues
  import opened Logging
  import opened Effects
  import opened FailureHandling

  /** `beforeEachHook`: one console line; it cannot reject. */
  function BeforeEachHook(info: TestInfo): (r: Run)
    ensures r.outcome == Completed && |r.events| == 1 && r.events[0].Console?
  {
    Run([Console(ConsoleLog, "\n\U{1F9EA} Starting test: " + info.title)], Completed)
  }

  /** `afterEachHook`: on "failed"/"timedOut" it announces the failure and calls the
      handler, catching and logging whatever that rejects with; on "passed" and "skipped"
      it only logs; any other status does nothing. */
  function AfterEachHook(info: TestInfo, handler: Run): (r: Run)
    ensures r.outcome == Completed
    ensures NoInvocations(handler.events) ==>
              Count(r.events, Invoked(FailureHandler)) == (if FailedOrTimedOut(info.status) then 1 else 0) &&
              Invoked(AfterEach) !in r.events
    ensures !FailedOrTimedOut(info.status) ==> NoInvocations(r.events)
    ensures info.status == Some(Passed) || info.status == Some(Skipped) ==> |r.events| == 1 && r.events[0].Console?
    ensures info.status.None? || info.status == Some(Interrupted) ==> r == Done
    ensures FailedOrTimedOut(info.status) ==>
              |r.events| == 2 + |handler.events| + (if handler.outcome.Threw? then 1 else 0) &&
              r.events[0] == Console(ConsoleLog, "\U{274C} Test failed: " + info.title) &&
              r.events[1] == Invoked(FailureHandler) &&
              (forall i :: 0 <= i < |handler.events| ==> r.events[2 + i] == handler.events[i]) &&
              (handler.outcome.Threw? ==> r.events[|r.events| - 1] == Console(ConsoleError, "Error in failure handler:"))
  {
    if FailedOrTimedOut(info.status) then
      var caught := if handler.outcome.Threw? then [Console(ConsoleError, "Error in failure handler:")] else [];
      var head := [Console(ConsoleLog, "\U{274C} Test failed: " + info.title), Invoked(FailureHandler)];
      HandlerCalledOnce(head, handler.events, caught);
      Run(head + handler.events + caught, Completed)
    else if info.status == Some(Passed) then
      Run([Console(ConsoleLog, "\U{2705} Test passed: " + info.title)], Completed)
    else if info.status == Some(Skipped) then
      Run([Console(ConsoleLog, "\U{23ED}\U{FE0F}  Test skipped: " + info.title)], Completed)
    else Done
  }

  /** The handler marker occurs once, and the after-hook marker not at all, in a trace whose
      head has the one and not the other and whose middle records no invocation. */
  lemma HandlerCalledOnce(head: seq<Event>, handler: seq<Event>, tail: seq<Event>)
    requires Count(head, Invoked(FailureHandler)) == 1 && Invoked(AfterEach) !in head
    requires NoInvocations(tail)
    ensures NoInvocations(handler) ==>
              Count(head + handler + tail, Invoked(FailureHandler)) == 1 &&
              Invoked(AfterEach) !in head + handler + tail
  {
    CountConcat(head + handler, tail, Invoked(FailureHandler));
    CountConcat(head, handler, Invoked(FailureHandler));
    assert Invoked(FailureHandler) !in tail;
  }

  /** The wrapper `withFailureHandling(testFn)` applied to a page and a test: `test` is what
      `testFn` does. The before-hook runs, then the test body if the before-hook resolved,
      and in the `finally` the after-hook, whose outcome never replaces the body's. */
  function WithFailureHandling(info: TestInfo, test: Run, handler: Run): (r: Run)
    ensures r.outcome == test.outcome
    ensures |r.events| == 4 + |test.events| + |AfterEachHook(info, handler).events|
    ensures r.events[0] == Invoked(BeforeEach) && r.events[1] == BeforeEachHook(info).events[0]
    ensures r.events[2] == Invoked(TestBody)
    ensures forall i :: 0 <= i < |test.events| ==> r.events[3 + i] == test.events[i]
    ensures r.events[3 + |test.events|] == Invoked(AfterEach)
  {
    var before := [Invoked(BeforeEach)] + BeforeEachHook(info).events;
    var body := [Invoked(TestBody)] + test.events;
    var after := [Invoked(AfterEach)] + AfterEachHook(info, handler).events;
    Run(before + body + after, test.outcome)
  }

  /** The same composition written with the sequencing combinators: `try { await before;
      await testFn } finally { await after }`. */
  lemma WithFailureHandlingIsTryFinally(info: TestInfo, test: Run, handler: Run)
    ensures WithFailureHandling(info, test, handler) ==
              Finally(Then(Then(Run([Invoked(BeforeEach)], Completed), BeforeEachHook(info)),
                           Run([Invoked(TestBody)] + test.events, test.outcome)),
                      Run([Invoked(AfterEach)] + AfterEachHook(info, handler).events, Completed))
  {
  }

  /** The after-hook runs exactly once, after the test body, whatever the body did, as long
      as neither the body nor the handler calls the hooks themselves. */
  lemma AfterHookRunsOnce(info: TestInfo, test: Run, handler: Run)
    requires NoInvocations(test.events) && NoInvocations(handler.events)
    ensures Count(WithFailureHandling(info, test, handler).events, Invoked(AfterEach)) == 1
  {
    var before := [Invoked(BeforeEach)] + BeforeEachHook(info).events;
    var body := [Invoked(TestBody)] + test.events;
    var after := AfterEachHook(info, handler).events;
    var e := Invoked(AfterEach);
    assert WithFailureHandling(info, test, handler).events == (before + body) + ([e] + after);
    CountConcat(before + body, [e] + after, e);
    CountConcat([e], after, e);
    assert e !in before + body by {
      assert forall i :: 0 <= i < |test.events| ==> test.events[i] != e;
    }
  }

  /** With the real handler: the after-hook never rejects, even when the handler does (a
      refused error-details attachment), and it calls the handler exactly on failure. */
  lemma AfterEachHookWithHandler(info: TestInfo, w: Artifacts, env: ProcessEnv)
    ensures var r := AfterEachHook(info, HandleFailureComprehensive(info, w, None, env));
            r.outcome == Completed &&
            Count(r.events, Invoked(FailureHandler)) == (if FailedOrTimedOut(info.status) then 1 else 0) &&
            (FailedOrTimedOut(info.status) && info.error.Some? && !w.active ==>
              r.events[|r.events| - 1] == Console(ConsoleError, "Error in failure handler:"))
  {
    var h := HandleFailureComprehensive(info, w, None, env);
    var r := AfterEachHook(info, h);
    if FailedOrTimedOut(info.status) && info.error.Some? && !w.active {
      assert r.events == r.events[..2 + |h.events|] + r.events[2 + |h.events|..];
    }
  }
}

=== FILE: wrappers.dfy ===
/** Failure-compatible wrappers shared by every module of the model.
    - Option<T> stands for the source's nullable values (`T | null`, `T | undefined`).
    - Result<T> stands for an operation that either returns a value or throws an Error
      carrying a message. */
module Wrappers {

  datatype Option<+T> = None | Some(value: T) {

    /** The value when present, otherwise `default` (the source's `x ?? default`). */
    function GetOr(default: T): T {
      match this
      case Some(v) => v
      case None => default
    }
  }

  /** A returned value, or a thrown Error with its message. */
  datatype Result<+T> = Ok(value: T) | Err(message: string) {

    predicate IsFailure() {
      Err?
    }

    function PropagateFailure<U>(): Result<U>
      requires Err?
    {
      Err(message)
    }

    function Extract(): T
      requires Ok?
    {
      value
    }
  }
}
